=== FILE: README.md ===
# NDN_DCN forwarding core in Dafny

NDN_DCN runs Named Data Networking (NDN) in data-centre networks on top of the
ns-3 simulator's ndnSIM module. This project models its forwarding core as
pure functions over immutable datatypes and proves properties of them. The
core has two variants. The BCube one forwards Interests along BCube source
routes that are carried in a packet tag. The plain one splits Interests
across the cheapest faces of a FIB entry. Both rebalance traffic shares from
NACK feedback and pace sending with per-face token buckets. The parts modelled:

- `Limits`: the `LimitsDeltaRate` token bucket behind each face.
- `FaceMetrics`, `FibEntry`: a FIB entry's per-face records. These hold
  counters, decayed averages, the RTT estimator and the cost, and the entry
  offers a by-face lookup and a by-metric ranking. The plain variant's
  metric update and min-cost rebalancing live here too.
- `BCubeFib`: the BCube variant of the entry. Its routing cost packs the
  recorded source routes as decimal digits, and its rebalancing keeps every
  traffic share in [5, 100] and the shares' total at 100.
- `BCubeTag`: the source-route tag, its hop getters, and its byte encoding.
- `Pit`: the operations the strategies perform on a PIT entry.
- `FwBase`, `FaceLimiters`, `FwLimits`, `FwNacks`, `FwBestCC`, `FwNode`: the
  BCube strategy stack. This is the base `ForwardingStrategy`, the `Nacks`
  layer, `PerOutFaceDeltaLimits` and `BestCC`, composed into a node that
  handles Interests, NACKs and Data.
- `MinCostFw`: the plain variant's `BestCC`, which chooses among the cheapest
  admitted faces by a weighted coin.
- `ConsumerPacing`, `ConsumerOm`, `PlainConsumerOm`: the two `ConsumerOm`
  applications. Their additive-increase, NACK-driven decrease limit
  controllers pace the sending of Interests.
- `L2`: the layer-2 switch protocol, which maps BCube hops to its faces.
- `Fib2`: the name-prefix table of FIB entries.
- `BCubeTopo`: the generator of BCube(n, k) wirings, with server addresses
  as base-n digits.

Assertions and fatal errors of the program, and null dereferences, are
results of the form `Fatal(reason)`. There are exceptions: a few asserts
guard a condition the caller must establish, and they are modelled as the
member's precondition. These are `Limits.BorrowLimit` (the bucket is below
its limit), `Limits.UpdateCurrentLimit` (the limit is not negative),
`FaceMetrics.UpdateRtt` and `FibEntry.UpdateFaceRtt` (the RTT estimator is
consistent), `FibEntry.UpdateStatus` and `FibEntry.UpdateFaceRtt` (the face
has a record), and `BCubeTag.SetCurTag` (the hop index is below `MAX_K`). The clock, the
random numbers, the content store's answer and whether the PIT can create an
entry are inputs of the handlers. Packets that a handler sends are returned
in order as a list. Each handler is composed from the virtual calls of the
class stack it belongs to.

`Env.corrected` selects between two versions of the propagation step. When
it is false the model follows the program as written; when it is true it
uses the corrected step that "## Findings" describes. It is a switch of the
model, not an option of the program.

## Model

| member | source | states |
|---|---|---|
| Limits.New | BCube/ns-3/src/ndnSIM/utils/ndn-limits-delta-rate.cc:55-64 | A new limiter has an empty bucket and old bucket, ceiling 1, a one-second interval and no NACK; it is within its ceiling with exactly one token of headroom. |
| Limits.SetLimits | BCube/ns-3/src/ndnSIM/utils/ndn-limits-delta-rate.cc:73-81 | Configuring a rate makes the ceiling one reset interval's worth of that rate; the configured maximum is the rate; the counters are kept. |
| Limits.UpdateCurrentLimit | BCube/ns-3/src/ndnSIM/utils/ndn-limits-delta-rate.cc:84-90 | The ceiling becomes the new limit times the reset interval; the bucket is kept. |
| Limits.IsBelowLimit | BCube/ns-3/src/ndnSIM/utils/ndn-limits-delta-rate.cc:92-98 | Admission holds exactly when the limiter is disabled or at least one whole token of headroom remains. |
| Limits.BorrowLimit | BCube/ns-3/src/ndnSIM/utils/ndn-limits-delta-rate.cc:100-107 | A disabled limiter is unchanged; an enabled one gains exactly one token in its bucket and nothing else; a bucket within its ceiling stays within it. |
| Limits.ReturnLimit | BCube/ns-3/src/ndnSIM/utils/ndn-limits-delta-rate.cc:109-113 | Returning a token leaves the limiter as it was (leakage is time driven). |
| Limits.AvailableIncrement | BCube/ns-3/src/ndnSIM/utils/ndn-limits-delta-rate.cc:115-123 | The reported headroom is never negative. |
| Limits.UpdateBucket | BCube/ns-3/src/ndnSIM/utils/ndn-limits-delta-rate.cc:125-143 | The periodic reset moves the bucket into the old bucket and empties it; a limiter not attached to a face is unchanged. |
| Limits.IncreaseNack | ns-3/src/ndnSIM/utils/ndn-limits-delta-rate.h:113-123 | One more NACK is counted and nothing else changes, so admission is unaffected. |
| Limits.GettersReportBucket | ns-3/src/ndnSIM/utils/ndn-limits-delta-rate.h:95-111 | The limit getters report the ceiling and the counter getter the bucket; an enabled limiter admits exactly when its headroom is at least one; the configured maximum times the interval is the ceiling. |
| Limits.BorrowsBoundedByCeiling | BCube/ns-3/src/ndnSIM/utils/ndn-limits-delta-rate.cc:92-107 | Within one interval, n admissions each followed by a borrow are possible only while the bucket plus n stays within the ceiling. |
| FaceMetrics.NewFaceMetric | ns-3/src/ndnSIM/model/fib/ndn-fib-entry.h:75-91 | A new record carries the face and the cost, is YELLOW, has zero counters and RTT estimates, fraction 1 and sharing metric 1, and is consistent. |
| FaceMetrics.IncreaseNack | ns-3/src/ndnSIM/model/fib/ndn-fib-entry.h:181-199 | The live NACK getter, which reports one more than the counter, goes up by one; nothing else changes. |
| FaceMetrics.IncreaseDataIn | ns-3/src/ndnSIM/model/fib/ndn-fib-entry.h:207-223 | The Data-in counter goes up by one; nothing else changes. |
| FaceMetrics.IncreaseDataCE | ns-3/src/ndnSIM/model/fib/ndn-fib-entry.h:225-241 | The congestion-marked Data counter goes up by one; nothing else changes. |
| FaceMetrics.IncreaseInterest | ns-3/src/ndnSIM/model/fib/ndn-fib-entry.h:263-273 | The Interest count goes up by one; nothing else changes. |
| FaceMetrics.Decay | ns-3/src/ndnSIM/model/fib/ndn-fib-entry.h:45 | One decay step moves a sixteenth of the way from the previous average to the live count and lands between them. |
| FaceMetrics.ResetCounter | ns-3/src/ndnSIM/model/fib/ndn-fib-entry.h:276-296 | Each decayed counter moves a sixteenth toward its live counter and ends between them; the live counters restart at zero; cost, status, fraction, sharing metric and RTT are untouched; non-negative counters stay non-negative. |
| FaceMetrics.ResetCounterGetters | ns-3/src/ndnSIM/model/fib/ndn-fib-entry.h:194-205 | After a reset the live NACK getter reports its floor of one, and the decayed getter lies between its old value and the NACKs counted during the interval. |
| FaceMetrics.UpdateRtt | ns-3/src/ndnSIM/model/fib/ndn-fib-entry.cc:60-79 | The first sample sets the smoothed RTT to the sample and the variation to half of it; later samples move the smoothed RTT an eighth and the variation a quarter toward the deviation; other fields are kept. |
| FaceMetrics.UpdateRttKeepsConsistent | ns-3/src/ndnSIM/model/fib/ndn-fib-entry.cc:60-79 | With non-negative samples the estimator never reaches a variation without a smoothed RTT, which the program asserts against, and both estimates stay non-negative. |
| FibEntry.NewEntry | ns-3/src/ndnSIM/model/fib/ndn-fib-entry.h:395-404 | A new entry is valid, has no face, is not yet rebalanced and has counted no Data. |
| FibEntry.Find | ns-3/src/ndnSIM/model/fib/ndn-fib-entry.h:347-376 | The by-face lookup finds a record exactly when the entry has that face, and the record found carries it. |
| FibEntry.FindAt | ns-3/src/ndnSIM/model/fib/ndn-fib-entry.h:347-376 | In a valid entry the lookup of a face returns the record at that face's position. |
| FibEntry.AddOrUpdateRoutingMetric | ns-3/src/ndnSIM/model/fib/ndn-fib-entry.cc:113-139 | An unknown face is inserted with the given cost; a known face takes the new cost and YELLOW only when that lowers its cost or it was RED, and otherwise keeps its record; every other face keeps its record. |
| FibEntry.CostNeverRaised | ns-3/src/ndnSIM/model/fib/ndn-fib-entry.cc:113-139 | The update never raises the cost of a face that is not RED, and afterwards the face is not RED. |
| FibEntry.UpdateStatus | ns-3/src/ndnSIM/model/fib/ndn-fib-entry.cc:97-111 | The face's status is set; every other field and every other face is unchanged. |
| FibEntry.UpdateFaceRtt | ns-3/src/ndnSIM/model/fib/ndn-fib-entry.cc:83-95 | The face's record takes the RTT update with the sample; every other face is unchanged. |
| FibEntry.SetRealDelayToProducer | ns-3/src/ndnSIM/model/fib/ndn-fib-entry.cc:141-153 | The face's delay to the producer is recorded; an absent face leaves the entry unchanged; other faces are kept. |
| FibEntry.Invalidate | ns-3/src/ndnSIM/model/fib/ndn-fib-entry.cc:156-169 | Every face becomes RED at the largest 16-bit cost; the faces and the rest of their records are kept. |
| FibEntry.InvalidateThenAdd | ns-3/src/ndnSIM/model/fib/ndn-fib-entry.cc:113-169 | After invalidation any metric update of a present face is taken, even a higher cost, and the face becomes YELLOW. |
| FibEntry.RemoveFace | ns-3/src/ndnSIM/model/fib/ndn-fib-entry.h:456-460 | The face's record is gone, every other face keeps its record, and the entry shrinks by one when the face was present. |
| FibEntry.IncreaseData | ns-3/src/ndnSIM/model/fib/ndn-fib-entry.h:462-472 | The entry's Data count goes up by one. |
| FibEntry.ShowRate | BCube/ns-3/src/ndnSIM/model/fib/ndn-fib-entry.cc:198-211 | The periodic rate report restarts the entry's Data counter at zero. |
| FibEntry.Rank | ns-3/src/ndnSIM/model/fib/ndn-fib-entry.h:347-376 | The by-metric view is a permutation of the records, ordered by (status, cost). |
| FibEntry.RankMembers | ns-3/src/ndnSIM/model/fib/ndn-fib-entry.h:347-376 | The ranking holds exactly the entry's records, and its head has the least (status, cost). |
| FibEntry.FindBestCandidate | ns-3/src/ndnSIM/model/fib/ndn-fib-entry.cc:351-357 | An entry without faces has no candidate (the program throws); otherwise the candidate is a record of the entry, and with no skip one of least (status, cost). |
| FibEntry.CandidatesCoverEntry | ns-3/src/ndnSIM/model/fib/ndn-fib-entry.h:445-451 | Every record of the entry is the candidate for some skip below the number of faces. |
| FibEntry.MinCost | ns-3/src/ndnSIM/model/fib/ndn-fib-entry.cc:206-213 | The least cost of the records, capped by the bound. |
| FibEntry.KBoundAt | ns-3/src/ndnSIM/model/fib/ndn-fib-entry.cc:234-259 | The bound is at most `MAX_BOUND` and at most the step bound of every least-cost record: the gain that takes that record's fraction to the edge of [5, 100]. |
| FibEntry.KBoundAtNonNegative | ns-3/src/ndnSIM/model/fib/ndn-fib-entry.cc:234-259 | While the least-cost fractions lie in [5, 100], the bound is not negative. |
| FibEntry.ResetCountMinCost | ns-3/src/ndnSIM/model/fib/ndn-fib-entry.cc:171-349 | An entry without faces stops the node; otherwise every record's counters are reset, the entry is marked rebalanced with no Data counted, and only the least-cost records get a new fraction: 100 / n on the first run. |
| FibEntry.LaterRun | ns-3/src/ndnSIM/model/fib/ndn-fib-entry.cc:222-288 | On a later run each least-cost record moves by the gain times the deviation of its sharing metric from the mean. |
| FibEntry.LaterRunStaysInBand | ns-3/src/ndnSIM/model/fib/ndn-fib-entry.cc:234-285 | A later run on an entry whose fractions lie in [5, 100] leaves every fraction in [5, 100]. |
| FibEntry.SetFractionsInBand | ns-3/src/ndnSIM/model/fib/ndn-fib-entry.cc:264-285 | With a gain between 0 and every least-cost record's step bound, the new fractions stay in [5, 100]. |
| FibEntry.StepsStayInBand | ns-3/src/ndnSIM/model/fib/ndn-fib-entry.cc:264-285 | Records that each move by at most their step bound, the others unchanged, stay in [5, 100]. |
| FibEntry.StepAtInBand | ns-3/src/ndnSIM/model/fib/ndn-fib-entry.cc:268-273 | One record moved by a gain between 0 and its step bound stays in [5, 100]. |
| FibEntry.FirstRunShares | ns-3/src/ndnSIM/model/fib/ndn-fib-entry.cc:265-288 | On the first run the least-cost fractions add up to 100 minus the remainder of 100 / n. |
| FibEntry.EqualShare | ns-3/src/ndnSIM/model/fib/ndn-fib-entry.cc:283 | The first-run share is the integer quotient of 100 by n: n shares do not exceed 100, and n shares one larger would. |
| FibEntry.UnitSharingKeepsFractions | ns-3/src/ndnSIM/model/fib/ndn-fib-entry.h:89 | With the sharing metric fixed at 1 (its updates are commented out), a later run leaves every fraction where it was. |
| BCubeFib.CRem10 | BCube/ns-3/src/ndnSIM/model/fw/ndn-forwarding-strategy.cc:676-677 | The C remainder by 10: same sign as the dividend, magnitude below 10, and together with the truncated quotient it gives the dividend back. |
| BCubeFib.CDiv10 | BCube/ns-3/src/ndnSIM/model/fw/ndn-forwarding-strategy.cc:676-677 | The C quotient by 10, truncated toward zero. |
| BCubeFib.AddOrUpdateRoutingMetric | BCube/ns-3/src/ndnSIM/model/fib/ndn-fib-entry.cc:114-156 | An unknown face gets a cost holding only the route; a known face records one more route and turns YELLOW; other faces are kept. |
| BCubeFib.GetRoutingMetric | BCube/ns-3/src/ndnSIM/model/fib/ndn-fib-entry.cc:158-166 | The face's cost, or -1 exactly when the entry has no record of the face. |
| BCubeFib.PackRouteExtends | BCube/ns-3/src/ndnSIM/model/fib/ndn-fib-entry.cc:144-151 | Recording one more route extends the packed list by exactly that route. |
| BCubeFib.AddRoutesPacks | BCube/ns-3/src/ndnSIM/model/fib/ndn-fib-entry.cc:114-156 | Up to nine two-digit routes on a new face leave exactly their packed list as its cost, and the metric query reports it. |
| BCubeFib.PackedDecodes | BCube/ns-3/src/ndnSIM/model/fib/ndn-fib-entry.cc:144-151 | The count digit of a packed list is the number of routes, and place k holds the k-th newest route. |
| BCubeFib.PackedFitsInt32 | BCube/ns-3/src/ndnSIM/model/fib/ndn-fib-entry.cc:144-151 | Four two-digit routes fit a signed 32-bit cost. |
| BCubeFib.MatchesRoute | BCube/ns-3/src/ndnSIM/model/fw/best-cc.cc:211-229 | The lookup reports a match exactly when some recorded route, newest first, has the key as its leading digit. |
| BCubeFib.PackedRouteLookup | BCube/ns-3/src/ndnSIM/model/fw/best-cc.cc:211-229 | On a packed list the lookup matches exactly the routes whose leading digit is the key. |
| BCubeFib.KBoundAll | BCube/ns-3/src/ndnSIM/model/fib/ndn-fib-entry.cc:253-273 | The gain is at most the bound and at most every record's step bound. |
| BCubeFib.ResetCount | BCube/ns-3/src/ndnSIM/model/fib/ndn-fib-entry.cc:212-302 | Every record's counters are reset and the entry marked rebalanced; the first run gives each face 100 / n; later runs move each fraction by the gain times its deviation. |
| BCubeFib.FirstRunSumsTo100 | BCube/ns-3/src/ndnSIM/model/fib/ndn-fib-entry.cc:278-296 | After the first run the fractions add up to 100. |
| BCubeFib.LaterRunStaysInBand | BCube/ns-3/src/ndnSIM/model/fib/ndn-fib-entry.cc:253-296 | A later run keeps every fraction in [5, 100]. |
| BCubeFib.StepInBand | BCube/ns-3/src/ndnSIM/model/fib/ndn-fib-entry.cc:253-296 | One face's step with a gain between 0 and its step bound stays in [5, 100]. |
| BCubeFib.LaterRunConservesTotal | BCube/ns-3/src/ndnSIM/model/fib/ndn-fib-entry.cc:246-296 | When the fractions add up to 100 before a later run, they still add up to 100 after it, whatever the NACK counts and the gain. |
| BCubeTag.DefaultTag | BCube/ns-3/src/ndnSIM/model/ndn-bcube-tag.h:43-46 | A tag before any setter is at the first hop, with the next and previous ports unset, and reports no previous hop. |
| BCubeTag.SetForwardingTag | BCube/ns-3/src/ndnSIM/model/ndn-bcube-tag.h:53-57 | Only the route changes. |
| BCubeTag.SetCurTag | BCube/ns-3/src/ndnSIM/model/ndn-bcube-tag.h:59-64 | Only the hop index changes; it must be below the maximum of 10 hops. |
| BCubeTag.SetNextHop | BCube/ns-3/src/ndnSIM/model/fw/ndn-forwarding-strategy.cc:472 | Only the next port changes. |
| BCubeTag.SetPrevHop | BCube/ns-3/src/ndnSIM/model/fw/ndn-forwarding-strategy.cc:677 | Only the previous port changes. |
| BCubeTag.SetInterest | BCube/ns-3/src/ndnSIM/model/fw/nacks.cc:197 | Only the back-toward-consumer flag changes. |
| BCubeTag.GetNextHop | BCube/ns-3/src/ndnSIM/model/ndn-bcube-tag.h:66-70 | The port of the current hop is a single decimal digit. |
| BCubeTag.GetPrevHop | BCube/ns-3/src/ndnSIM/model/ndn-bcube-tag.h:72-79 | The previous hop's digit, or the no-hop marker at the first hop. |
| BCubeTag.NextHopBecomesPrevHop | BCube/ns-3/src/ndnSIM/model/ndn-bcube-tag.h:66-79 | After advancing the hop index the previous hop is the former next hop. |
| BCubeTag.LeValueOfBytes | BCube/ns-3/src/ndnSIM/model/ndn-bcube-tag.cc:54-58 | Writing a number that fits n bytes and reading it back gives the number. |
| BCubeTag.LeBytesOfValue | BCube/ns-3/src/ndnSIM/model/ndn-bcube-tag.cc:54-58 | Reading n bytes and writing the number back gives the same bytes. |
| BCubeTag.Serialize | BCube/ns-3/src/ndnSIM/model/ndn-bcube-tag.cc:45-60 | A valid tag is written as exactly 14 bytes. |
| BCubeTag.Deserialize | BCube/ns-3/src/ndnSIM/model/ndn-bcube-tag.cc:62-79 | Route, hop index, flag and previous port are read from their byte positions; a flagged tag's next port is its current route digit, an unflagged one's is read from the buffer. |
| BCubeTag.SerializeRoundTrip | BCube/ns-3/src/ndnSIM/model/ndn-bcube-tag.cc:51-79 | Writing then reading restores route, hop index, flag and previous port; the next port survives on unflagged tags and is the current route digit on flagged ones. |
| BCubeTag.DeserializeRoundTrip | BCube/ns-3/src/ndnSIM/model/ndn-bcube-tag.cc:51-79 | Any 14 bytes whose flag byte is zero are reproduced by reading and rewriting them. |
| Pit.NewPitEntry | BCube/ns-3/src/ndnSIM/model/fw/ndn-forwarding-strategy.cc:149 | A new entry has no nonce, no incoming or outgoing face, and no retransmission allowed. |
| Pit.OutRecordOf | BCube/ns-3/src/ndnSIM/model/fw/ndn-forwarding-strategy.cc:661 | The outgoing record found carries the face, and none is found exactly when the face is not outgoing. |
| Pit.AddSeenNonce | BCube/ns-3/src/ndnSIM/model/fw/ndn-forwarding-strategy.cc:163 | The nonce is seen afterwards; nothing else changes. |
| Pit.AddIncoming | BCube/ns-3/src/ndnSIM/model/fw/ndn-forwarding-strategy.cc:185 | The face is incoming with the given port; a face already incoming keeps its record; faces stay unique. |
| Pit.RemoveIncoming | BCube/ns-3/src/ndnSIM/model/fw/ndn-forwarding-strategy.cc:440 | The face is no longer incoming and every other incoming record stays, in order. |
| Pit.AddOutgoing | BCube/ns-3/src/ndnSIM/model/fw/ndn-forwarding-strategy.cc:661 | A first send starts a record with no retransmission; a repeat counts one more retransmission, restamps the record and clears its NACK mark; other faces keep their records. |
| Pit.SetWaitingInVain | BCube/ns-3/src/ndnSIM/model/fw/nacks.cc:268 | The face's outgoing record is marked as answered by a NACK; an entry without that record is unchanged; other records are kept. |
| Pit.ClearIncoming | BCube/ns-3/src/ndnSIM/model/fw/ndn-forwarding-strategy.cc:400 | No face is incoming afterwards; nothing else changes. |
| Pit.ClearOutgoing | BCube/ns-3/src/ndnSIM/model/fw/ndn-forwarding-strategy.cc:403 | No face is outgoing afterwards; nothing else changes. |
| Pit.IncreaseAllowedRetxCount | BCube/ns-3/src/ndnSIM/model/fw/ndn-forwarding-strategy.cc:594 | One more retransmission is allowed on every face. |
| Pit.MarkErased | BCube/ns-3/src/ndnSIM/model/fw/ndn-forwarding-strategy.cc:406 | The entry is handed to pruning; its records are kept. |
| FwBase.CanSendBaseCases | BCube/ns-3/src/ndnSIM/model/fw/ndn-forwarding-strategy.cc:617-646 | The base admission test refuses exactly the arrival face and the out faces already carrying the Interest with no retransmission left. |
| FwBase.DetectRetransmitted | BCube/ns-3/src/ndnSIM/model/fw/ndn-forwarding-strategy.cc:413-429 | An Interest is a retransmission exactly when its face is already incoming. |
| FwBase.ShouldSuppress | BCube/ns-3/src/ndnSIM/model/fw/ndn-forwarding-strategy.cc:534-566 | Never suppress for a new entry or for a face the Interest went out on; otherwise suppress unless it is a detected retransmission. |
| FwBase.BaseDuplicate | BCube/ns-3/src/ndnSIM/model/fw/ndn-forwarding-strategy.cc:350-370 | The face becomes incoming with the port of the tag's previous hop; no packet is sent. |
| FwBase.BaseExhaust | BCube/ns-3/src/ndnSIM/model/fw/ndn-forwarding-strategy.cc:389-408 | When every outgoing face was answered by a NACK the entry forgets its faces and is erased; otherwise nothing changes. |
| FwBase.ReplyTag | BCube/ns-3/src/ndnSIM/model/fw/ndn-forwarding-strategy.cc:462-488 | The Data copy carries the Data's tag with the next hop set to the record's port. |
| FwBase.Satisfy | BCube/ns-3/src/ndnSIM/model/fw/ndn-forwarding-strategy.cc:432-498 | The arrival face must be in the FIB; every other incoming face gets one copy of the Data with its own port; then the entry forgets its faces and is erased. |
| FwBase.SatisfyReachesEachWaitingFaceOnce | BCube/ns-3/src/ndnSIM/model/fw/ndn-forwarding-strategy.cc:432-498 | Each waiting face receives exactly one copy and the arrival face none. |
| FwBase.MeasureRtt | BCube/ns-3/src/ndnSIM/model/fw/ndn-forwarding-strategy.cc:521-531 | When the Interest went out on the Data's face, that face's RTT estimator takes the time since the send; otherwise nothing changes. |
| FaceLimiters.Attached | ns-3/src/ndnSIM/model/fw/best-cc.h:122-131 | A registered face gets a fresh limiter marked as attached. |
| FaceLimiters.AttachedIsNew | ns-3/src/ndnSIM/model/fw/best-cc.h:122-131 | The attached limiter is the freshly constructed one with only the attached flag set. |
| FaceLimiters.Register | ns-3/src/ndnSIM/model/fw/best-cc.h:122-131 | Exactly the face is added and faces registered before keep their limiters. |
| FaceLimiters.AddFace | ns-3/src/ndnSIM/model/fw/best-cc.h:122-131 | Registering a face that already has a limiter stops the node; otherwise the face gets a fresh attached limiter and other faces keep theirs. |
| FwLimits.TakeToken | BCube/ns-3/src/ndnSIM/model/fw/best-cc.cc:299-300 | One token is taken from the face's limiter; nothing else changes and every limiter stays attached. |
| FwLimits.SendTag | BCube/ns-3/src/ndnSIM/model/fw/ndn-forwarding-strategy.cc:676-677 | The Interest leaves with next hop the last digit of the out face's cost and previous hop the digits above it. |
| FwLimits.SendTagSplitsCost | BCube/ns-3/src/ndnSIM/model/fw/ndn-forwarding-strategy.cc:676-677 | A cost written as prevhop*10 + nexthop splits back into those two ports. |
| FwLimits.TrySend | BCube/ns-3/src/ndnSIM/model/fw/ndn-forwarding-strategy.cc:650-691 | Fails exactly when admission fails, changing nothing; else the face becomes outgoing now and one Interest leaves on it, tagged from the face's FIB cost. |
| FwLimits.TrySendRecordsFace | BCube/ns-3/src/ndnSIM/model/fw/ndn-forwarding-strategy.cc:650-691 | A successful send keeps limiters and FIB records, and records the out face with a fresh stamp, a first send with no retransmission. |
| FwLimits.ReturnAll | ns-3/src/ndnSIM/model/fw/best-cc.h:195-226 | Every outgoing face's token is handed back. |
| FwLimits.WillSatisfy | ns-3/src/ndnSIM/model/fw/best-cc.h:211-226 | Before satisfaction the tokens go back, then the base RTT measurement runs. |
| FwLimits.WillEraseTimedOut | ns-3/src/ndnSIM/model/fw/best-cc.h:195-209 | Before a timed-out entry is erased the tokens go back. |
| FwLimits.ReturnsKeepBuckets | ns-3/src/ndnSIM/model/fw/best-cc.h:195-226 | Satisfaction and timeout leave every limiter as it was, since its tokens leak with time only. |
| FwNacks.Duplicate | BCube/ns-3/src/ndnSIM/model/fw/nacks.cc:111-141 | The base handling, then one loop NACK back on the arrival face when NACKs are enabled, with no BCube tag. |
| FwNacks.GiveUpNack | BCube/ns-3/src/ndnSIM/model/fw/nacks.cc:178-206 | A give-up NACK toward the consumer, next hop the record's port. |
| FwNacks.GiveUps | BCube/ns-3/src/ndnSIM/model/fw/nacks.cc:158-207 | One give-up NACK per incoming record, in order. |
| FwNacks.AppNacks | BCube/ns-3/src/ndnSIM/model/fw/nacks.cc:209-238 | One NACK per application with the given sharing value, in order. |
| FwNacks.GiveUp | BCube/ns-3/src/ndnSIM/model/fw/nacks.cc:144-246 | The outgoing records go and the base handler runs; one give-up NACK per incoming face, then one per application. |
| FwNacks.Uninformed | BCube/ns-3/src/ndnSIM/model/fw/nacks.cc:209-238 | The applications whose face is not incoming, in order. |
| FwNacks.Exhaust | BCube/ns-3/src/ndnSIM/model/fw/nacks.cc:144-246 | With NACKs on: give-up NACKs to the incoming faces and, for an Interest from another node, to the uninformed applications; NACKs off: only the base handler. |
| FwNacks.Told | BCube/ns-3/src/ndnSIM/model/fw/nacks.cc:209-238 | No application is told for an Interest from an application; otherwise those whose face is not incoming. |
| FwNacks.AppShare | BCube/ns-3/src/ndnSIM/model/fw/nacks.cc:233 | The complement to 100 of the traffic share of the Interest's face, when the entry holds it. |
| FwNacks.ExhaustPackets | BCube/ns-3/src/ndnSIM/model/fw/nacks.cc:144-246 | The exhaustion sends one give-up NACK per incoming face, in order, then one NACK per uninformed application with the complementary share. |
| FwNacks.ExhaustTellsApps | BCube/ns-3/src/ndnSIM/model/fw/nacks.cc:209-238 | An application is told exactly when its face is not incoming and the Interest came from another node; with NACKs off none is. |
| FwNacks.ExhaustSendsOnlyNacks | BCube/ns-3/src/ndnSIM/model/fw/nacks.cc:144-246 | Exhaustion only sends NACKs, keeps the state sound, and erases the entry once every outgoing face was in vain. |
| FwNacks.NoteNack | BCube/ns-3/src/ndnSIM/model/fw/nacks.cc:249-268 | A give-up NACK removes its face's incoming record; a refusal marks the face's outgoing record as in vain; nothing else changes. |
| FwBestCC.FirstApp | BCube/ns-3/src/ndnSIM/model/fw/best-cc.cc:182-190 | The position found is an application face and the first one; none exactly when no face is an application. |
| FwBestCC.FirstRoute | BCube/ns-3/src/ndnSIM/model/fw/best-cc.cc:195-242 | The position found is the first face whose cost records the route. |
| FwBestCC.Walk | BCube/ns-3/src/ndnSIM/model/fw/best-cc.cc:245-282 | A position found belongs to a face other than the Interest's and is one where the running share reaches the target; nothing is found only when the total share stays below the target. |
| FwBestCC.Split | BCube/ns-3/src/ndnSIM/model/fw/best-cc.cc:245-282 | No other share gives no face; otherwise the target falls on the chosen face. |
| FwBestCC.SplitChooses | BCube/ns-3/src/ndnSIM/model/fw/best-cc.cc:258-271 | The target lies below the total share, so a positive total always selects a face. |
| FwBestCC.WalkBands | BCube/ns-3/src/ndnSIM/model/fw/best-cc.cc:258-271 | With whole shares each face is chosen for exactly the targets in its band of the running sum. |
| FwBestCC.Choose | BCube/ns-3/src/ndnSIM/model/fw/best-cc.cc:172-282 | The first application face; else, from another node, the first face carrying the tag's route (none untagged); from an application, the split. |
| FwBestCC.Select | BCube/ns-3/src/ndnSIM/model/fw/best-cc.cc:172-282 | The chosen face is always a face of the entry. |
| FwBestCC.DoPropagate | BCube/ns-3/src/ndnSIM/model/fw/best-cc.cc:285-311 | A face failing admission gets one more FIB NACK and nothing is sent; otherwise the Interest goes out, a token is taken and its Interest count goes up. |
| FwBestCC.DoPropagateSendsWhatItReports | BCube/ns-3/src/ndnSIM/model/fw/best-cc.cc:285-311 | Success is reported exactly when one Interest went out, on a face now outgoing; state stays sound and limiters attached. |
| FwBestCC.DoPropagateAsWritten | BCube/ns-3/src/ndnSIM/model/fw/best-cc.cc:285-311 | The program's order: token first, then the send, whose own admission test asks the limiter again. |
| FwBestCC.DoPropagateAsWrittenKeepsShape | BCube/ns-3/src/ndnSIM/model/fw/best-cc.cc:285-311 | At most one Interest leaves, only when success is reported, on a face now outgoing; state stays sound. |
| FwBestCC.Forward | BCube/ns-3/src/ndnSIM/model/fw/best-cc.cc:299-301 | Either order reports success exactly when the chosen face passed admission; only the corrected one always sends then. |
| FwBestCC.AsWrittenReportsUnsentInterest | BCube/ns-3/src/ndnSIM/model/fw/best-cc.cc:299-301 | With the last token in the limiter, the program's order reports success, sends nothing and records no outgoing face. |
| FwBestCC.CorrectedSendsInterest | BCube/ns-3/src/ndnSIM/model/fw/best-cc.cc:299-301 | In the same situation the corrected order sends the Interest and records the face as outgoing. |
| FwBestCC.NackLimits | BCube/ns-3/src/ndnSIM/model/fw/best-cc.cc:380-382 | One NACK is counted on the face's limiter when it has one. |
| FwBestCC.OnNack | BCube/ns-3/src/ndnSIM/model/fw/best-cc.cc:334-400 | No PIT entry drops the NACK; a refusal with a face still waiting drops it; otherwise counted on the limiter and FIB and the entry exhausted. |
| FwBestCC.OnNackGiveUpNotEchoed | BCube/ns-3/src/ndnSIM/model/fw/best-cc.cc:350-353 | A give-up NACK is never answered on the face it came from. |
| FwBestCC.Repropagate | BCube/ns-3/src/ndnSIM/model/fw/nacks.cc:295-300 | When propagation fails the entry is exhausted, and the packets of both are sent in order. |
| FwBestCC.ValidNack | BCube/ns-3/src/ndnSIM/model/fw/nacks.cc:249-302 | After a refusal leaving every outgoing face in vain a fresh untagged normal Interest is propagated; the entry is exhausted only when that fails. |
| FwBestCC.UntaggedResendExhausts | BCube/ns-3/src/ndnSIM/model/fw/nacks.cc:268-300 | At an intermediate server such a refusal always exhausts the entry: the untagged Interest finds no face, whatever tag the NACK carried, and only NACKs leave. |
| FwNode.IsRetransmission | BCube/ns-3/src/ndnSIM/model/fw/ndn-forwarding-strategy.cc:413-429 | Asked only when detection is on: whether the arrival face was already incoming. |
| FwNode.Attempts | BCube/ns-3/src/ndnSIM/model/fw/ndn-forwarding-strategy.cc:585-598 | One attempt and, after a failed retransmission, a second after allowing one more retransmission; at most one Interest leaves, only on success. |
| FwNode.Propagate | BCube/ns-3/src/ndnSIM/model/fw/ndn-forwarding-strategy.cc:569-614 | The arrival face becomes incoming, the strategy tries to send, and when nothing went out and no outgoing face waits the entry is exhausted. |
| FwNode.PropagatePacketsMatchOutcome | BCube/ns-3/src/ndnSIM/model/fw/ndn-forwarding-strategy.cc:569-614 | A successful propagation sends only Interests; a failed one only the exhaustion's NACKs. |
| FwNode.ExhaustedPropagation | BCube/ns-3/src/ndnSIM/model/fw/ndn-forwarding-strategy.cc:610-613 | A propagation that ends in exhaustion fails and sends only the exhaustion's NACKs. |
| FwNode.RetryOnlyOnRetransmission | BCube/ns-3/src/ndnSIM/model/fw/ndn-forwarding-strategy.cc:591-598 | A failed propagation raises the allowance exactly when the face was already incoming and detection is on. |
| FwNode.Serve | BCube/ns-3/src/ndnSIM/model/fw/ndn-forwarding-strategy.cc:176-195 | A content-store hit erases the entry and sends one Data copy per incoming face, the arrival face included, each with its record's port. |
| FwNode.OnInterest | BCube/ns-3/src/ndnSIM/model/fw/ndn-forwarding-strategy.cc:138-224 | No entry and no room drops the Interest; a seen nonce is a duplicate answered by one loop NACK when NACKs are on; a store hit erases the entry sending only Data; otherwise the node ends as propagation leaves it. |
| FwNode.Dispatch | BCube/ns-3/src/ndnSIM/model/fw/nacks.cc:81-89 | A non-zero NACK code goes to the NACK handler; anything else is an Interest. |
| FwNode.CountData | BCube/ns-3/src/ndnSIM/model/fw/ndn-forwarding-strategy.cc:263-294 | The entry's Data count moves, and the arrival face's Data-in and congestion counts when no incoming face is a FIB face. |
| FwNode.OnData | BCube/ns-3/src/ndnSIM/model/fw/ndn-forwarding-strategy.cc:227-331 | Without a PIT entry the Data is dropped; otherwise limiters are kept, the entry is erased, the Data count moves, and every incoming face but the arrival one gets exactly one Data copy. |
| MinCostFw.Cheapest | ns-3/src/ndnSIM/model/fw/best-cc.cc:157-162 | The least routing cost, capped by the start value. |
| MinCostFw.Tied | ns-3/src/ndnSIM/model/fw/best-cc.cc:164-169 | Exactly the records at the given cost, in order. |
| MinCostFw.Admitted | ns-3/src/ndnSIM/model/fw/best-cc.cc:172-194 | Exactly the records passing admission, in order. |
| MinCostFw.Candidates | ns-3/src/ndnSIM/model/fw/best-cc.cc:172-194 | Admitted records up to the first application face, then that face with total zero; else all admitted records. |
| MinCostFw.ScanCollectsAll | ns-3/src/ndnSIM/model/fw/best-cc.cc:172-194 | With no application face the scan appends exactly the admitted records. |
| MinCostFw.ScanCollectsToApp | ns-3/src/ndnSIM/model/fw/best-cc.cc:172-194 | Up to the first application face the scan appends the admitted records, then that face, total zero. |
| MinCostFw.ScanTallies | ns-3/src/ndnSIM/model/fw/best-cc.cc:172-194 | With non-negative metrics and no application face the total is the sum of the candidates' metrics. |
| MinCostFw.Trunc | ns-3/src/ndnSIM/model/fw/best-cc.cc:201-203 | The C truncation of a real toward zero. |
| MinCostFw.CRem | ns-3/src/ndnSIM/model/fw/best-cc.cc:201-203 | The C remainder of a non-negative number: in [0, |k|). |
| MinCostFw.Pick | ns-3/src/ndnSIM/model/fw/best-cc.cc:196-221 | Nothing collected, no pick; total zero, the first; otherwise where the coin reaches the target. |
| MinCostFw.AsWrittenNeverPicksLast | ns-3/src/ndnSIM/model/fw/best-cc.cc:213 | With unit metrics the program's comparison never picks the last of two or more candidates. |
| MinCostFw.CorrectedPicksEvenly | ns-3/src/ndnSIM/model/fw/best-cc.cc:213 | With unit metrics the corrected comparison picks candidate rand mod n. |
| MinCostFw.Front | ns-3/src/ndnSIM/model/fw/best-cc.cc:157-169 | The cheapest records of the ranking, in ranking order. |
| MinCostFw.CandidateFacts | ns-3/src/ndnSIM/model/fw/best-cc.cc:164-194 | A candidate is a least-cost record that passed admission unless it is an application face. |
| MinCostFw.Choice | ns-3/src/ndnSIM/model/fw/best-cc.cc:145-224 | The chosen face is of least cost and passed admission unless it is an application face. |
| MinCostFw.NoChoiceIffNoneAdmitted | ns-3/src/ndnSIM/model/fw/best-cc.cc:172-197 | Nothing is chosen exactly when no cheapest face is an application face and none passes admission. |
| MinCostFw.UnitChoiceIsEven | ns-3/src/ndnSIM/model/fw/best-cc.cc:201-221 | With unit metrics and no application face the corrected choice takes admitted candidate rand mod n. |
| MinCostFw.DoPropagate | ns-3/src/ndnSIM/model/fw/best-cc.cc:224-228 | A chosen face must have headroom, which the limiter asserts; one token is taken and success reported; the Interest leaves on the face exactly when the send's admission test passes, and the PIT records it. |
| MinCostFw.DoPropagateSendsOnChosenFace | ns-3/src/ndnSIM/model/fw/best-cc.cc:224-228 | A chosen node face always receives the Interest; state stays sound. |
| MinCostFw.DoPropagateAsWritten | ns-3/src/ndnSIM/model/fw/best-cc.cc:145-236 | The program's order and comparison: token first, then the send. |
| MinCostFw.AsWrittenLosesLastToken | ns-3/src/ndnSIM/model/fw/best-cc.cc:226-228 | With the last token, the program's order takes it, sends nothing, and reports success. |
| MinCostFw.DoPropagateAsWrittenKeepsShape | ns-3/src/ndnSIM/model/fw/best-cc.cc:226-228 | The chosen face's limiter gives one token; at most one Interest leaves, on the chosen face. |
| MinCostFw.Forward | ns-3/src/ndnSIM/model/fw/best-cc.cc:145-236 | A chosen face gives one token and success is reported; at most one Interest leaves, on that face. |
| MinCostFw.ForwardKeepsNacks | ns-3/src/ndnSIM/model/fw/best-cc.cc:145-236 | No limiter's NACK count moves; failure only with no choice, state unchanged. |
| MinCostFw.Retry | BCube/ns-3/src/ndnSIM/model/fw/nacks.cc:295-300 | A second propagation, exhausting the entry when nothing is chosen. |
| MinCostFw.ValidNack | BCube/ns-3/src/ndnSIM/model/fw/nacks.cc:249-302 | After a refusal leaving every outgoing face in vain a fresh untagged normal Interest is propagated; the entry is exhausted only when that fails. |
| MinCostFw.ResentTagIsFresh | BCube/ns-3/src/ndnSIM/model/fw/nacks.cc:279-287 | An Interest re-sent after a NACK carries the default tag with only its two hops set, whatever tag the NACK carried. |
| MinCostFw.RetrySendsPacketTag | BCube/ns-3/src/ndnSIM/model/fw/ndn-forwarding-strategy.cc:669-678 | An Interest sent by a second propagation keeps the packet's tag, or the default tag, except for the two hops. |
| MinCostFw.ForwardSendsPacketTag | BCube/ns-3/src/ndnSIM/model/fw/ndn-forwarding-strategy.cc:669-678 | An Interest sent by a propagation keeps the packet's tag, or the default tag, except for the two hops. |
| MinCostFw.OnNack | ns-3/src/ndnSIM/model/fw/best-cc.cc:238-247 | The Nacks handling, then one NACK on the arrival face's limiter when it has one. |
| ConsumerPacing.ScheduleNext | BCube/ns-3/src/ndnSIM/apps/ndn-consumer-om.cc:112-129 | The first call sends at once; later, one interval of 1/limit, only when no send is pending. |
| ConsumerPacing.ScheduleNextIdempotent | BCube/ns-3/src/ndnSIM/apps/ndn-consumer-om.cc:112-129 | A call made while a send is pending asks for nothing, so sends are never doubled. |
| ConsumerPacing.PrefixMatches | BCube/ns-3/src/ndnSIM/apps/ndn-consumer-om.cc:175-187 | True exactly when every prefix component matches the name's component at the same position. |
| ConsumerOm.Create | BCube/ns-3/src/ndnSIM/apps/ndn-consumer-om.cc:90-106 | Floor and limit 100, increase 20 with ceiling 20, decrease 1.1, one-second reports; first report one period later. |
| ConsumerOm.Configure | BCube/ns-3/src/ndnSIM/apps/ndn-consumer-om.cc:55-73 | InitLimit sets the limit, not the floor; DataFeedback sets the increase's ceiling. |
| ConsumerOm.SendRandom | BCube/ns-3/src/ndnSIM/apps/ndn-consumer-om.cc:269-314 | When active: one Interest with the given sequence number and nonce, one more counted, next send scheduled; inactive: nothing. |
| ConsumerOm.Fire | BCube/ns-3/src/ndnSIM/apps/ndn-consumer-om.cc:269-314 | The pending send ends and the send routine runs. |
| ConsumerOm.FirstData | BCube/ns-3/src/ndnSIM/apps/ndn-consumer-om.cc:137-168 | The first Data sets the increase to its ceiling. |
| ConsumerOm.Increase | BCube/ns-3/src/ndnSIM/apps/ndn-consumer-om.cc:137-168 | The limit grows by alpha/limit; the increase grows by the inverse of the new limit, capped. |
| ConsumerOm.OnData | BCube/ns-3/src/ndnSIM/apps/ndn-consumer-om.cc:137-168 | Data from another node raises the limit; a cache hit sends at once; one more Data counted either way. |
| ConsumerOm.OnExtraData | BCube/ns-3/src/ndnSIM/apps/ndn-consumer-om.cc:170-195 | One more Data counted exactly when the name is under the prefix. |
| ConsumerOm.GiveUp | BCube/ns-3/src/ndnSIM/apps/ndn-consumer-om.cc:224-248 | A share of 100 or more: full decrease, counted as a NACK; below: decrease and increase scaled by share/100. |
| ConsumerOm.OnNack | BCube/ns-3/src/ndnSIM/apps/ndn-consumer-om.cc:198-251 | A NACK outside the prefix or not a give-up changes nothing; a give-up applies the decrease. |
| ConsumerOm.GiveUpRaisesLowLimit | BCube/ns-3/src/ndnSIM/apps/ndn-consumer-om.cc:224-248 | A limit below the floor is set to the floor by a give-up NACK. |
| ConsumerOm.FloorKept | BCube/ns-3/src/ndnSIM/apps/ndn-consumer-om.cc:137-251 | A limit at or above the floor stays there under every handler. |
| ConsumerOm.ShowInterestLimit | BCube/ns-3/src/ndnSIM/apps/ndn-consumer-om.cc:253-267 | The four interval counters restart at zero; next report one period later. |
| PlainConsumerOm.Create | ns-3/src/ndnSIM/apps/ndn-consumer-om.cc:86-97 | Floor and limit 10, increase 20, decrease 1.1, one-second reports. |
| PlainConsumerOm.Configure | ns-3/src/ndnSIM/apps/ndn-consumer-om.cc:51-64 | InitLimit moves the floor, not the current limit. |
| PlainConsumerOm.Fire | ns-3/src/ndnSIM/apps/ndn-consumer-om.cc:103-118 | The pending send ends and the next one is asked for. |
| PlainConsumerOm.OnData | ns-3/src/ndnSIM/apps/ndn-consumer-om.cc:126-140 | The limit grows by alpha/limit; nothing else changes. |
| PlainConsumerOm.OnNack | ns-3/src/ndnSIM/apps/ndn-consumer-om.cc:142-162 | A give-up NACK lowers the limit by beta, not below the floor; other codes change nothing. |
| PlainConsumerOm.FloorKept | ns-3/src/ndnSIM/apps/ndn-consumer-om.cc:126-162 | At or above the floor the limit stays there, and after a give-up NACK it is there. |
| PlainConsumerOm.ShowInterestLimit | ns-3/src/ndnSIM/apps/ndn-consumer-om.cc:164-171 | The report changes nothing and asks for the next. |
| L2.Empty | BCube/ns-3/src/ndnSIM/model/ndn-l2-protocol.cc:74-78 | A switch with no face and counter 0. |
| L2.AddFace | BCube/ns-3/src/ndnSIM/model/ndn-l2-protocol.cc:121-143 | Null or equal faces stop the node; else upload takes the next ID, download the one after, download's ID returned. |
| L2.AddFaceKeepsNumbering | BCube/ns-3/src/ndnSIM/model/ndn-l2-protocol.cc:121-143 | Registering fresh, distinct, non-null faces keeps the numbering. |
| L2.WireNumbers | BCube/ns-3/src/ndnSIM/model/ndn-l2-protocol.cc:121-143 | After p ports, upload face i has ID 2i, download face i has ID 2i+1, counter 2p. |
| L2.FaceCount | BCube/ns-3/src/ndnSIM/model/ndn-l2-protocol.cc:198-202 | Both halves of every port. |
| L2.UploadAtAsWritten | BCube/ns-3/src/ndnSIM/model/ndn-l2-protocol.cc:146-151 | As written: the index must be even and below the number of upload faces. |
| L2.DownloadAtAsWritten | BCube/ns-3/src/ndnSIM/model/ndn-l2-protocol.cc:153-158 | As written: the index must be odd and below the number of download faces. |
| L2.AsWrittenRejectsIssuedIds | BCube/ns-3/src/ndnSIM/model/ndn-l2-protocol.cc:146-158 | The lookups as written reject IDs the switch issued: download ID 1 with one port, upload ID 2 with two. |
| L2.UploadAt | BCube/ns-3/src/ndnSIM/model/ndn-l2-protocol.cc:146-151 | As intended: an even ID whose half is a position of the upload list. |
| L2.DownloadAt | BCube/ns-3/src/ndnSIM/model/ndn-l2-protocol.cc:153-158 | As intended, for odd IDs and the download list. |
| L2.LookupFindsIssuedId | BCube/ns-3/src/ndnSIM/model/ndn-l2-protocol.cc:146-158 | The corrected lookups accept exactly the issued IDs and return the face carrying the ID. |
| L2.FaceById | BCube/ns-3/src/ndnSIM/model/ndn-l2-protocol.cc:160-174 | Upload faces are searched first, then download faces; none when no face carries the ID. |
| L2.FaceByIdOnNumbered | BCube/ns-3/src/ndnSIM/model/ndn-l2-protocol.cc:160-174 | Even IDs name their pair's upload face, odd IDs the download face, others none. |
| L2.Receive | BCube/ns-3/src/ndnSIM/model/ndn-l2-protocol.cc:205-294 | A packet is dropped exactly when its face is down, an Interest comes from a non-upload face, or Data comes from a download face; ccnb, a payload, or a hop beyond the face lists stop the node. |
| L2.ReceiveFollowsTag | BCube/ns-3/src/ndnSIM/model/ndn-l2-protocol.cc:234-285 | Interests leave on download face 2*hop+1, NACKs and Data on upload face 2*hop. |
| L2.DownloadOfHop | BCube/ns-3/src/ndnSIM/model/ndn-l2-protocol.cc:160-174 | Download face hop is the one the lookup finds for 2*hop+1. |
| L2.UploadOfHop | BCube/ns-3/src/ndnSIM/model/ndn-l2-protocol.cc:160-174 | Upload face hop is the one the lookup finds for 2*hop. |
| Fib2.Find | ns-3/src/ndnSIM/model/fib2/ndn-fib2-impl.cc:86-95 | The entry of exactly this prefix, none when absent. |
| Fib2.LongestPrefixMatch | ns-3/src/ndnSIM/model/fib2/ndn-fib2-impl.cc:74-84 | The longest entry-bearing prefix of the name, none when none bears one. |
| Fib2.ExactMatchIsLongest | ns-3/src/ndnSIM/model/fib2/ndn-fib2-impl.cc:74-95 | An entry-bearing prefix is its own longest match. |
| Fib2.Add | ns-3/src/ndnSIM/model/fib2/ndn-fib2-impl.cc:98-137 | Creates the entry when absent, applies the metric; the strategy is told only on creation. |
| Fib2.AddThenFind | ns-3/src/ndnSIM/model/fib2/ndn-fib2-impl.cc:98-137 | After Add the prefix is found and reaches the face; a second Add tells nothing. |
| Fib2.Remove | ns-3/src/ndnSIM/model/fib2/ndn-fib2-impl.cc:139-154 | Absent prefix: nothing; else the strategy is told and the entry erased. |
| Fib2.RemoveUndoesAdd | ns-3/src/ndnSIM/model/fib2/ndn-fib2-impl.cc:98-154 | Removing undoes adding a new prefix; a second removal is silent. |
| Fib2.InvalidateAll | ns-3/src/ndnSIM/model/fib2/ndn-fib2-impl.cc:172-186 | Every entry is invalidated; no prefix appears or goes. |
| Fib2.InvalidateAllMarksEveryFace | ns-3/src/ndnSIM/model/fib2/ndn-fib2-impl.cc:172-186 | Every face of every entry is RED at the largest cost. |
| Fib2.RemoveFromAll | ns-3/src/ndnSIM/model/fib2/ndn-fib2-impl.cc:188-223 | The face is removed everywhere; every emptied entry is announced and erased once, in walk order. |
| Fib2.Begin | ns-3/src/ndnSIM/model/fib2/ndn-fib2-impl.cc:287-302 | The first entry-bearing node of the traversal, or End. |
| Fib2.Next | ns-3/src/ndnSIM/model/fib2/ndn-fib2-impl.cc:310-327 | The next entry-bearing node, or End; End stays End. |
| Fib2.IterationVisitsEveryEntry | ns-3/src/ndnSIM/model/fib2/ndn-fib2-impl.cc:287-327 | Begin then Next visit exactly the entry-bearing nodes, each once, in order, ending with End. |
| BCubeTopo.Plan | BCube/bcube-topo.c:64-79 | n^k switches per level over k+1 levels, n^(k+1) servers from the first ID after the switches. |
| BCubeTopo.DigitsOf | BCube/bcube-topo.c:29-49 | The address loop emits exactly k digits. |
| BCubeTopo.Bcubeid | BCube/bcube-topo.c:29-49 | The method returns the digits the address loop defines for the server's offset. |
| BCubeTopo.AddressRoundTrip | BCube/bcube-topo.c:29-49 | Every offset below n^k gets k base-n digits that stand for the offset. |
| BCubeTopo.AddressOfDigits | BCube/bcube-topo.c:29-49 | Every k base-n digits are the address of the offset they stand for. |
| BCubeTopo.PortRow | BCube/bcube-topo.c:81-117 | The ports of one switch: first given, each next one stride further. |
| BCubeTopo.LevelPorts | BCube/bcube-topo.c:81-117 | One level of switches, port p of switch jj wired to its prescribed server. |
| BCubeTopo.SwitchPorts | BCube/bcube-topo.c:81-117 | Every level wired as prescribed. |
| BCubeTopo.ServerPorts | BCube/bcube-topo.c:120-135 | Port j of server s reaches its prescribed switch of level j. |
| BCubeTopo.ServerPeerInLevel | BCube/bcube-topo.c:120-135 | Server port j reaches a switch of level j. |
| BCubeTopo.SwitchPeerIsServer | BCube/bcube-topo.c:81-117 | Every switch port reaches a server. |
| BCubeTopo.LinksAgree | BCube/bcube-topo.c:81-135 | When switch port p reaches server s, s's port of that level reaches that switch. |
| BCubeTopo.WiredLinksAgree | BCube/bcube-topo.c:81-135 | In a wired topology every link is listed from both ends. |
| BCubeTopo.Generate | BCube/bcube-topo.c:51-149 | Fewer than three arguments return -1; arrays too small or n of 0 stop the model; else 0 and the wiring of BCube(n, k). |

## Left out

- Floating point: the program's doubles are modelled as mathematical reals. There is no rounding, no NaN and no infinity.
- FaceMetrics.UpdateRtt, FibEntry.UpdateFaceRtt, FwBase.MeasureRtt: ns-3 `Time` is an integer count of ticks, and each `Time (…)` conversion in `FaceMetric::UpdateRtt` (BCube ndn-fib-entry.cc:73,77-78) rounds to a tick. The model computes in exact reals, so `FaceMetrics.UpdateRttKeepsConsistent` is proved for real arithmetic, not for tick rounding.
- FibEntry.ResetCountMinCost: the gain factor `tanh(q_var/q_mean)` is an input `damping` in [0, 1]. The model does not define square roots, tanh, or the division by a zero `q_mean`.
- BCubeFib.ResetCount: the same `tanh` factor is the input `damping`.
- BCubeFib.AddOrUpdateRoutingMetric: costs are unbounded integers. The program's cost is a signed 32-bit `int`, and only four two-digit routes fit in it (`BCubeFib.PackedFitsInt32`). A fifth route would overflow, and the model does not reproduce that overflow.
- ConsumerOm.Create: the BCube constructor (ndn-consumer-om.cc:90-102) leaves `m_interest_count` uninitialised. The model starts it at 0.
- ConsumerOm.SendRandom: the sequence number and the nonce are inputs. Their `uint32_t` range and the random generators that draw them are not modelled.
- ConsumerOm.ShowInterestLimit: the interval counters are unbounded naturals. The program's 32-bit counters would wrap.
- FibEntry.FindBestCandidate: the program ranks through a boost `multi_index` random-access view (`i_nth`). Only UpdateStatus, UpdateFaceRtt and AddOrUpdateRoutingMetric rearrange that view; Invalidate, RemoveFace and ResetCount leave it stale. The model ranks the records afresh by (status, cost) and breaks ties in container order. Example: add A at cost 5, add B at cost 1, then Invalidate. The program's `FindBestCandidate(0)` returns B, and the model's returns A.
- Pit.AddIncoming, Pit.AddOutgoing: the incoming and outgoing faces are kept in insertion order. The program keeps them in a `std::set` ordered by face pointer, so `FwBase.Satisfy` and `FwNacks.Exhaust` send to the faces in that set's order instead; the model promises which faces receive packets, not the order across faces.
- Pit.AddOutgoing: PIT lifetimes, the retransmission throttle (`UpdateLifetime`) and the pruning timers are not modelled. The PIT class is not part of this model; its operations are modelled from the strategies' call sites.
- FwNode.OnData: the program walks every PIT entry that matches the Data. The model handles the single entry the node holds. Storing the Data in the content store is not modelled; whether the store answers an Interest is an input.
- FwNode.OnInterest: ShouldSuppressIncomingInterest is modelled as `FwBase.ShouldSuppress`, but the node's handler does not call it. The program's `similarInterest` is always false (ndn-forwarding-strategy.cc:145-148), so the program never calls it either.
- FwNacks.Duplicate: the loop NACK carries no BCube tag, following the program (nacks.cc:136 leaves this as a FIXME).
- BCubeTag.DefaultTag: the tag's constructor leaves the route (`m_metric`) and the flag (`m_interest`) uninitialised. The model sets both to 0, and its contract states only the fields the constructor sets.
- BCubeTopo.Generate: arguments the program's fixed arrays cannot hold, and n of 0, are undefined behaviour in the program. The model stops with `Fatal` on them. Writing the topology file (bcube-topo.c:151-187) is not modelled; the model returns the wiring itself.
- Fib2.Find, Fib2.Add, Fib2.Remove: the entries of the FIB2 trie are taken to be `FibEntry` records, because `fib2::Entry` is not part of this model.
- Fib2.Add: the program returns a null entry when the trie insert fails. A functional map insert cannot fail, so that path is not modelled.
- PlainConsumerOm.Fire: `Consumer::SendPacket` (ndn-consumer.cc) is not part of this model. The model's scheduled send therefore emits no Interest; it only asks for the next send.
- ConsumerOm.OnData, ConsumerOm.OnNack, PlainConsumerOm.OnData, PlainConsumerOm.OnNack: each handler first calls the base consumer's handler (`Consumer::OnContentObject` or `Consumer::OnNack`, ndn-consumer.cc). That class is not part of this model, so the sequence-number and retransmission state it updates is not modelled. "Nothing else changes" is stated for the state the model keeps.
- MinCostFw.ValidNack, MinCostFw.Retry: the plain strategy is composed over the BCube tree's `Nacks` and base `ForwardingStrategy` layers (`FwNacks`, `FwBase`), BCube tag handling included. The plain tree's own nacks.cc and ndn-forwarding-strategy.cc are not part of this model.
- Logging, tracing, statistics output, object aggregation and the simulator's event scheduling are not modelled. Scheduled events appear as returned requests such as `SendAfter` and `ShowAfter`.

## Findings

| source | as written | input that shows it | evidently intended | confidence | as-written member | corrected member |
|---|---|---|---|---|---|---|
| BCube/ns-3/src/ndnSIM/model/fw/best-cc.cc:299-301 | takes a token from the chosen face's limiter (`BorrowLimit`) before `TrySendOutInterest`, whose admission test (ndn-forwarding-strategy.cc:656) asks the limiter again | an enabled limiter with ceiling 1 and empty bucket: the first check passes, the borrow fills the bucket, the send's check fails; nothing is sent yet propagation reports success | send first, then take the token, so that a face that passed admission carries the Interest | not executed | FwBestCC.AsWrittenReportsUnsentInterest | FwBestCC.CorrectedSendsInterest |
| ns-3/src/ndnSIM/model/fw/best-cc.cc:226-228 | the same borrow-before-send order in the plain strategy | the chosen face's limiter holds its last token: the token is taken, nothing is sent, and success is reported | send first, then take the token | not executed | MinCostFw.AsWrittenLosesLastToken | MinCostFw.DoPropagateSendsOnChosenFace |
| ns-3/src/ndnSIM/model/fw/best-cc.cc:213 | picks the first candidate with `coin >= target` | two cheapest candidates with the sharing metric 1 (never updated, ndn-fib-entry.h:89): targets 0 and 1 both pick the first, so the second is never picked | `coin > target`, so that candidate i gets exactly the targets in its band and each of n equal candidates gets one residue | not executed | MinCostFw.AsWrittenNeverPicksLast | MinCostFw.CorrectedPicksEvenly |
| BCube/ns-3/src/ndnSIM/model/ndn-l2-protocol.cc:149,156 | `GetUploadFace`/`GetDownloadFace` assert `index < size` on a face ID, which is twice the list position (plus one for download) | a switch with one port: `GetDownloadFace(1)`, the ID the switch issued, fails the assertion; with two ports `GetUploadFace(2)` does | assert `index / 2 < size`, so every issued ID is accepted | not executed | L2.AsWrittenRejectsIssuedIds | L2.LookupFindsIssuedId |

=== FILE: bcube_fib.dfy ===
/**
 The BCube variant of the FIB entry. Two things differ from the plain
 variant:

 - the routing cost of a face is not a cost but a packed list of the source
   routes that use the face: the lowest decimal digit counts the routes, and
   above it every route occupies two decimal digits, the most recently added
   route in the lowest pair;
 - the periodic rebalancing moves the traffic share of every face toward the
   face's share of the decayed NACK count of the entry.
 */
module BCubeFib {
  import opened Common
  import opened FaceMetrics
  import opened FibEntry

  // ---------------------------------------------------------------------
  // Route packing
  // ---------------------------------------------------------------------

  /** C's `x % 10` on a signed integer: the remainder takes the sign of `x`. */
  function CRem10(x: int): (r: int)
    ensures -10 < r < 10
    ensures x >= 0 ==> r == x % 10
    ensures (x - r) % 10 == 0
  {
    if x >= 0 then x % 10 else -((-x) % 10)
  }

  /** C's `x / 10` on a signed integer: the quotient is truncated toward
      zero, so that quotient and `CRem10` remainder give back `x`. */
  function CDiv10(x: int): (q: int)
    ensures x == 10 * q + CRem10(x)
    ensures x >= 0 ==> q == x / 10
  {
    if x >= 0 then x / 10 else -((-x) / 10)
  }

  /** The cost of a face after one more route `metric` is recorded on it:
      the route count goes up by one, the earlier routes move up by one
      two-digit place, and the new route takes the lowest place. */
  function PackRoute(cost: int, metric: int): int
  {
    CRem10(cost) + 1 + (cost - CRem10(cost)) * 100 + metric * 10
  }

  /** Reference encoding of a route list, oldest first: the count in the
      lowest digit, then the routes two digits each, newest lowest. */
  function Packed(ms: seq<int>): int
  {
    |ms| + 10 * Slots(ms)
  }

  function Slots(ms: seq<int>): int
    decreases |ms|
  {
    if |ms| == 0 then 0 else ms[|ms| - 1] + 100 * Slots(ms[..|ms| - 1])
  }

  predicate TwoDigit(ms: seq<int>)
  {
    forall j :: 0 <= j < |ms| ==> 0 <= ms[j] < 100
  }

  /** The number of routes recorded in a cost. */
  function PathCount(cost: nat): nat
  {
    cost % 10
  }

  /** Route `k` of a cost, counting from the newest (k = 0). */
  function Slot(cost: nat, k: nat): (v: nat)
    ensures v < 100
  {
    (cost / 10 / Pow(100, k)) % 100
  }

  /** The BCube metric update. An unknown face is inserted with a cost
      recording the single route `metric`; a known face records one more
      route and turns YELLOW. */
  function AddOrUpdateRoutingMetric(e: Entry, f: Face, metric: int): (r: Entry)
    requires Valid(e)
    ensures Valid(r) && HasFace(r, f)
    ensures !HasFace(e, f) ==>
      Find(r, f) == Some(NewFaceMetric(f, Packed([metric]))) && |r.faces| == |e.faces| + 1
    ensures HasFace(e, f) ==>
      var old_ := Find(e, f).value;
      Find(r, f) == Some(old_.(routingCost := PackRoute(old_.routingCost, metric), status := Yellow)) &&
      |r.faces| == |e.faces|
    ensures forall g :: g != f ==> Find(r, g) == Find(e, g)
    ensures r.inited == e.inited && r.data == e.data
  {
    match IndexOf(e.faces, f)
    case None =>
      assert Slots([metric]) == metric + 100 * Slots([]);
      AddRecord(e, NewFaceMetric(f, metric * 10 + 1))
    case Some(i) =>
      var m := e.faces[i];
      FindAt(e, i);
      Replace(e, i, m.(routingCost := PackRoute(m.routingCost, metric), status := Yellow))
  }

  /** The routing cost of a face, or -1 when the entry has no record of it. */
  function GetRoutingMetric(e: Entry, f: Face): (c: int)
    ensures HasFace(e, f) ==> c == Find(e, f).value.routingCost
    ensures !HasFace(e, f) ==> c == -1
  {
    match Find(e, f)
    case None => -1
    case Some(m) => m.routingCost
  }

  /** Recording the routes `ms` on face `f`, oldest first. */
  function AddRoutes(e: Entry, f: Face, ms: seq<int>): (r: Entry)
    requires Valid(e)
    ensures Valid(r)
    decreases |ms|
  {
    if |ms| == 0 then e
    else AddOrUpdateRoutingMetric(AddRoutes(e, f, ms[..|ms| - 1]), f, ms[|ms| - 1])
  }

  /** One more route extends the packed list by that route. */
  lemma PackRouteExtends(ms: seq<int>, m: int)
    requires 0 < |ms| < 9 && TwoDigit(ms)
    ensures PackRoute(Packed(ms), m) == Packed(ms + [m])
  {
    SlotsNonNegative(ms);
    DivModUnique(Packed(ms), 10, Slots(ms), |ms|);
    assert (ms + [m])[..|ms|] == ms;
  }

  lemma {:induction false} SlotsNonNegative(ms: seq<int>)
    requires TwoDigit(ms)
    ensures 0 <= Slots(ms) < Pow(100, |ms|)
    decreases |ms|
  {
    if |ms| > 0 {
      var init := ms[..|ms| - 1];
      assert TwoDigit(init);
      SlotsNonNegative(init);
      MulMono(100, Slots(init), Pow(100, |init|) - 1);
    }
  }

  /** Starting from an entry without the face, recording up to nine
      two-digit routes leaves exactly their packed list as the face's
      cost, which the metric query reports. */
  lemma {:induction false} AddRoutesPacks(e: Entry, f: Face, ms: seq<int>)
    requires Valid(e) && !HasFace(e, f)
    requires 0 < |ms| <= 9 && TwoDigit(ms)
    ensures HasFace(AddRoutes(e, f, ms), f)
    ensures GetRoutingMetric(AddRoutes(e, f, ms), f) == Packed(ms)
    ensures Find(AddRoutes(e, f, ms), f).value.status == Yellow
    ensures forall g :: g != f ==> Find(AddRoutes(e, f, ms), g) == Find(e, g)
    decreases |ms|
  {
    var init := ms[..|ms| - 1];
    if |init| == 0 {
      assert AddRoutes(e, f, init) == e;
      assert Packed(ms) == ms[0] * 10 + 1 by {
        assert Slots(ms) == ms[0] + 100 * Slots([]);
      }
    } else {
      assert TwoDigit(init);
      AddRoutesPacks(e, f, init);
      PackRouteExtends(init, ms[|ms| - 1]);
      assert init + [ms[|ms| - 1]] == ms;
    }
  }

  /** Decoding a packed list: the count digit is the number of routes and
      place `k` holds the k-th newest route. */
  lemma {:induction false} PackedDecodes(ms: seq<int>, k: nat)
    requires |ms| < 10 && TwoDigit(ms) && k < |ms|
    ensures Packed(ms) >= 0
    ensures PathCount(Packed(ms)) == |ms|
    ensures Slot(Packed(ms), k) == ms[|ms| - 1 - k]
    decreases k
  {
    SlotsNonNegative(ms);
    DivModUnique(Packed(ms), 10, Slots(ms), |ms|);
    var init := ms[..|ms| - 1];
    assert TwoDigit(init);
    SlotsNonNegative(init);
    DivModUnique(Slots(ms), 100, Slots(init), ms[|ms| - 1]);
    if k > 0 {
      PackedDecodes(init, k - 1);
      DivModUnique(Packed(init), 10, Slots(init), |init|);
      DivDiv(Slots(ms), 100, Pow(100, k - 1));
    }
  }

  /** At most four two-digit routes (a BCube with at most four levels) fit
      in a signed 32-bit cost. */
  lemma PackedFitsInt32(ms: seq<int>)
    requires |ms| <= 4 && TwoDigit(ms)
    ensures 0 <= Packed(ms) < 0x8000_0000
  {
    SlotsNonNegative(ms);
    PowMono(100, |ms|, 4);
    assert Pow(100, 4) == 100000000;
  }

  lemma {:induction false} PowMono(b: nat, e1: nat, e2: nat)
    requires b > 0 && e1 <= e2
    ensures Pow(b, e1) <= Pow(b, e2)
    decreases e2
  {
    if e1 < e2 {
      PowMono(b, e1, e2 - 1);
      MulMono(Pow(b, e2 - 1), 1, b);
    }
  }

  /** Does one of the routes recorded in `cost` have `key` as its leading
      digit? A cost below zero records no route. */
  predicate CarriesRoute(cost: int, key: int)
  {
    cost >= 0 && exists k :: 0 <= k < PathCount(cost) && Slot(cost, k) / 10 == key
  }

  /** The source-route lookup of an intermediate server: scan the recorded
      routes, newest first, for one whose leading digit is the key. */
  method MatchesRoute(cost: nat, key: int) returns (b: bool)
    ensures b <==> CarriesRoute(cost, key)
  {
    var npaths := PathCount(cost);
    var k := 0;
    b := false;
    while k != npaths
      invariant 0 <= k <= npaths
      invariant forall j :: 0 <= j < k ==> Slot(cost, j) / 10 != key
      decreases npaths - k
    {
      var place := cost / 10;
      place := place / Pow(100, k);
      place := place % 100;
      if place / 10 == key {
        assert Slot(cost, k) / 10 == key;
        b := true;
        return;
      }
      k := k + 1;
    }
  }

  /** On a packed route list the lookup matches exactly the routes whose
      leading digit is the key. */
  lemma PackedRouteLookup(ms: seq<int>, key: int)
    requires |ms| < 10 && TwoDigit(ms)
    ensures Packed(ms) >= 0
    ensures (exists k :: 0 <= k < PathCount(Packed(ms)) && Slot(Packed(ms), k) / 10 == key)
        <==> (exists j :: 0 <= j < |ms| && ms[j] / 10 == key)
  {
    SlotsNonNegative(ms);
    if |ms| == 0 {
      DivModUnique(Packed(ms), 10, Slots(ms), 0);
    } else {
      PackedDecodes(ms, 0);
      forall k | 0 <= k < |ms|
        ensures Slot(Packed(ms), k) == ms[|ms| - 1 - k]
      {
        PackedDecodes(ms, k);
      }
      if exists j :: 0 <= j < |ms| && ms[j] / 10 == key {
        var j :| 0 <= j < |ms| && ms[j] / 10 == key;
        assert Slot(Packed(ms), |ms| - 1 - j) / 10 == key;
      }
    }
  }

  // ---------------------------------------------------------------------
  // Rebalancing by NACK share
  // ---------------------------------------------------------------------

  /** Total decayed NACK count of the records. */
  function NackTotal(s: seq<FaceMetric>): real
  {
    if |s| == 0 then 0.0 else s[0].nackOld + NackTotal(s[1..])
  }

  /** Total traffic share of the records. */
  function FractionTotal(s: seq<FaceMetric>): real
  {
    if |s| == 0 then 0.0 else s[0].fraction + FractionTotal(s[1..])
  }

  /** How many NACKs the record saw fewer than its share of the total `q`:
      positive when the face is under-used relative to its congestion. */
  function Deviation(m: FaceMetric, q: real): real
  {
    m.fraction * q / 100.0 - m.nackOld
  }

  /** The least step bound over all records (fractions kept in [5, 100]),
      capped by `MAX_BOUND`. */
  function KBoundAll(s: seq<FaceMetric>, q: real): (k: real)
    ensures k <= MAX_BOUND
    ensures forall i :: 0 <= i < |s| ==> k <= StepBound(s[i].fraction, Deviation(s[i], q), 5.0, 100.0)
    ensures InBand(s) ==> k >= 0.0
  {
    if |s| == 0 then MAX_BOUND
    else
      assert forall i :: 1 <= i < |s| ==> s[i] == s[1..][i - 1];
      var here := StepBound(s[0].fraction, Deviation(s[0], q), 5.0, 100.0);
      assert InBand(s) ==> here >= 0.0 && InBand(s[1..]) by {
        if InBand(s) {
          StepBoundNonNegative(s[0].fraction, Deviation(s[0], q));
        }
      }
      Min(here, KBoundAll(s[1..], q))
  }

  /** The gain of a later run. */
  function Gain(s: seq<FaceMetric>, damping: real): real
  {
    KBoundAll(s, NackTotal(s)) * damping
  }

  /** Record `a` is record `b` moved by gain `k` along its deviation. */
  predicate Stepped(a: FaceMetric, b: FaceMetric, k: real, q: real)
  {
    a.fraction - b.fraction == k * Deviation(b, q)
  }

  function SetFractionsAll(s: seq<FaceMetric>, inited: bool, k: real, q: real, share: real): (r: seq<FaceMetric>)
    ensures |r| == |s|
    ensures forall i :: 0 <= i < |s| ==> r[i].(fraction := s[i].fraction) == s[i]
    ensures forall i :: 0 <= i < |s| && !inited ==> r[i].fraction == share
    ensures forall i :: 0 <= i < |s| && inited ==> Stepped(r[i], s[i], k, q)
  {
    seq(|s|, i requires 0 <= i < |s| =>
      if inited then s[i].(fraction := s[i].fraction + k * Deviation(s[i], q))
      else s[i].(fraction := share))
  }

  /** The periodic rebalancing of the BCube variant. Every record's counters
      are reset; with q the total decayed NACK count, the first run gives
      every face the share 100 / n, later runs move each fraction by K times
      the face's deviation, K being the least step bound damped by
      `damping` (the `tanh` of the normalised deviation spread, in [0, 1]).
      An entry without faces is only marked as initialised. */
  function ResetCount(e: Entry, damping: real): (r: Entry)
    requires 0.0 <= damping <= 1.0
    ensures r.inited && r.data == e.data && |r.faces| == |e.faces|
    ensures forall i :: 0 <= i < |e.faces| ==>
      r.faces[i].(fraction := e.faces[i].fraction) == ResetCounter(e.faces[i])
    ensures !e.inited ==> forall i :: 0 <= i < |e.faces| ==>
      r.faces[i].fraction == 100.0 / (|e.faces| as real)
    ensures e.inited ==> forall i :: 0 <= i < |e.faces| ==>
      Stepped(r.faces[i], ResetAll(e.faces)[i], Gain(ResetAll(e.faces), damping), NackTotal(ResetAll(e.faces)))
  {
    var s := ResetAll(e.faces);
    if |s| == 0 then e.(inited := true)
    else
      var share := 100.0 / (|s| as real);
      Entry(SetFractionsAll(s, e.inited, Gain(s, damping), NackTotal(s), share), true, e.data)
  }

  /** After the first run the fractions add up to 100. */
  lemma FirstRunSumsTo100(e: Entry, damping: real)
    requires 0.0 <= damping <= 1.0 && !e.inited && |e.faces| > 0
    ensures FractionTotal(ResetCount(e, damping).faces) == 100.0
  {
    var r := ResetCount(e, damping).faces;
    var n := |e.faces|;
    var share := 100.0 / (n as real);
    assert forall i :: 0 <= i < |r| ==> r[i].fraction == share;
    EqualFractions(r, share);
    SharesAddUp(n);
  }

  lemma SharesAddUp(n: nat)
    requires n > 0
    ensures Times(n, 100.0 / (n as real)) == 100.0
  {
    TimesReal(n, 100.0 / (n as real));
    MulDivCancel(n as real);
  }

  lemma MulDivCancel(x: real)
    requires x > 0.0
    ensures x * (100.0 / x) == 100.0
  {
  }

  lemma {:induction false} EqualFractions(s: seq<FaceMetric>, v: real)
    requires forall i :: 0 <= i < |s| ==> s[i].fraction == v
    ensures FractionTotal(s) == Times(|s|, v)
    decreases |s|
  {
    if |s| > 0 {
      EqualFractions(s[1..], v);
    }
  }

  lemma {:induction false} TimesReal(n: nat, v: real)
    ensures Times(n, v) == (n as real) * v
  {
    if n > 0 {
      TimesReal(n - 1, v);
      assert (n as real) * v == ((n - 1) as real) * v + v;
    }
  }

  /** A later run keeps every fraction in [5, 100]: the step bound stops
      each face at the edge of the band. */
  lemma LaterRunStaysInBand(e: Entry, damping: real)
    requires 0.0 <= damping <= 1.0 && e.inited && InBand(e.faces)
    ensures InBand(ResetCount(e, damping).faces)
  {
    var s := ResetAll(e.faces);
    var r := ResetCount(e, damping).faces;
    var q := NackTotal(s);
    assert InBand(s);
    var kb := KBoundAll(s, q);
    var k := Gain(s, damping);
    assert kb >= 0.0;
    assert k == kb * damping;
    MulMono01(kb, damping);
    forall i | 0 <= i < |r|
      ensures 5.0 <= r[i].fraction <= 100.0
    {
      StepInBand(r[i], s[i], k, kb, q);
    }
  }

  /** One face's step: with a gain between 0 and its step bound, the new
      fraction stays in [5, 100]. */
  lemma StepInBand(a: FaceMetric, b: FaceMetric, k: real, kb: real, q: real)
    requires 5.0 <= b.fraction <= 100.0 && 0.0 <= k <= kb
    requires kb <= StepBound(b.fraction, Deviation(b, q), 5.0, 100.0)
    requires Stepped(a, b, k, q)
    ensures 5.0 <= a.fraction <= 100.0
  {
    var f := b.fraction;
    var dev := Deviation(b, q);
    var sb := StepBound(f, dev, 5.0, 100.0);
    assert dev > 0.0 ==> sb * dev == 100.0 - f;
    assert dev < 0.0 ==> sb * (-dev) == f - 5.0;
    BandCore(f, dev, k, sb, a.fraction);
  }

  /** Sum of the records' deviations against the NACK total q. */
  function DeviationTotal(s: seq<FaceMetric>, q: real): real
  {
    if |s| == 0 then 0.0 else Deviation(s[0], q) + DeviationTotal(s[1..], q)
  }

  lemma Distribute(k: real, x: real, y: real)
    ensures k * (x + y) == k * x + k * y
  {
  }

  /** The steps of a later run add up to k times the total deviation. */
  lemma {:induction false} SumOfSteps(a: seq<FaceMetric>, b: seq<FaceMetric>, k: real, q: real)
    requires |a| == |b|
    requires forall i :: 0 <= i < |a| ==> Stepped(a[i], b[i], k, q)
    ensures FractionTotal(a) == FractionTotal(b) + k * DeviationTotal(b, q)
    decreases |a|
  {
    if |a| > 0 {
      assert Stepped(a[0], b[0], k, q);
      SteppedTail(a, b, k, q);
      SumOfSteps(a[1..], b[1..], k, q);
      Distribute(k, Deviation(b[0], q), DeviationTotal(b[1..], q));
    }
  }

  lemma SteppedTail(a: seq<FaceMetric>, b: seq<FaceMetric>, k: real, q: real)
    requires |a| == |b| && |a| > 0
    requires forall i :: 0 <= i < |a| ==> Stepped(a[i], b[i], k, q)
    ensures forall i :: 0 <= i < |a| - 1 ==> Stepped(a[1..][i], b[1..][i], k, q)
  {
    forall i | 0 <= i < |a| - 1
      ensures Stepped(a[1..][i], b[1..][i], k, q)
    {
      assert a[1..][i] == a[i + 1] && b[1..][i] == b[i + 1];
    }
  }

  /** The deviations add up to the records' share of q less their NACKs. */
  lemma {:induction false} DeviationTotalIs(s: seq<FaceMetric>, q: real)
    ensures DeviationTotal(s, q) == FractionTotal(s) * q / 100.0 - NackTotal(s)
    decreases |s|
  {
    if |s| > 0 {
      DeviationTotalIs(s[1..], q);
      assert (s[0].fraction + FractionTotal(s[1..])) * q == s[0].fraction * q + FractionTotal(s[1..]) * q;
    }
  }

  /** A later run redistributes traffic without creating or losing any:
      when the fractions add up to 100 they still do afterwards, whatever
      the NACK counts and the gain. */
  lemma LaterRunConservesTotal(e: Entry, damping: real)
    requires 0.0 <= damping <= 1.0 && e.inited && |e.faces| > 0
    requires FractionTotal(e.faces) == 100.0
    ensures FractionTotal(ResetCount(e, damping).faces) == 100.0
  {
    var s := ResetAll(e.faces);
    var r := ResetCount(e, damping).faces;
    var q := NackTotal(s);
    var k := Gain(s, damping);
    ResetKeepsFractions(e.faces);
    StepsConserve(r, s, k);
  }

  /** Records moved by one gain along their deviations against their own
      NACK total keep a total of 100. */
  lemma StepsConserve(r: seq<FaceMetric>, s: seq<FaceMetric>, k: real)
    requires |r| == |s| && FractionTotal(s) == 100.0
    requires forall i :: 0 <= i < |r| ==> Stepped(r[i], s[i], k, NackTotal(s))
    ensures FractionTotal(r) == 100.0
  {
    SumOfSteps(r, s, k, NackTotal(s));
    DeviationTotalIs(s, NackTotal(s));
    assert DeviationTotal(s, NackTotal(s)) == 0.0;
  }

  lemma {:induction false} ResetKeepsFractions(s: seq<FaceMetric>)
    ensures FractionTotal(ResetAll(s)) == FractionTotal(s)
    decreases |s|
  {
    if |s| > 0 {
      assert ResetAll(s)[1..] == ResetAll(s[1..]);
      ResetKeepsFractions(s[1..]);
    }
  }
}

=== FILE: bcube_tag.dfy ===
/**
 The BCube source-routing tag carried by Interests, Data and NACKs:

 - `metric`: the source route, one decimal digit per hop;
 - `cur`: the index of the hop being taken;
 - `interest`: a flag set on packets that travel back toward the consumer
   (their next hop is recomputed from the route when the tag is read);
 - `nexthop`, `prevhop`: ports chosen by the forwarding engine. The class
   declaration (ndn-bcube-tag.h) declares neither these two fields nor
   their setters, yet its constructor initialises the fields, ndn-bcube-tag.cc
   serialises them, and the strategies call `SetNextHop`/`SetPrevHop`; the
   fields and setters here are reconstructed from those uses.

 On the wire the tag is 14 bytes: the route (four bytes), `cur` and
 `interest` (one byte each), then the two ports (four bytes each). The
 buffer's `WriteU32`/`ReadU32` and `WriteU8`/`ReadU8` are taken to be inverse
 pairs; the model writes the 32-bit fields least significant byte first.
 */
module BCubeTag {
  import opened Common

  /** At most this many hops: `cur` must stay below it. */
  const MAX_K: nat := 10

  /** Size of the serialized tag: one 32-bit route, two 8-bit fields and
      two 32-bit ports. */
  const SERIALIZED_SIZE: nat := 4 + 1 + 1 + 4 * 2

  type Byte = b: nat | b < 256

  datatype Tag = Tag(metric: nat, cur: nat, interest: nat, nexthop: nat, prevhop: nat)

  /** Every field fits its wire width. */
  predicate ValidTag(t: Tag)
  {
    t.metric < TWO32 && t.cur < 256 && t.interest < 256 && t.nexthop < TWO32 && t.prevhop < TWO32
  }

  /** A tag before any setter ran: at the first hop, both ports unset. The
      route and the flag start at zero. */
  function DefaultTag(): (t: Tag)
    ensures ValidTag(t) && t.cur == 0 && t.nexthop == UINT32_MAX && t.prevhop == UINT32_MAX
    ensures GetPrevHop(t) == UINT32_MAX
  {
    Tag(0, 0, 0, UINT32_MAX, UINT32_MAX)
  }

  /** Store the route; nothing else changes. */
  function SetForwardingTag(t: Tag, rhs: nat): (r: Tag)
    requires rhs < TWO32
    ensures r.metric == rhs && r.(metric := t.metric) == t
    ensures ValidTag(t) ==> ValidTag(r)
  {
    t.(metric := rhs)
  }

  /** Select the hop; the index must be below `MAX_K`. */
  function SetCurTag(t: Tag, cur: nat): (r: Tag)
    requires cur < MAX_K
    ensures r.cur == cur && r.(cur := t.cur) == t
    ensures ValidTag(t) ==> ValidTag(r)
  {
    t.(cur := cur)
  }

  function SetNextHop(t: Tag, hop: nat): (r: Tag)
    requires hop < TWO32
    ensures r.nexthop == hop && r.(nexthop := t.nexthop) == t
    ensures ValidTag(t) ==> ValidTag(r)
  {
    t.(nexthop := hop)
  }

  function SetPrevHop(t: Tag, hop: nat): (r: Tag)
    requires hop < TWO32
    ensures r.prevhop == hop && r.(prevhop := t.prevhop) == t
    ensures ValidTag(t) ==> ValidTag(r)
  {
    t.(prevhop := hop)
  }

  function SetInterest(t: Tag, flag: nat): (r: Tag)
    requires flag < 256
    ensures r.interest == flag && r.(interest := t.interest) == t
    ensures ValidTag(t) ==> ValidTag(r)
  {
    t.(interest := flag)
  }

  /** The port of the current hop: digit `cur` of the route. */
  function GetNextHop(t: Tag): (h: nat)
    ensures h < 10
  {
    Digit(t.metric, t.cur)
  }

  /** The port of the previous hop, or the "no hop" marker at the first. */
  function GetPrevHop(t: Tag): (h: nat)
    ensures h == UINT32_MAX || h < 10
    ensures h == UINT32_MAX <==> t.cur == 0
  {
    if t.cur == 0 then UINT32_MAX else Digit(t.metric, t.cur - 1)
  }

  /** Moving to the next hop turns the current hop into the previous one. */
  lemma NextHopBecomesPrevHop(t: Tag)
    requires t.cur + 1 < MAX_K
    ensures GetPrevHop(SetCurTag(t, t.cur + 1)) == GetNextHop(t)
  {
  }

  // ---------------------------------------------------------------------
  // Wire format
  // ---------------------------------------------------------------------

  /** `n` bytes of `x`, least significant first. */
  function LeBytes(x: nat, n: nat): (bs: seq<Byte>)
    ensures |bs| == n
  {
    if n == 0 then [] else [x % 256] + LeBytes(x / 256, n - 1)
  }

  /** The number whose bytes, least significant first, are `bs`. */
  function LeValue(bs: seq<Byte>): nat
  {
    if |bs| == 0 then 0 else bs[0] + 256 * LeValue(bs[1..])
  }

  lemma {:induction false} LeValueBound(bs: seq<Byte>)
    ensures LeValue(bs) < Pow(256, |bs|)
    decreases |bs|
  {
    if |bs| > 0 {
      LeValueBound(bs[1..]);
      MulMono(256, LeValue(bs[1..]), Pow(256, |bs| - 1) - 1);
    }
  }

  /** Writing a number that fits and reading it back gives the number. */
  lemma {:induction false} LeValueOfBytes(x: nat, n: nat)
    requires x < Pow(256, n)
    ensures LeValue(LeBytes(x, n)) == x
    decreases n
  {
    if n > 0 {
      var q := x / 256;
      var p := Pow(256, n - 1);
      assert q < p by {
        if q >= p {
          MulMono(256, p, q);
        }
      }
      LeValueOfBytes(q, n - 1);
      assert LeBytes(x, n)[1..] == LeBytes(q, n - 1);
    }
  }

  /** Reading bytes and writing the number back gives the same bytes. */
  lemma {:induction false} LeBytesOfValue(bs: seq<Byte>)
    ensures LeBytes(LeValue(bs), |bs|) == bs
    decreases |bs|
  {
    if |bs| > 0 {
      LeBytesOfValue(bs[1..]);
      DivModUnique(LeValue(bs), 256, LeValue(bs[1..]), bs[0]);
    }
  }

  /** Write the fields in order: route, hop index, flag, next port,
      previous port. */
  function Serialize(t: Tag): (bs: seq<Byte>)
    requires ValidTag(t)
    ensures |bs| == SERIALIZED_SIZE
  {
    LeBytes(t.metric, 4) + [t.cur as Byte, t.interest as Byte] + LeBytes(t.nexthop, 4) + LeBytes(t.prevhop, 4)
  }

  /** Read the fields back in the same order. On packets flagged as going
      back toward the consumer the next port is not taken from the buffer
      but recomputed as digit `cur` of the route. The buffer must hold the
      whole tag. */
  function Deserialize(bs: seq<Byte>): (t: Tag)
    requires |bs| >= SERIALIZED_SIZE
    ensures ValidTag(t)
    ensures t.metric == LeValue(bs[0..4]) && t.cur == bs[4] && t.interest == bs[5]
    ensures t.prevhop == LeValue(bs[10..14])
    ensures t.interest != 0 ==> t.nexthop == GetNextHop(t) && t.nexthop < 10
    ensures t.interest == 0 ==> t.nexthop == LeValue(bs[6..10])
  {
    LeValueBound(bs[0..4]);
    LeValueBound(bs[6..10]);
    LeValueBound(bs[10..14]);
    assert Pow(256, 4) == TWO32;
    var metric := LeValue(bs[0..4]);
    var cur := bs[4];
    var interest := bs[5];
    var stored := LeValue(bs[6..10]);
    var nexthop := if interest != 0 then (metric / Pow(10, cur)) % 10 else stored;
    Tag(metric, cur, interest, nexthop, LeValue(bs[10..14]))
  }

  /** The round trip restores the route, the hop index, the flag and the
      previous port exactly; the next port survives only on packets not
      flagged, and is the current route digit on flagged ones. */
  lemma SerializeRoundTrip(t: Tag)
    requires ValidTag(t)
    ensures t.interest == 0 ==> Deserialize(Serialize(t)) == t
    ensures t.interest != 0 ==> Deserialize(Serialize(t)) == t.(nexthop := GetNextHop(t))
  {
    var bs := Serialize(t);
    assert Pow(256, 4) == TWO32;
    assert bs[0..4] == LeBytes(t.metric, 4);
    assert bs[6..10] == LeBytes(t.nexthop, 4);
    assert bs[10..14] == LeBytes(t.prevhop, 4);
    LeValueOfBytes(t.metric, 4);
    LeValueOfBytes(t.nexthop, 4);
    LeValueOfBytes(t.prevhop, 4);
  }

  /** Conversely, any 14 bytes whose flag byte is zero are reproduced by
      reading and rewriting them. */
  lemma DeserializeRoundTrip(bs: seq<Byte>)
    requires |bs| == SERIALIZED_SIZE && bs[5] == 0
    ensures Serialize(Deserialize(bs)) == bs
  {
    LeBytesOfValue(bs[0..4]);
    LeBytesOfValue(bs[6..10]);
    LeBytesOfValue(bs[10..14]);
    assert bs == bs[0..4] + [bs[4], bs[5]] + bs[6..10] + bs[10..14];
  }
}

=== FILE: bcube_topo.dfy ===
/**
 The BCube topology generator. For a BCube(n, k) it numbers the nodes —
 switches first, level by level, then servers — wires every switch port
 to a server and every server port to a switch, and names each server by
 its base-n address.

 With K = k + 1 levels there are n^(K-1) switches per level and n^K
 servers. Node IDs start at 1: the switches of level i (1-based) take
 IDs (i-1)·n^(K-1)+1 .. i·n^(K-1), and the servers the IDs after the last
 switch. `pow` on doubles is taken to be exact for these small operands,
 and the fixed-size node and port arrays are taken as limits on n and k.
 */
module BCubeTopo {
  import opened Common

  /** Capacity of the node array (indexed by node ID). */
  const MAX_NODE: nat := 20000

  /** Capacity of a node's port array (indexed from 1). */
  const MAX_PORT: nat := 10

  // ---------------------------------------------------------------------
  // Arithmetic
  // ---------------------------------------------------------------------

  /** Dividing n^e by n takes one factor off. */
  lemma PowDivN(n: nat, e: nat)
    requires n >= 1 && e >= 1
    ensures Pow(n, e) / n == Pow(n, e - 1)
  {
    DivModUnique(Pow(n, e), n, Pow(n, e - 1), 0);
  }

  /** An upper bound survives division. */
  lemma DivUpper(x: nat, t: nat, c: nat)
    requires t >= 1 && x < c * t
    ensures x / t < c
  {
    var q := x / t;
    assert x == t * q + x % t;
    if q >= c {
      MulMono(t, c, q);
    }
  }

  /** The level arithmetic of a server's port, without powers: with
      x < g·n·t, the switch index (x / (n·t))·t + x % t is below g·t. */
  lemma RangeCore(x: nat, n: nat, t: nat, g: nat)
    requires n >= 1 && t >= 1 && g >= 1 && x < g * (n * t)
    ensures (x / (n * t)) * t + x % t < g * t
  {
    var q := x / (n * t);
    DivUpper(x, n * t, g);
    MulMono(t, q, g - 1);
    assert q * t == t * q && t * (g - 1) == t * g - t;
  }

  /** The switch arithmetic of a server's port, without powers: the offset
      within a level of g·t switches lands in ((j-1)·sw, j·sw]. */
  lemma SlotCore(x: nat, n: nat, t: nat, g: nat, j: nat, sw: nat)
    requires n >= 1 && t >= 1 && g >= 1 && j >= 1 && x < g * (n * t) && sw == g * t
    ensures (j - 1) * sw < (x / (n * t)) * t + x % t + (j - 1) * sw + 1 <= j * sw
  {
    RangeCore(x, n, t, g);
    MulNonneg(x / (n * t), t);
    MulPred(j, sw);
  }

  /** The server arithmetic of a switch's port, without powers: with
      jj < g·t and p < n, the server offset stays below g·n·t. */
  lemma PeerCore(jj: nat, n: nat, t: nat, g: nat, p: nat)
    requires n >= 1 && t >= 1 && g >= 1 && jj < g * t && p < n
    ensures (jj / t) * (n * t) + jj % t + p * t < g * (n * t)
  {
    var a := jj / t;
    DivUpper(jj, t, g);
    MulMono(n * t, a, g - 1);
    MulMono(t, p, n - 1);
    assert a * (n * t) == (n * t) * a;
    assert p * t == t * p;
    assert (n * t) * (g - 1) == g * (n * t) - n * t;
    assert t * (n - 1) == n * t - t;
  }

  /** The inverse arithmetic, without powers: the offset of port p of
      switch jj splits back into the switch's group and its place in it. */
  lemma LinkCore(jj: nat, n: nat, t: nat, p: nat)
    requires n >= 1 && t >= 1 && p < n
    ensures var x := (jj / t) * (n * t) + jj % t + p * t;
      x / (n * t) == jj / t && x % t == jj % t && (x / (n * t)) * t + x % t == jj
  {
    var a := jj / t;
    var b := jj % t;
    var x := a * (n * t) + b + p * t;
    MulMono(t, p, n - 1);
    assert t * (n - 1) == n * t - t;
    assert p * t == t * p;
    assert b + p * t < n * t;
    assert x == (n * t) * a + (b + p * t);
    DivModUnique(x, n * t, a, b + p * t);
    assert x == t * (a * n + p) + b;
    DivModUnique(x, t, a * n + p, b);
    assert jj == t * a + b;
  }

  // ---------------------------------------------------------------------
  // Sizes
  // ---------------------------------------------------------------------

  datatype Layout = Layout(n: nat, levels: nat, nodes: nat, serverBegin: nat, servers: nat, switches: nat)

  /** The sizes of a BCube(n, k): `levels` switch levels of `switches`
      switches each, then `servers` servers from ID `serverBegin`; `nodes`
      is the largest node ID. */
  function Plan(n: nat, k: nat): (l: Layout)
    requires n >= 1
    ensures l.n == n && l.levels == k + 1 && Shaped(l)
    ensures l.servers == n * l.switches && l.switches >= 1
    ensures l.serverBegin == l.switches * l.levels + 1
    ensures l.nodes == l.switches * l.levels + l.servers
    ensures l.serverBegin + l.servers - 1 == l.nodes
  {
    var K := k + 1;
    var sw := Pow(n, K - 1);
    assert sw * (n + K) == sw * K + n * sw;
    Layout(n, K, Pow(n, K - 1) * (n + K), Pow(n, K - 1) * K + 1, Pow(n, K), Pow(n, K - 1))
  }

  /** The sizes `Plan` gives, in terms of the powers of n. */
  predicate Shaped(l: Layout)
  {
    l.n >= 1 && l.levels >= 1 &&
    l.switches == Pow(l.n, l.levels - 1) && l.servers == Pow(l.n, l.levels) &&
    l.serverBegin == l.switches * l.levels + 1
  }

  /** The arrays of the generator are large enough: port indexes 1..n and
      1..K fit a port array, and every node ID fits the node array. */
  predicate Fits(n: nat, k: nat)
  {
    1 <= n < MAX_PORT && k + 1 < MAX_PORT && Plan(n, k).nodes < MAX_NODE
  }

  // ---------------------------------------------------------------------
  // Server addresses
  // ---------------------------------------------------------------------

  /** Every divisor a k-digit address loop reaches, starting from `ts` and
      dividing by n after each digit, is positive. */
  predicate DivisorsPositive(ts: nat, n: nat, k: nat)
    requires n >= 1
    decreases k
  {
    k == 0 || (ts >= 1 && DivisorsPositive(ts / n, n, k - 1))
  }

  /** Powers of n are divisors a loop can use for up to e+1 digits. */
  lemma {:induction false} PowDivisors(n: nat, e: nat, k: nat)
    requires n >= 1 && k <= e + 1
    ensures DivisorsPositive(Pow(n, e), n, k)
    decreases k
  {
    if k > 1 {
      PowDivN(n, e);
      PowDivisors(n, e - 1, k - 1);
    }
  }

  /** The first divisor for a k-digit address: n^(k-1). */
  function TopDivisor(n: nat, k: nat): (ts: nat)
    requires n >= 1 && k >= 1
    ensures ts == Pow(n, k - 1) && DivisorsPositive(ts, n, k)
  {
    PowDivisors(n, k - 1, k);
    Pow(n, k - 1)
  }

  /** The digits the address loop emits for offset `x` when its divisor
      starts at `ts`: each step emits `x / ts`, keeps `x % ts`, and divides
      `ts` by n. */
  function DigitsOf(x: nat, ts: nat, n: nat, k: nat): (ds: seq<nat>)
    requires n >= 1 && DivisorsPositive(ts, n, k)
    ensures |ds| == k
    decreases k
  {
    if k == 0 then [] else [x / ts] + DigitsOf(x % ts, ts / n, n, k - 1)
  }

  /** The number a sequence of base-n digits stands for, most significant
      first. */
  function FromDigits(ds: seq<nat>, n: nat): nat
    decreases |ds|
  {
    if |ds| == 0 then 0 else ds[0] * Pow(n, |ds| - 1) + FromDigits(ds[1..], n)
  }

  predicate DigitsBelow(ds: seq<nat>, n: nat)
  {
    forall i :: 0 <= i < |ds| ==> ds[i] < n
  }

  /** `Bcubeid`: the k address digits of server `id`, counted from
      `begin`; `total` is divided by n before the first digit, and every
      divisor the loop reaches must be positive. */
  method Bcubeid(id: int, begin: int, total: nat, n: nat, k: nat) returns (ds: seq<nat>)
    requires n >= 1 && begin <= id && DivisorsPositive(total / n, n, k)
    ensures ds == DigitsOf(id - begin, total / n, n, k)
  {
    var x: nat := id - begin;
    var ts: nat := total / n;
    ghost var want := DigitsOf(x, ts, n, k);
    var left: nat := k;
    ds := [];
    while left > 0
      invariant DivisorsPositive(ts, n, left)
      invariant ds + DigitsOf(x, ts, n, left) == want
      decreases left
    {
      assert DigitsOf(x, ts, n, left) == [x / ts] + DigitsOf(x % ts, ts / n, n, left - 1);
      var d: nat := x / ts;
      ds := ds + [d];
      x := x % ts;
      ts := ts / n;
      left := left - 1;
    }
  }

  /** Digits below n stand for a number below n^|ds|. */
  lemma {:induction false} FromDigitsBound(ds: seq<nat>, n: nat)
    requires n >= 1 && DigitsBelow(ds, n)
    ensures FromDigits(ds, n) < Pow(n, |ds|)
    decreases |ds|
  {
    if |ds| > 0 {
      FromDigitsBound(ds[1..], n);
      var p := Pow(n, |ds| - 1);
      MulMono(p, ds[0], n - 1);
      assert ds[0] * p + FromDigits(ds[1..], n) < (n - 1) * p + p;
    }
  }

  /** The first digit, on plain numbers: below n^k = n·ts, the quotient by
      ts is a digit and quotient and remainder give the number back. */
  lemma DigitCore(x: nat, ts: nat, n: nat)
    requires ts >= 1 && n >= 1 && x < n * ts
    ensures x / ts < n && x % ts < ts && x == (x / ts) * ts + x % ts
  {
    DivUpper(x, ts, n);
  }

  /** Every offset below n^k gets k digits below n that stand for the
      offset: the address is its base-n representation. */
  lemma {:induction false} AddressRoundTrip(x: nat, n: nat, k: nat)
    requires n >= 1 && k >= 1 && x < Pow(n, k)
    ensures DigitsBelow(DigitsOf(x, TopDivisor(n, k), n, k), n)
    ensures FromDigits(DigitsOf(x, TopDivisor(n, k), n, k), n) == x
    decreases k
  {
    var ts := TopDivisor(n, k);
    var ds := DigitsOf(x, ts, n, k);
    DigitCore(x, ts, n);
    var r := x % ts;
    assert ds == [x / ts] + DigitsOf(r, ts / n, n, k - 1);
    if k > 1 {
      PowDivN(n, k - 1);
      assert ts / n == TopDivisor(n, k - 1);
      AddressRoundTrip(r, n, k - 1);
    }
    assert FromDigits(ds[1..], n) == r;
  }

  /** Conversely every k digits below n are the address of the offset they
      stand for: distinct servers get distinct names. */
  lemma {:induction false} AddressOfDigits(ds: seq<nat>, n: nat)
    requires n >= 1 && |ds| >= 1 && DigitsBelow(ds, n)
    ensures DigitsOf(FromDigits(ds, n), TopDivisor(n, |ds|), n, |ds|) == ds
    decreases |ds|
  {
    var k := |ds|;
    var ts := TopDivisor(n, k);
    var rest := FromDigits(ds[1..], n);
    FromDigitsBound(ds[1..], n);
    DivModUnique(FromDigits(ds, n), ts, ds[0], rest);
    if k > 1 {
      PowDivN(n, k - 1);
      assert ts / n == TopDivisor(n, k - 1);
      AddressOfDigits(ds[1..], n);
    }
  }

  // ---------------------------------------------------------------------
  // Wiring
  // ---------------------------------------------------------------------

  /** The server on port p (0-based) of switch jj (0-based) of a level
      whose strides are `tsl` (switches per group), `tlv` (servers per
      group) and `tpr` (distance between ports). */
  function Peer(begin: int, tsl: nat, tlv: nat, tpr: nat, jj: nat, p: nat): int
    requires tsl >= 1
  {
    begin + (jj / tsl) * tlv + jj % tsl + p * tpr
  }

  /** The server on port p of switch jj of level i: the strides of level i
      are n^(K-i), n^(K-i+1) and n^(K-i). */
  function SwitchPeer(l: Layout, i: nat, jj: nat, p: nat): int
    requires l.n >= 1 && 1 <= i <= l.levels
  {
    Peer(l.serverBegin, Pow(l.n, l.levels - i), Pow(l.n, l.levels - i + 1), Pow(l.n, l.levels - i), jj, p)
  }

  /** The switch on port j (1-based) of server s. */
  function ServerPeer(l: Layout, s: int, j: nat): int
    requires l.n >= 1 && 1 <= j <= l.levels && l.serverBegin <= s
  {
    var x := s - l.serverBegin;
    (x / Pow(l.n, l.levels - j + 1)) * Pow(l.n, l.levels - j) + x % Pow(l.n, l.levels - j) + (j - 1) * l.switches + 1
  }

  /** The ports of one switch: the first given, each next one `stride`
      further. */
  method PortRow(first: int, stride: nat, n: nat) returns (row: seq<int>)
    requires n >= 1
    ensures |row| == n && forall p :: 0 <= p < n ==> row[p] == first + p * stride
  {
    row := [first];
    var p := 1;
    while p < n
      invariant 1 <= p <= n && |row| == p
      invariant forall q :: 0 <= q < p ==> row[q] == first + q * stride
    {
      assert row[p - 1] + stride == first + p * stride;
      row := row + [row[p - 1] + stride];
      p := p + 1;
    }
  }

  /** Steps of a quotient and remainder as the dividend grows by one. */
  lemma DivStep(jj: nat, d: nat)
    requires jj >= 1 && d >= 1
    ensures jj % d == 0 ==> jj / d == (jj - 1) / d + 1
    ensures jj % d != 0 ==> jj / d == (jj - 1) / d && jj % d == (jj - 1) % d + 1
  {
    var q := (jj - 1) / d;
    var r := (jj - 1) % d;
    assert jj - 1 == d * q + r;
    if r + 1 < d {
      DivModUnique(jj, d, q, r + 1);
    } else {
      DivModUnique(jj, d, q + 1, 0);
    }
  }

  /** One level of switches. A switch that starts a group of `tsl`
      switches takes the next group's first server and moves the group
      start `tlv` further; any other switch takes the server after its
      predecessor's first. */
  method LevelPorts(begin: int, sw: nat, tsl: nat, tlv: nat, tpr: nat, n: nat) returns (ports: seq<seq<int>>)
    requires tsl >= 1 && n >= 1
    ensures |ports| == sw
    ensures forall jj :: 0 <= jj < sw ==> |ports[jj]| == n
    ensures forall jj, p :: 0 <= jj < sw && 0 <= p < n ==> ports[jj][p] == Peer(begin, tsl, tlv, tpr, jj, p)
  {
    ports := [];
    var nextbegin := begin;
    var tprenum := begin;
    var jj := 0;
    while jj < sw
      invariant jj <= sw && |ports| == jj
      invariant forall j' :: 0 <= j' < jj ==> |ports[j']| == n
      invariant forall j', p :: 0 <= j' < jj && 0 <= p < n ==> ports[j'][p] == Peer(begin, tsl, tlv, tpr, j', p)
      invariant jj == 0 ==> nextbegin == begin
      invariant jj > 0 ==> nextbegin == GroupEnd(begin, tsl, tlv, jj - 1) && tprenum == Peer(begin, tsl, tlv, tpr, jj - 1, 0)
    {
      GroupStep(begin, tsl, tlv, tpr, jj);
      if jj % tsl == 0 {
        tprenum := nextbegin;
        nextbegin := nextbegin + tlv;
      } else {
        tprenum := tprenum + 1;
      }
      var row := PortRow(tprenum, tpr, n);
      ports := ports + [row];
      jj := jj + 1;
    }
  }

  /** The group start after switch jj: the first server of the next group. */
  function GroupEnd(begin: int, tsl: nat, tlv: nat, jj: nat): int
    requires tsl >= 1
  {
    begin + (jj / tsl + 1) * tlv
  }

  /** One switch of the level loop: a switch that starts a group takes the
      group start, which then moves `tlv` further; any other switch takes
      the server after its predecessor's first. */
  lemma GroupStep(begin: int, tsl: nat, tlv: nat, tpr: nat, jj: nat)
    requires tsl >= 1
    ensures jj == 0 ==> Peer(begin, tsl, tlv, tpr, 0, 0) == begin && GroupEnd(begin, tsl, tlv, 0) == begin + tlv
    ensures jj > 0 && jj % tsl == 0 ==>
      Peer(begin, tsl, tlv, tpr, jj, 0) == GroupEnd(begin, tsl, tlv, jj - 1) &&
      GroupEnd(begin, tsl, tlv, jj) == GroupEnd(begin, tsl, tlv, jj - 1) + tlv
    ensures jj > 0 && jj % tsl != 0 ==>
      Peer(begin, tsl, tlv, tpr, jj, 0) == Peer(begin, tsl, tlv, tpr, jj - 1, 0) + 1 &&
      GroupEnd(begin, tsl, tlv, jj) == GroupEnd(begin, tsl, tlv, jj - 1)
  {
    if jj > 0 {
      DivStep(jj, tsl);
      MulPred(jj / tsl + 1, tlv);
    }
  }

  /** Level i's switch rows as wired: one row of n servers per switch, port
      p of switch jj reaching SwitchPeer(l, i, jj, p). */
  predicate LevelWired(l: Layout, i: nat, level: seq<seq<int>>)
    requires l.n >= 1 && 1 <= i <= l.levels
  {
    |level| == l.switches &&
    forall jj :: 0 <= jj < l.switches ==>
      |level[jj]| == l.n && forall p :: 0 <= p < l.n ==> level[jj][p] == SwitchPeer(l, i, jj, p)
  }

  /** Server s's row as wired: one switch per level, port j+1 reaching
      ServerPeer(l, s, j+1). */
  predicate ServerWired(l: Layout, s: int, ports: seq<int>)
    requires l.n >= 1 && l.serverBegin <= s
  {
    |ports| == l.levels && forall j :: 0 <= j < l.levels ==> ports[j] == ServerPeer(l, s, j + 1)
  }

  /** Every level of switches, the three strides divided by n after each. */
  method SwitchPorts(l: Layout) returns (levels: seq<seq<seq<int>>>)
    requires Shaped(l)
    ensures |levels| == l.levels
    ensures forall i :: 0 <= i < l.levels ==> LevelWired(l, i + 1, levels[i])
  {
    var n := l.n;
    var K := l.levels;
    var tsl := l.switches;
    var tlv := l.servers;
    PowDivN(n, K);
    var tpr := l.servers / n;
    levels := [];
    var i := 1;
    while i <= K
      invariant 1 <= i <= K + 1 && |levels| == i - 1
      invariant i <= K ==> tsl == Pow(n, K - i) && tlv == Pow(n, K - i + 1) && tpr == Pow(n, K - i)
      invariant forall i' :: 0 <= i' < i - 1 ==> LevelWired(l, i' + 1, levels[i'])
    {
      var level := LevelPorts(l.serverBegin, l.switches, tsl, tlv, tpr, n);
      assert LevelWired(l, i, level);
      levels := levels + [level];
      if i < K {
        PowDivN(n, K - i);
        PowDivN(n, K - i + 1);
      }
      tsl := tsl / n;
      tlv := tlv / n;
      tpr := tpr / n;
      i := i + 1;
    }
  }

  /** The ports of server s: port j reaches a switch of level j, the strides
      divided by n after each port. */
  method ServerPorts(l: Layout, s: int) returns (ports: seq<int>)
    requires Shaped(l) && l.serverBegin <= s
    ensures ServerWired(l, s, ports)
  {
    var n := l.n;
    var K := l.levels;
    var x := s - l.serverBegin;
    var tsw := l.switches;
    var tls := l.servers;
    ports := [];
    var j := 1;
    while j <= K
      invariant 1 <= j <= K + 1 && |ports| == j - 1
      invariant j <= K ==> tsw == Pow(n, K - j) && tls == Pow(n, K - j + 1)
      invariant forall j' :: 0 <= j' < j - 1 ==> ports[j'] == ServerPeer(l, s, j' + 1)
    {
      ports := ports + [(x / tls) * tsw + x % tsw + (j - 1) * l.switches + 1];
      if j < K {
        PowDivN(n, K - j);
        PowDivN(n, K - j + 1);
      }
      tsw := tsw / n;
      tls := tls / n;
      j := j + 1;
    }
  }

  /** Server port j reaches a switch of level j: an ID in
      ((j-1)·switches, j·switches]. */
  lemma ServerPeerInLevel(l: Layout, s: int, j: nat)
    requires Shaped(l)
    requires 1 <= j <= l.levels && l.serverBegin <= s < l.serverBegin + l.servers
    ensures (j - 1) * l.switches < ServerPeer(l, s, j) <= j * l.switches
  {
    var n := l.n;
    var K := l.levels;
    var t := Pow(n, K - j);
    var g := Pow(n, j - 1);
    var x := s - l.serverBegin;
    LevelPowers(n, K, j);
    assert ServerPeer(l, s, j) == (x / (n * t)) * t + x % t + (j - 1) * l.switches + 1;
    SlotCore(x, n, t, g, j, l.switches);
  }

  /** The powers of one level: n^K = n^(j-1)·n·n^(K-j), and one factor n
      less for the switches of a level. */
  lemma LevelPowers(n: nat, K: nat, j: nat)
    requires n >= 1 && 1 <= j <= K
    ensures Pow(n, K - j + 1) == n * Pow(n, K - j)
    ensures Pow(n, K) == Pow(n, j - 1) * (n * Pow(n, K - j))
    ensures Pow(n, K - 1) == Pow(n, j - 1) * Pow(n, K - j)
  {
    PowAdd(n, j - 1, K - j + 1);
    PowAdd(n, j - 1, K - j);
  }

  /** Port p of switch jj of level i reaches a server. */
  lemma SwitchPeerIsServer(l: Layout, i: nat, jj: nat, p: nat)
    requires Shaped(l)
    requires 1 <= i <= l.levels && jj < l.switches && p < l.n
    ensures l.serverBegin <= SwitchPeer(l, i, jj, p) < l.serverBegin + l.servers
  {
    var n := l.n;
    var t := Pow(n, l.levels - i);
    LevelPowers(n, l.levels, i);
    assert SwitchPeer(l, i, jj, p) == l.serverBegin + ((jj / t) * (n * t) + jj % t + p * t);
    PeerRange(jj, n, t, Pow(n, i - 1), p);
  }

  /** PeerCore with the lower bound: the server offset is a valid one. */
  lemma PeerRange(jj: nat, n: nat, t: nat, g: nat, p: nat)
    requires n >= 1 && t >= 1 && g >= 1 && jj < g * t && p < n
    ensures 0 <= (jj / t) * (n * t) + jj % t + p * t < g * (n * t)
  {
    PeerCore(jj, n, t, g, p);
    MulNonneg(jj / t, n * t);
    MulNonneg(p, t);
  }

  /** The wiring is consistent: when port p of switch jj of level i reaches
      server s, port i of server s reaches that very switch. */
  lemma LinksAgree(l: Layout, i: nat, jj: nat, p: nat)
    requires Shaped(l)
    requires 1 <= i <= l.levels && jj < l.switches && p < l.n
    ensures var s := SwitchPeer(l, i, jj, p);
      l.serverBegin <= s < l.serverBegin + l.servers &&
      ServerPeer(l, s, i) == (i - 1) * l.switches + jj + 1
  {
    SwitchPeerIsServer(l, i, jj, p);
    var n := l.n;
    var t := Pow(n, l.levels - i);
    assert Pow(n, l.levels - i + 1) == n * t;
    LinkCore(jj, n, t, p);
  }

  // ---------------------------------------------------------------------
  // The program
  // ---------------------------------------------------------------------

  datatype Topology = Topology(layout: Layout, switchPorts: seq<seq<seq<int>>>, serverPorts: seq<seq<int>>)

  /** A topology whose every switch row and server row is wired as BCube
      prescribes. */
  predicate Wired(t: Topology)
  {
    var l := t.layout;
    Shaped(l) && |t.switchPorts| == l.levels && |t.serverPorts| == l.servers &&
    (forall i :: 0 <= i < l.levels ==> LevelWired(l, i + 1, t.switchPorts[i])) &&
    (forall x :: 0 <= x < l.servers ==> ServerWired(l, l.serverBegin + x, t.serverPorts[x]))
  }

  /** In a wired topology every link is listed from both ends: the server
      on port p of switch jj of level i (0-based) lists that switch on its
      port of level i. */
  lemma WiredLinksAgree(t: Topology, i: nat, jj: nat, p: nat)
    requires Wired(t)
    requires i < t.layout.levels && jj < t.layout.switches && p < t.layout.n
    ensures var l := t.layout; var s := t.switchPorts[i][jj][p];
      l.serverBegin <= s < l.serverBegin + l.servers &&
      t.serverPorts[s - l.serverBegin][i] == i * l.switches + jj + 1
  {
    var l := t.layout;
    assert LevelWired(l, i + 1, t.switchPorts[i]);
    LinksAgree(l, i + 1, jj, p);
    var s := t.switchPorts[i][jj][p];
    assert ServerWired(l, l.serverBegin + (s - l.serverBegin), t.serverPorts[s - l.serverBegin]);
  }

  /** The generator: with fewer than three arguments it prints its usage
      and returns -1; otherwise it builds the wiring of BCube(n, k) and
      returns 0. Arguments the program's fixed arrays cannot hold (n of 0,
      whose port range divides by zero, more ports than a port array has,
      or more nodes than the node array has) make it run into undefined
      behaviour, which stops the model with `Fatal`. Writing the topology
      file is not modelled. */
  method Generate(argCount: nat, n: nat, k: nat) returns (r: Outcome<(int, Option<Topology>)>)
    ensures argCount < 4 ==> r == Ok((-1, None))
    ensures argCount >= 4 ==> (r.Fatal? <==> !Fits(n, k))
    ensures argCount >= 4 && r.Ok? ==> r.value.0 == 0 && r.value.1.Some? && r.value.1.value.layout == Plan(n, k)
    ensures r.Ok? && r.value.1.Some? ==> Wired(r.value.1.value)
  {
    if argCount < 4 {
      return Ok((-1, None));
    }
    if !Fits(n, k) {
      return Fatal("the arguments overrun the generator's arrays");
    }
    var l := Plan(n, k);
    var sw := SwitchPorts(l);
    var servers: seq<seq<int>> := [];
    var x := 0;
    while x < l.servers
      invariant 0 <= x <= l.servers && |servers| == x
      invariant forall y :: 0 <= y < x ==> ServerWired(l, l.serverBegin + y, servers[y])
    {
      var ports := ServerPorts(l, l.serverBegin + x);
      servers := servers + [ports];
      x := x + 1;
    }
    return Ok((0, Some(Topology(l, sw, servers))));
  }

}

=== FILE: common.dfy ===
/**
 Shared vocabulary of the NDN forwarding model: optional values, outcomes of
 operations that can hit a fatal assertion, faces, and the decimal-digit
 arithmetic that the BCube source-routing scheme is built on.
 */
module Common {

  /** A value that may be absent (a null pointer or an `end()` iterator). */
  datatype Option<+T> = None | Some(value: T)

  /** The result of an operation that either completes or stops the node on a
      fatal assertion (`NS_ASSERT`, `NS_FATAL_ERROR`, or a null dereference). */
  datatype Outcome<+T> = Ok(value: T) | Fatal(reason: string)

  /** A face of a node. `isApp` marks the faces that attach a local
      application (the `AppFace` class); all other faces are network links. */
  datatype Face = Face(id: nat, isApp: bool)

  /** The NACK codes of the Interest header: zero for a normal Interest. */
  const NORMAL_INTEREST: nat := 0
  const NACK_LOOP: nat := 10
  const NACK_CONGESTION: nat := 11
  const NACK_GIVEUP_PIT: nat := 12

  /** `std::numeric_limits<uint32_t>::max()`, the "no hop" marker of the tag. */
  const UINT32_MAX: nat := 0xFFFF_FFFF

  /** 2^32: every `uint32_t` is below this bound. */
  const TWO32: nat := 0x1_0000_0000

  /** Exact integer power `b^e`. */
  function Pow(b: nat, e: nat): (r: nat)
    ensures b > 0 ==> r > 0
  {
    if e == 0 then 1 else b * Pow(b, e - 1)
  }

  /** The k-th decimal digit of `x`, counting from the least significant one
      (k starts at 0). */
  function Digit(x: nat, k: nat): (d: nat)
    ensures d < 10
  {
    (x / Pow(10, k)) % 10
  }

  lemma {:induction false} PowAdd(b: nat, e1: nat, e2: nat)
    ensures Pow(b, e1 + e2) == Pow(b, e1) * Pow(b, e2)
    decreases e2
  {
    if e2 > 0 {
      PowAdd(b, e1, e2 - 1);
      calc {
        Pow(b, e1 + e2);
        b * Pow(b, e1 + e2 - 1);
        b * (Pow(b, e1) * Pow(b, e2 - 1));
        { MulSwap(b, Pow(b, e1), Pow(b, e2 - 1)); }
        Pow(b, e1) * (b * Pow(b, e2 - 1));
      }
    }
  }

  /** Adding a new key to a map keeps every other entry. */
  lemma UpdateKeepsOthers<K, V>(m: map<K, V>, k: K, v: V)
    requires k !in m
    ensures m[k := v].Keys == m.Keys + {k}
    ensures forall g :: g in m ==> m[k := v][g] == m[g]
  {}

  /** Replacing the value of a present key keeps the key set. */
  lemma UpdateKeepsOthersOrSame<K, V>(m: map<K, V>, k: K, v: V)
    requires k in m
    ensures m[k := v].Keys == m.Keys
  {}

  /** A position at which a member of a sequence occurs. */
  lemma PositionOf<T>(s: seq<T>, x: T) returns (j: nat)
    requires x in s
    ensures j < |s| && s[j] == x
  {
    j :| j < |s| && s[j] == x;
  }

  lemma AppendRegroup<T>(a: seq<T>, b: seq<T>, c: seq<T>, d: seq<T>)
    ensures a + b + c + d == a + (b + c) + d
  {}

  lemma MulSwap(a: int, b: int, c: int)
    ensures a * (b * c) == b * (a * c)
  {}

  lemma MulPred(a: int, b: int)
    ensures a * b == (a - 1) * b + b
  {}

  lemma MulNonneg(a: int, b: int)
    requires a >= 0 && b >= 0
    ensures a * b >= 0
  {}

  lemma MulMono(a: int, b: int, c: int)
    requires a >= 0 && b <= c
    ensures a * b <= a * c
  {}

  lemma ZeroFactor(d: int, k: int)
    requires d > 0 && -d < d * k < d
    ensures k == 0
  {
    if k >= 1 { MulMono(d, 1, k); } else if k <= -1 { MulMono(d, k, -1); }
  }

  /** `x == d * q + r` with `0 <= r < d` pins down quotient and remainder. */
  lemma DivModUnique(x: int, d: int, q: int, r: int)
    requires d > 0 && 0 <= r < d && x == d * q + r
    ensures x / d == q && x % d == r
  {
    var q0 := x / d;
    var r0 := x % d;
    assert d * (q0 - q) == r - r0;
    ZeroFactor(d, q0 - q);
  }

  /** Dividing by `b` then by `c` is dividing by `b * c`. */
  lemma DivDiv(x: nat, b: nat, c: nat)
    requires b > 0 && c > 0
    ensures x / b / c == x / (b * c)
  {
    var q := x / b;
    var r := x % b;
    var q2 := q / c;
    var r2 := q % c;
    assert x == b * q + r;
    assert q == c * q2 + r2;
    assert x == (b * c) * q2 + (b * r2 + r) by {
      assert b * q == b * (c * q2 + r2) == b * c * q2 + b * r2;
    }
    MulMono(b, r2, c - 1);
    assert b * (c - 1) == b * c - b;
    DivModUnique(x, b * c, q2, b * r2 + r);
  }
}

=== FILE: consumer.dfy ===
/**
 Pacing shared by both `ConsumerOm` applications: a send is scheduled at
 once the first time, and afterwards one rate interval (the inverse of the
 current limit) later, unless a send is already pending. The simulator's
 scheduler is represented by the actions a handler asks for.
 */
module ConsumerPacing {
  /** What a handler asks of the simulator or the network:
      - `SendAfter(d)`: run the send routine `d` seconds from now;
      - `ShowAfter(d)`: run the periodic report `d` seconds from now;
      - `Request(seqNo, nonce)`: hand an Interest for sequence number `seqNo`
        to the application's face. */
  datatype Act = SendAfter(delay: real) | ShowAfter(delay: real) | Request(seqNo: nat, nonce: nat)

  /** The send timer: whether no send was scheduled yet, and whether a
      scheduled send is still waiting to run. */
  datatype Timer = Timer(firstTime: bool, pending: bool)

  /** `ScheduleNextPacket`: at once the first time; later one interval of
      `1/limit` seconds, only when no send is pending. */
  function ScheduleNext(t: Timer, limit: real): (r: (Timer, seq<Act>))
    requires limit > 0.0
    ensures r.0.pending
    ensures t.firstTime ==> r.1 == [SendAfter(0.0)] && !r.0.firstTime
    ensures !t.firstTime && t.pending ==> r == (t, [])
    ensures !t.firstTime && !t.pending ==> r.0 == Timer(false, true) && r.1 == [SendAfter(1.0 / limit)]
    ensures |r.1| <= 1 && (forall a :: a in r.1 ==> a.SendAfter? && a.delay >= 0.0)
  {
    if t.firstTime then (Timer(false, true), [SendAfter(0.0)])
    else if !t.pending then (t.(pending := true), [SendAfter(1.0 / limit)])
    else (t, [])
  }

  /** A scheduled send is never doubled: after the first call, a call made
      while a send is pending asks for nothing, so two calls in a row ask
      for at most one send between them once the first-time send is out. */
  lemma ScheduleNextIdempotent(t: Timer, limit: real)
    requires limit > 0.0 && !t.firstTime
    ensures var (t1, a1) := ScheduleNext(t, limit);
      ScheduleNext(t1, limit) == (t1, []) && |a1| <= 1
  {
  }

  /** Whether every component of `prefix` matches the name's component at
      the same position, as the application's prefix filter checks by
      walking both lists. */
  method PrefixMatches(prefix: seq<string>, name: seq<string>) returns (b: bool)
    ensures b <==> prefix <= name
  {
    var i := 0;
    while i < |prefix|
      invariant 0 <= i <= |prefix| && i <= |name|
      invariant prefix[..i] == name[..i]
    {
      if i == |name| || prefix[i] != name[i] {
        return false;
      }
      i := i + 1;
    }
    assert prefix == prefix[..i];
    return true;
  }
}

/**
 The BCube `ConsumerOm` application: additive increase of its Interest
 rate limit on Data, a decrease on give-up NACKs scaled by the NACK's
 sharing value, with a floor; NACKs for other names are ignored.
 */
module ConsumerOm {
  import opened Common
  import opened ConsumerPacing

  /** Sharing value at and above which a NACK counts as a full give-up. */
  const FULL_SHARE: real := 100.0

  /** The CE mark of Data answered by the consumer's own node's cache. */
  const CE_LOCAL_HIT: nat := 2

  datatype Consumer = Consumer(
    limit: real,         // current Interest rate limit (packets/s)
    initLimit: real,     // floor of the limit after a give-up NACK
    alpha: real,         // additive increase, grows back toward alphaMax
    alphaMax: real,
    beta: real,          // decrease for a full give-up NACK
    inited: bool,        // whether a Data packet was seen
    interval: real,      // period of the report
    timer: Timer,
    active: bool,
    prefix: seq<string>, // the name the application requests
    interestCount: nat,
    dataCount: nat,
    nackCount: nat,
    extraNackCount: nat)

  /** The controller's working range: a positive limit, floor, increase
      and ceiling of the increase. */
  predicate Sane(c: Consumer)
  {
    c.limit > 0.0 && c.initLimit > 0.0 && c.alpha > 0.0 && c.alphaMax > 0.0
  }

  /** The constructor: floor and limit 100, increase 20 (its ceiling too),
      decrease 1.1, a one-second report period; it asks for the first
      report one period later. */
  function Create(prefix: seq<string>, active: bool): (r: (Consumer, seq<Act>))
    ensures var c := r.0;
      c.limit == 100.0 && c.initLimit == 100.0 && c.alpha == 20.0 && c.alphaMax == 20.0 &&
      c.beta == 1.1 && !c.inited && c.interval == 1.0 && c.timer == Timer(true, false) &&
      c.interestCount == 0 && c.dataCount == 0 && c.nackCount == 0 && c.extraNackCount == 0
    ensures Sane(r.0) && r.1 == [ShowAfter(1.0)]
  {
    (Consumer(100.0, 100.0, 20.0, 20.0, 1.1, false, 1.0, Timer(true, false), active, prefix, 0, 0, 0, 0),
     [ShowAfter(1.0)])
  }

  /** The attributes, applied after construction. `InitLimit` sets the
      current limit and leaves the floor at 100; `DataFeedback` sets the
      ceiling of the increase, not the increase itself. */
  function Configure(c: Consumer, initLimit: real, interval: real, dataFeedback: real, nackFeedback: real): (r: Consumer)
    ensures r.limit == initLimit && r.initLimit == c.initLimit
    ensures r.alphaMax == dataFeedback && r.alpha == c.alpha && r.beta == nackFeedback && r.interval == interval
    ensures r.(limit := c.limit, alphaMax := c.alphaMax, beta := c.beta, interval := c.interval) == c
    ensures Sane(c) && initLimit > 0.0 && dataFeedback > 0.0 ==> Sane(r)
  {
    c.(limit := initLimit, interval := interval, alphaMax := dataFeedback, beta := nackFeedback)
  }

  /** `SendRandomPacket`: when active, one Interest with the given random
      sequence number and nonce, one more Interest counted, and the next
      send scheduled; an inactive application does nothing. */
  function SendRandom(c: Consumer, seqNo: nat, nonce: nat): (r: (Consumer, seq<Act>))
    requires Sane(c)
    ensures !c.active ==> r == (c, [])
    ensures c.active ==>
      r.0 == c.(interestCount := c.interestCount + 1, timer := ScheduleNext(c.timer, c.limit).0) &&
      r.1 == [Request(seqNo, nonce)] + ScheduleNext(c.timer, c.limit).1
    ensures Sane(r.0)
  {
    if !c.active then (c, [])
    else
      var (t, acts) := ScheduleNext(c.timer, c.limit);
      (c.(interestCount := c.interestCount + 1, timer := t), [Request(seqNo, nonce)] + acts)
  }

  /** The scheduled send runs: the pending send is over, then the send
      routine. */
  function Fire(c: Consumer, seqNo: nat, nonce: nat): (r: (Consumer, seq<Act>))
    requires Sane(c)
    ensures Sane(r.0)
    ensures c.active ==> |r.1| == 2 && r.1[0] == Request(seqNo, nonce) && r.1[1].SendAfter? && r.0.timer.pending
  {
    SendRandom(c.(timer := c.timer.(pending := false)), seqNo, nonce)
  }

  /** The first Data packet replaces the increase by its ceiling. */
  function FirstData(c: Consumer): (r: Consumer)
    ensures r.inited
    ensures !c.inited ==> r == c.(alpha := c.alphaMax, inited := true)
    ensures c.inited ==> r == c
  {
    if c.inited then c else c.(alpha := c.alphaMax, inited := true)
  }

  /** The additive increase: the limit grows by `alpha/limit`, then the
      increase grows by the inverse of the new limit, capped at its
      ceiling. */
  function Increase(c: Consumer): (r: Consumer)
    requires Sane(c)
    ensures r.limit == c.limit + c.alpha / c.limit
    ensures r.alpha == if c.alpha + 1.0 / r.limit > c.alphaMax then c.alphaMax else c.alpha + 1.0 / r.limit
    ensures r.limit > c.limit && r.alpha <= c.alphaMax && Sane(r)
    ensures r.(limit := c.limit, alpha := c.alpha) == c
  {
    var limit := c.limit + c.alpha / c.limit;
    var alpha := c.alpha + 1.0 / limit;
    c.(limit := limit, alpha := if alpha > c.alphaMax then c.alphaMax else alpha)
  }

  /** A Data packet. The first one sets the increase to its ceiling. Data
      from another node's path raises the limit; a hit in the node's own
      cache leaves the controller alone and sends the next Interest at
      once. Either way one more Data packet is counted. */
  function OnData(c: Consumer, ce: nat, seqNo: nat, nonce: nat): (r: (Consumer, seq<Act>))
    requires Sane(c)
    ensures Sane(r.0) && r.0.inited
    ensures r.0.dataCount == c.dataCount + 1
    ensures !c.inited ==> r.0.alphaMax == c.alphaMax && (ce == CE_LOCAL_HIT ==> r.0.alpha == c.alphaMax)
    ensures ce != CE_LOCAL_HIT ==>
      r.1 == [] && r.0 == Increase(FirstData(c)).(dataCount := c.dataCount + 1)
    ensures ce != CE_LOCAL_HIT ==> r.0.limit > c.limit
    ensures ce == CE_LOCAL_HIT ==>
      r.0.limit == c.limit && r.0.initLimit == c.initLimit &&
      (c.inited ==> r.0.alpha == c.alpha) &&
      r.1 == SendRandom(FirstData(c), seqNo, nonce).1
  {
    var c1 := FirstData(c);
    if ce != CE_LOCAL_HIT then
      var c2 := Increase(c1);
      (c2.(dataCount := c.dataCount + 1), [])
    else
      var (c2, acts) := SendRandom(c1, seqNo, nonce);
      (c2.(dataCount := c.dataCount + 1), acts)
  }

  /** Extra Data (answered after its Interest was already satisfied): one
      more Data counted when its name is under the application's prefix. */
  function OnExtraData(c: Consumer, name: seq<string>): (r: Consumer)
    ensures c.prefix <= name ==> r == c.(dataCount := c.dataCount + 1)
    ensures !(c.prefix <= name) ==> r == c
  {
    if c.prefix <= name then c.(dataCount := c.dataCount + 1) else c
  }

  /** The decrease for a give-up NACK with sharing value `share`:
      - at or above 100, the full decrease, counted as a NACK;
      - below, the decrease scaled by `share/100`, and the increase
        lowered by `share/100` (reset to 1 once it is no longer positive),
        counted as an extra NACK;
      then the limit is raised back to the floor when at or under it. */
  function GiveUp(c: Consumer, share: real): (r: Consumer)
    requires Sane(c)
    ensures Sane(r) && r.limit >= c.initLimit
    ensures var cut := if share >= FULL_SHARE then c.limit - c.beta else c.limit - c.beta * share / 100.0;
      r.limit == if cut <= c.initLimit then c.initLimit else cut
    ensures share >= FULL_SHARE ==>
      r.alpha == c.alpha && r.nackCount == c.nackCount + 1 && r.extraNackCount == c.extraNackCount
    ensures share < FULL_SHARE ==>
      r.nackCount == c.nackCount && r.extraNackCount == c.extraNackCount + 1 &&
      r.alpha == (if c.alpha - share / 100.0 <= 0.0 then 1.0 else c.alpha - share / 100.0)
    ensures r.(limit := c.limit, alpha := c.alpha, nackCount := c.nackCount, extraNackCount := c.extraNackCount) == c
  {
    var c1 :=
      if share >= FULL_SHARE then c.(limit := c.limit - c.beta, nackCount := c.nackCount + 1)
      else
        var alpha := c.alpha - share / 100.0;
        c.(limit := c.limit - c.beta * share / 100.0, extraNackCount := c.extraNackCount + 1,
           alpha := if alpha <= 0.0 then 1.0 else alpha);
    if c1.limit <= c.initLimit then c1.(limit := c.initLimit) else c1
  }

  /** A NACK. One for a name outside the application's prefix, or with a
      code other than give-up, changes nothing; a give-up NACK applies the
      decrease. */
  function OnNack(c: Consumer, name: seq<string>, code: nat, share: real): (r: Consumer)
    requires Sane(c)
    ensures Sane(r)
    ensures !(c.prefix <= name) || code != NACK_GIVEUP_PIT ==> r == c
    ensures c.prefix <= name && code == NACK_GIVEUP_PIT ==> r == GiveUp(c, share) && r.limit >= r.initLimit
  {
    if !(c.prefix <= name) || code != NACK_GIVEUP_PIT then c else GiveUp(c, share)
  }

  /** A give-up NACK can raise the rate: a limit under the floor (as the
      `InitLimit` attribute leaves it, at 10 under a floor of 100) is set
      to the floor. */
  lemma GiveUpRaisesLowLimit(c: Consumer, share: real)
    requires Sane(c) && c.limit < c.initLimit && c.beta >= 0.0 && share >= 0.0
    ensures GiveUp(c, share).limit == c.initLimit && GiveUp(c, share).limit > c.limit
  {
    assert c.beta * share >= 0.0;
  }

  /** Once the limit is at or above the floor it stays there under every
      handler. */
  lemma FloorKept(c: Consumer, ce: nat, name: seq<string>, code: nat, share: real, seqNo: nat, nonce: nat)
    requires Sane(c) && c.limit >= c.initLimit
    ensures OnData(c, ce, seqNo, nonce).0.limit >= OnData(c, ce, seqNo, nonce).0.initLimit
    ensures OnNack(c, name, code, share).limit >= c.initLimit
    ensures OnExtraData(c, name).limit >= c.initLimit
  {
  }

  /** The periodic report: the four interval counters start again from
      zero and the next report is asked for one period later. */
  function ShowInterestLimit(c: Consumer): (r: (Consumer, seq<Act>))
    ensures r.0 == c.(interestCount := 0, dataCount := 0, nackCount := 0, extraNackCount := 0)
    ensures r.1 == [ShowAfter(c.interval)]
  {
    (c.(interestCount := 0, dataCount := 0, nackCount := 0, extraNackCount := 0), [ShowAfter(c.interval)])
  }
}

/**
 The `ConsumerOm` application of the plain ns-3 tree: the limit grows by
 `alpha/limit` on every Data and drops by `beta` on a give-up NACK, never
 under its floor.
 */
module PlainConsumerOm {
  import opened Common
  import opened ConsumerPacing

  datatype Consumer = Consumer(
    limit: real,
    initLimit: real,
    alpha: real,
    beta: real,
    interval: real,
    timer: Timer)

  predicate Sane(c: Consumer)
  {
    c.limit > 0.0 && c.initLimit > 0.0 && c.alpha >= 0.0
  }

  /** The constructor: floor and limit 10, increase 20, decrease 1.1, a
      one-second report period; it asks for the first report one period
      later. */
  function Create(): (r: (Consumer, seq<Act>))
    ensures r.0.initLimit == 10.0 && r.0.limit == r.0.initLimit && r.0.alpha == 20.0 && r.0.beta == 1.1
    ensures r.0.timer == Timer(true, false) && Sane(r.0) && r.1 == [ShowAfter(1.0)]
  {
    (Consumer(10.0, 10.0, 20.0, 1.1, 1.0, Timer(true, false)), [ShowAfter(1.0)])
  }

  /** The attributes, applied after construction: `InitLimit` moves the
      floor but not the current limit, which stays at the constructor's 10. */
  function Configure(c: Consumer, initLimit: real, interval: real, dataFeedback: real, nackFeedback: real): (r: Consumer)
    ensures r.limit == c.limit && r.initLimit == initLimit && r.alpha == dataFeedback && r.beta == nackFeedback
    ensures r.interval == interval && r.timer == c.timer
    ensures Sane(c) && initLimit > 0.0 && dataFeedback >= 0.0 ==> Sane(r)
  {
    c.(initLimit := initLimit, interval := interval, alpha := dataFeedback, beta := nackFeedback)
  }

  /** The scheduled send runs: the pending send is over and the next send
      is asked for, as the base consumer's send routine does once it has
      sent. The Interest itself comes from that routine (`Consumer::SendPacket`),
      which is not part of this model, so no `Request` appears here. */
  function Fire(c: Consumer): (r: (Consumer, seq<Act>))
    requires Sane(c)
    ensures r.0.timer.pending && r.0.(timer := c.timer) == c
    ensures !c.timer.firstTime ==> r.1 == [SendAfter(1.0 / c.limit)]
  {
    var (t, acts) := ScheduleNext(c.timer.(pending := false), c.limit);
    (c.(timer := t), acts)
  }

  /** A Data packet: the limit grows by `alpha/limit`; nothing else
      changes. */
  function OnData(c: Consumer): (r: Consumer)
    requires Sane(c)
    ensures r.limit == c.limit + c.alpha / c.limit && r.(limit := c.limit) == c
    ensures r.limit >= c.limit && (c.alpha > 0.0 ==> r.limit > c.limit) && Sane(r)
  {
    c.(limit := c.limit + c.alpha / c.limit)
  }

  /** A NACK: a give-up NACK lowers the limit by `beta`, not under the
      floor; any other code changes nothing. */
  function OnNack(c: Consumer, code: nat): (r: Consumer)
    requires Sane(c)
    ensures code != NACK_GIVEUP_PIT ==> r == c
    ensures code == NACK_GIVEUP_PIT ==>
      r.limit == (if c.limit - c.beta <= c.initLimit then c.initLimit else c.limit - c.beta) &&
      r.(limit := c.limit) == c
    ensures Sane(r)
  {
    if code != NACK_GIVEUP_PIT then c
    else if c.limit - c.beta <= c.initLimit then c.(limit := c.initLimit)
    else c.(limit := c.limit - c.beta)
  }

  /** Once at or above its floor the limit stays there, and after a
      give-up NACK it is there. */
  lemma FloorKept(c: Consumer, code: nat)
    requires Sane(c) && c.limit >= c.initLimit
    ensures OnData(c).limit >= c.initLimit && OnNack(c, code).limit >= c.initLimit
  {
  }

  /** The periodic report changes nothing and asks for the next report. */
  function ShowInterestLimit(c: Consumer): (r: (Consumer, seq<Act>))
    ensures r == (c, [ShowAfter(c.interval)])
  {
    (c, [ShowAfter(c.interval)])
  }
}

=== FILE: face_metric.dfy ===
/**
 The per-(FIB entry, face) record `FaceMetric`: routing cost and status, the
 round-trip estimator, live counters for the current interval with their
 exponentially decayed copies from earlier intervals, and the share of
 traffic (a percentage) the face may carry. Times and counters are reals.
 */
module FaceMetrics {
  import opened Common

  /** Face colour; `StatusRank` is the numeric value of the enum. */
  datatype Status = Green | Yellow | Red

  function StatusRank(s: Status): nat
  {
    match s
    case Green => 1
    case Yellow => 2
    case Red => 3
  }

  /** Weight of the live counter in the decayed counters. */
  const ALPHA: real := 1.0 / 16.0

  /** RFC 2988 gains for the smoothed RTT and its variation. */
  const RTO_ALPHA: real := 0.125
  const RTO_BETA: real := 0.25

  datatype FaceMetric = FaceMetric(
    face: Face,
    status: Status,
    routingCost: int,
    sRtt: real,
    rttVar: real,
    realDelay: real,
    nack: real,
    dataIn: real,
    dataCe: real,
    nackOld: real,
    dataInOld: real,
    dataCeOld: real,
    fraction: real,
    sharingMetric: real,
    interestCount: nat)

  /** A record for a face just added to an entry. */
  function NewFaceMetric(face: Face, cost: int): (m: FaceMetric)
    ensures m.face == face && m.routingCost == cost && m.status == Yellow
    ensures m.sRtt == 0.0 && m.rttVar == 0.0 && m.realDelay == 0.0
    ensures m.nack == 0.0 && m.dataIn == 0.0 && m.dataCe == 0.0
    ensures m.nackOld == 0.0 && m.dataInOld == 0.0 && m.dataCeOld == 0.0
    ensures m.fraction == 1.0 && m.sharingMetric == 1.0 && m.interestCount == 0
    ensures RttConsistent(m) && CountersNonNegative(m)
  {
    FaceMetric(face, Yellow, cost, 0.0, 0.0, 0.0, 0.0, 0.0, 0.0, 0.0, 0.0, 0.0, 1.0, 1.0, 0)
  }

  /** The estimator's own invariant: no variation before the first sample. */
  predicate RttConsistent(m: FaceMetric)
  {
    m.sRtt == 0.0 ==> m.rttVar == 0.0
  }

  predicate CountersNonNegative(m: FaceMetric)
  {
    m.nack >= 0.0 && m.dataIn >= 0.0 && m.dataCe >= 0.0 &&
    m.nackOld >= 0.0 && m.dataInOld >= 0.0 && m.dataCeOld >= 0.0
  }

  function IncreaseNack(m: FaceMetric): (r: FaceMetric)
    ensures GetNack(r) == GetNack(m) + 1.0
    ensures r.(nack := m.nack) == m
  {
    m.(nack := m.nack + 1.0)
  }

  function IncreaseDataIn(m: FaceMetric): (r: FaceMetric)
    ensures r.dataIn == m.dataIn + 1.0
    ensures r.(dataIn := m.dataIn) == m
  {
    m.(dataIn := m.dataIn + 1.0)
  }

  function IncreaseDataCE(m: FaceMetric): (r: FaceMetric)
    ensures r.dataCe == m.dataCe + 1.0
    ensures r.(dataCe := m.dataCe) == m
  {
    m.(dataCe := m.dataCe + 1.0)
  }

  function IncreaseInterest(m: FaceMetric): (r: FaceMetric)
    ensures GetInterest(r) == GetInterest(m) + 1
    ensures r.(interestCount := m.interestCount) == m
  {
    m.(interestCount := m.interestCount + 1)
  }

  /** The getters: the live NACK count and the decayed data counts are
      reported shifted by one (so that they can be divided by), the decayed
      NACK count is reported as is. */
  function GetNack(m: FaceMetric): real { m.nack + 1.0 }
  function GetNackOld(m: FaceMetric): real { m.nackOld }
  function GetDataIn(m: FaceMetric): real { m.dataInOld + 1.0 }
  function GetDataCE(m: FaceMetric): real { m.dataCeOld + 1.0 }
  function GetInterest(m: FaceMetric): nat { m.interestCount }

  /** `v` lies between `a` and `b` (in either order). */
  predicate Between(a: real, b: real, v: real)
  {
    (a <= v <= b) || (b <= v <= a)
  }

  /** One step of the decayed average: move a sixteenth of the way from the
      previous value toward the live count. */
  function Decay(prev: real, live: real): (v: real)
    ensures v - prev == ALPHA * (live - prev)
    ensures Between(prev, live, v)
  {
    ALPHA * live + (1.0 - ALPHA) * prev
  }

  /** End of an interval: each decayed counter absorbs its live counter,
      and the live counters and the Interest count restart at zero. Routing
      cost, status, fraction and the RTT estimator are untouched. */
  function ResetCounter(m: FaceMetric): (r: FaceMetric)
    ensures r.nackOld - m.nackOld == ALPHA * (m.nack - m.nackOld)
    ensures r.dataInOld - m.dataInOld == ALPHA * (m.dataIn - m.dataInOld)
    ensures r.dataCeOld - m.dataCeOld == ALPHA * (m.dataCe - m.dataCeOld)
    ensures Between(m.nackOld, m.nack, r.nackOld)
    ensures Between(m.dataInOld, m.dataIn, r.dataInOld)
    ensures Between(m.dataCeOld, m.dataCe, r.dataCeOld)
    ensures r.nack == 0.0 && r.dataIn == 0.0 && r.dataCe == 0.0 && r.interestCount == 0
    ensures r.face == m.face && r.status == m.status && r.routingCost == m.routingCost
    ensures r.fraction == m.fraction && r.sharingMetric == m.sharingMetric
    ensures r.sRtt == m.sRtt && r.rttVar == m.rttVar && r.realDelay == m.realDelay
    ensures CountersNonNegative(m) ==> CountersNonNegative(r)
  {
    m.(dataInOld := Decay(m.dataInOld, m.dataIn),
       dataCeOld := Decay(m.dataCeOld, m.dataCe),
       nackOld := Decay(m.nackOld, m.nack),
       dataIn := 0.0, dataCe := 0.0, nack := 0.0, interestCount := 0)
  }

  /** The NACK getters around an interval boundary: after the reset the live
      getter reports its floor of one, the decayed getter has moved toward
      the live count observed during the interval, and the shifted data
      getters stay at least one. */
  lemma ResetCounterGetters(m: FaceMetric)
    ensures GetNack(ResetCounter(m)) == 1.0
    ensures Between(GetNackOld(m), GetNack(m) - 1.0, GetNackOld(ResetCounter(m)))
    ensures CountersNonNegative(m) ==> GetDataIn(ResetCounter(m)) >= 1.0 && GetDataCE(ResetCounter(m)) >= 1.0
  {
  }

  /** `|x|` on reals. */
  function Abs(x: real): (a: real)
    ensures a >= 0.0 && (a == x || a == -x)
  {
    if x < 0.0 then -x else x
  }

  /** RTT estimation (section 2 of RFC 2988). The first sample sets the
      smoothed RTT to the sample and the variation to half of it; later
      samples first blend the variation with the distance between the old
      smoothed RTT and the sample, then blend the smoothed RTT toward the
      sample. */
  function UpdateRtt(m: FaceMetric, sample: real): (r: FaceMetric)
    requires RttConsistent(m)
    ensures m.sRtt == 0.0 ==> r.sRtt == sample && 2.0 * r.rttVar == sample
    ensures m.sRtt != 0.0 ==> r.sRtt - m.sRtt == RTO_ALPHA * (sample - m.sRtt)
    ensures m.sRtt != 0.0 ==> r.rttVar - m.rttVar == RTO_BETA * (Abs(m.sRtt - sample) - m.rttVar)
    ensures Between(m.sRtt, sample, r.sRtt) || m.sRtt == 0.0
    ensures r.(sRtt := m.sRtt, rttVar := m.rttVar) == m
  {
    if m.sRtt == 0.0 then
      m.(sRtt := sample, rttVar := sample / 2.0)
    else
      m.(rttVar := (1.0 - RTO_BETA) * m.rttVar + RTO_BETA * Abs(m.sRtt - sample),
         sRtt := (1.0 - RTO_ALPHA) * m.sRtt + RTO_ALPHA * sample)
  }

  /** With non-negative samples the estimator never trips its own assertion
      on a later sample, and both estimates stay non-negative. */
  lemma UpdateRttKeepsConsistent(m: FaceMetric, sample: real)
    requires RttConsistent(m) && m.sRtt >= 0.0 && m.rttVar >= 0.0 && sample >= 0.0
    ensures RttConsistent(UpdateRtt(m, sample))
    ensures UpdateRtt(m, sample).sRtt >= 0.0 && UpdateRtt(m, sample).rttVar >= 0.0
  {
  }
}

=== FILE: fib2.dfy ===
/**
 The name-keyed FIB (`Fib2Impl`): a trie from name prefixes to FIB entries
 that tells the forwarding strategy when an entry appears and before one
 goes away.

 The trie is kept abstract: the table is the map from the prefixes whose
 trie node bears an entry to that entry. The trie's recursive traversal
 order, which depends on the hash order of each level's children, enters
 the operations that walk the trie as a parameter: a sequence of node names
 without repetition that lists every prefix bearing an entry (and possibly
 nodes that bear none). The notifications to the strategy are returned as a
 list of events. The fib2 entry class is not part of this model; its
 metric update, invalidation and face removal are taken to be the plain
 FIB entry's.
 */
module Fib2 {
  import opened Common
  import opened FaceMetrics
  import opened FibEntry

  /** A name: its components in order. */
  type Name = seq<string>

  /** What the strategy is told: `DidAddFib2Entry` and
      `WillRemoveFib2Entry`. */
  datatype Event = Added(prefix: Name) | WillRemove(prefix: Name)

  datatype Fib = Fib(entries: map<Name, Entry>)

  /** Every entry keeps at most one record per face. */
  predicate Sound(f: Fib)
  {
    forall p :: p in f.entries ==> Valid(f.entries[p])
  }

  /** No name occurs twice. */
  predicate Distinct(s: seq<Name>)
  {
    forall i, j :: 0 <= i < j < |s| ==> s[i] != s[j]
  }

  /** A traversal of the trie: no node twice, every entry-bearing node
      present. */
  predicate Walks(f: Fib, walk: seq<Name>)
  {
    Distinct(walk) &&
    (forall p :: p in f.entries ==> p in walk)
  }

  // ---------------------------------------------------------------------
  // Lookup
  // ---------------------------------------------------------------------

  /** `Find`: the entry of exactly this prefix, null when there is none. */
  function Find(f: Fib, prefix: Name): (r: Option<Entry>)
    ensures r.Some? <==> prefix in f.entries
    ensures r.Some? ==> r.value == f.entries[prefix]
  {
    if prefix in f.entries then Some(f.entries[prefix]) else None
  }

  /** `q` is a prefix of `name` (the two may be equal). */
  predicate PrefixOf(q: Name, name: Name)
  {
    q <= name
  }

  /** `LongestPrefixMatch`: the longest prefix of `name` that bears an
      entry, null when none does. */
  function LongestPrefixMatch(f: Fib, name: Name): (r: Option<Name>)
    ensures r.Some? ==> PrefixOf(r.value, name) && r.value in f.entries
    ensures r.Some? ==> forall q :: q in f.entries && PrefixOf(q, name) ==> |q| <= |r.value|
    ensures r.None? <==> forall q :: q in f.entries ==> !PrefixOf(q, name)
    decreases |name|
  {
    if name in f.entries then Some(name)
    else if |name| == 0 then None
    else
      var shorter := name[..|name| - 1];
      var r := LongestPrefixMatch(f, shorter);
      assert forall q :: PrefixOf(q, name) && q != name ==> PrefixOf(q, shorter) by {
        forall q | PrefixOf(q, name) && q != name
          ensures PrefixOf(q, shorter)
        {
          assert |q| < |name|;
          assert q == name[..|q|];
        }
      }
      assert forall q :: PrefixOf(q, shorter) ==> PrefixOf(q, name);
      r
  }

  /** A prefix that bears an entry is its own longest match, and `Find`
      answers for it. */
  lemma ExactMatchIsLongest(f: Fib, prefix: Name)
    requires prefix in f.entries
    ensures LongestPrefixMatch(f, prefix) == Some(prefix)
    ensures Find(f, prefix).Some?
  {
  }

  // ---------------------------------------------------------------------
  // Updates
  // ---------------------------------------------------------------------

  /** `Add`: create the entry of the prefix when it has none, then apply the
      face's metric to the entry; the strategy is told about a created entry,
      and only then. Returns the new table, the prefix's entry, and the
      events. */
  function Add(f: Fib, prefix: Name, face: Face, metric: int): (r: (Fib, Entry, seq<Event>))
    requires Sound(f)
    ensures Sound(r.0) && r.0.entries.Keys == f.entries.Keys + {prefix}
    ensures r.1 == r.0.entries[prefix]
    ensures prefix !in f.entries ==> r.1 == AddOrUpdateRoutingMetric(NewEntry(), face, metric) && r.2 == [Added(prefix)]
    ensures prefix in f.entries ==> r.1 == AddOrUpdateRoutingMetric(f.entries[prefix], face, metric) && r.2 == []
    ensures forall p :: p in f.entries && p != prefix ==> r.0.entries[p] == f.entries[p]
  {
    var e := if prefix in f.entries then f.entries[prefix] else NewEntry();
    var e' := AddOrUpdateRoutingMetric(e, face, metric);
    (Fib(f.entries[prefix := e']), e', if prefix in f.entries then [] else [Added(prefix)])
  }

  /** After `Add` the prefix is found and its entry reaches the face; adding
      the same prefix again tells the strategy nothing more. */
  lemma AddThenFind(f: Fib, prefix: Name, face: Face, metric: int, face2: Face, metric2: int)
    requires Sound(f)
    ensures var g := Add(f, prefix, face, metric).0;
      Find(g, prefix).Some? && HasFace(Find(g, prefix).value, face) &&
      LongestPrefixMatch(g, prefix) == Some(prefix) &&
      Add(g, prefix, face2, metric2).2 == []
    ensures |Add(f, prefix, face, metric).2| == (if prefix in f.entries then 0 else 1)
  {
  }

  /** `Remove`: nothing for an absent prefix; otherwise the strategy is told,
      then the entry is erased. */
  function Remove(f: Fib, prefix: Name): (r: (Fib, seq<Event>))
    ensures r.0.entries.Keys == f.entries.Keys - {prefix}
    ensures forall p :: p in r.0.entries ==> r.0.entries[p] == f.entries[p]
    ensures r.1 == (if prefix in f.entries then [WillRemove(prefix)] else [])
    ensures Sound(f) ==> Sound(r.0)
  {
    if prefix in f.entries then (Fib(f.entries - {prefix}), [WillRemove(prefix)]) else (f, [])
  }

  /** Removing undoes adding a new prefix, and a second removal is silent. */
  lemma RemoveUndoesAdd(f: Fib, prefix: Name, face: Face, metric: int)
    requires Sound(f) && prefix !in f.entries
    ensures Remove(Add(f, prefix, face, metric).0, prefix).0 == f
    ensures Remove(Remove(f, prefix).0, prefix) == (Remove(f, prefix).0, [])
  {
    assert Remove(Add(f, prefix, face, metric).0, prefix).0.entries == f.entries;
  }

  /** `InvalidateAll`: every entry is invalidated; no prefix appears or goes. */
  function InvalidateAll(f: Fib): (r: Fib)
    requires Sound(f)
    ensures Sound(r) && r.entries.Keys == f.entries.Keys
    ensures forall p :: p in r.entries ==> r.entries[p] == Invalidate(f.entries[p])
  {
    Fib(map p | p in f.entries :: Invalidate(f.entries[p]))
  }

  /** After `InvalidateAll` every face of every entry is RED at the largest
      cost, and the entries keep their faces. */
  lemma InvalidateAllMarksEveryFace(f: Fib, p: Name, i: nat)
    requires Sound(f) && p in f.entries && i < |f.entries[p].faces|
    ensures var m := InvalidateAll(f).entries[p].faces[i];
      m.status == Red && m.routingCost == INVALID_COST && m.face == f.entries[p].faces[i].face
  {
  }

  /** The prefixes of the walk that bear an entry with no face left, in
      walk order. */
  function Emptied(entries: map<Name, Entry>, walk: seq<Name>): (r: seq<Name>)
    ensures forall p :: p in r <==> p in walk && p in entries && |entries[p].faces| == 0
    ensures |r| <= |walk|
    decreases |walk|
  {
    if |walk| == 0 then []
    else
      var rest := Emptied(entries, walk[1..]);
      assert forall p :: p in walk <==> p == walk[0] || p in walk[1..];
      if walk[0] in entries && |entries[walk[0]].faces| == 0 then [walk[0]] + rest else rest
  }

  /** The entry-bearing prefixes of the walk, in walk order. */
  function Keys(f: Fib, walk: seq<Name>): (r: seq<Name>)
    ensures forall p :: p in r <==> p in walk && p in f.entries
    decreases |walk|
  {
    if |walk| == 0 then []
    else
      var rest := Keys(f, walk[1..]);
      assert forall p :: p in walk <==> p == walk[0] || p in walk[1..];
      if walk[0] in f.entries then [walk[0]] + rest else rest
  }

  /** Every entry without the face's record. */
  function Strip(f: Fib, face: Face): (m: map<Name, Entry>)
    requires Sound(f)
    ensures m.Keys == f.entries.Keys
    ensures forall p :: p in m ==> m[p] == RemoveFace(f.entries[p], face) && Valid(m[p]) && !HasFace(m[p], face)
  {
    map p | p in f.entries :: RemoveFace(f.entries[p], face)
  }

  /** One removal notice per prefix, in order. */
  function Announce(gone: seq<Name>): (ev: seq<Event>)
    ensures |ev| == |gone| && forall i :: 0 <= i < |gone| ==> ev[i] == WillRemove(gone[i])
    ensures forall e: Event :: e in ev <==> e.WillRemove? && e.prefix in gone
    decreases |gone|
  {
    if |gone| == 0 then [] else [WillRemove(gone[0])] + Announce(gone[1..])
  }

  /** The removal notices of a walk over the stripped entries: one per
      emptied entry, none twice. */
  function Notices(entries: map<Name, Entry>, walk: seq<Name>): (ev: seq<Event>)
    requires Distinct(walk)
    ensures forall e: Event :: e in ev <==> e.WillRemove? && e.prefix in walk && e.prefix in entries && |entries[e.prefix].faces| == 0
    ensures forall i, j :: 0 <= i < j < |ev| ==> ev[i].prefix != ev[j].prefix
  {
    var gone := Emptied(entries, walk);
    EmptiedDistinct(entries, walk);
    AnnounceDistinct(gone);
    Announce(gone)
  }

  /** Distinct prefixes give distinct notices. */
  lemma AnnounceDistinct(gone: seq<Name>)
    requires Distinct(gone)
    ensures var ev := Announce(gone); forall i, j :: 0 <= i < j < |ev| ==> ev[i].prefix != ev[j].prefix
  {
    var ev := Announce(gone);
    assert forall i :: 0 <= i < |ev| ==> ev[i].prefix == gone[i];
  }

  /** `RemoveFromAll`: the face is removed from every entry; then, walking
      the trie, every entry left without faces is announced to the strategy
      and erased, each once and in walk order. */
  function RemoveFromAll(f: Fib, face: Face, walk: seq<Name>): (r: (Fib, seq<Event>))
    requires Sound(f) && Walks(f, walk)
    ensures Sound(r.0)
    ensures forall p :: p in r.0.entries <==> p in f.entries && |RemoveFace(f.entries[p], face).faces| > 0
    ensures forall p :: p in r.0.entries ==> r.0.entries[p] == RemoveFace(f.entries[p], face) && !HasFace(r.0.entries[p], face)
    ensures forall ev: Event :: ev in r.1 <==>
      ev.WillRemove? && ev.prefix in f.entries && |RemoveFace(f.entries[ev.prefix], face).faces| == 0
    ensures forall i, j :: 0 <= i < j < |r.1| ==> r.1[i].prefix != r.1[j].prefix
  {
    var stripped := Strip(f, face);
    var kept := map p | p in stripped && |stripped[p].faces| > 0 :: stripped[p];
    (Fib(kept), Notices(stripped, walk))
  }

  lemma {:induction false} EmptiedDistinct(entries: map<Name, Entry>, walk: seq<Name>)
    requires Distinct(walk)
    ensures Distinct(Emptied(entries, walk))
    decreases |walk|
  {
    if |walk| > 0 {
      EmptiedDistinct(entries, walk[1..]);
      assert walk[0] !in walk[1..];
      assert walk[0] !in Emptied(entries, walk[1..]);
    }
  }

  // ---------------------------------------------------------------------
  // Iteration
  // ---------------------------------------------------------------------

  /** Position of a node name in the walk. */
  function PosIn(walk: seq<Name>, p: Name): (i: nat)
    requires p in walk
    ensures i < |walk| && walk[i] == p
  {
    if walk[0] == p then 0 else 1 + PosIn(walk[1..], p)
  }

  /** The first entry-bearing node of a walk. */
  function FirstKey(f: Fib, walk: seq<Name>): (r: Option<Name>)
    ensures r.None? <==> Keys(f, walk) == []
    ensures r.Some? ==> r.value == Keys(f, walk)[0]
  {
    var ks := Keys(f, walk);
    if |ks| == 0 then None else Some(ks[0])
  }

  /** `Begin`: the first entry-bearing node of the traversal, or `End`
      (null). */
  function Begin(f: Fib, walk: seq<Name>): (r: Option<Name>)
    ensures r.Some? ==> r.value in f.entries && r.value in walk
    ensures r.None? <==> forall p :: p in f.entries ==> p !in walk
  {
    FirstKey(f, walk)
  }

  /** `Next`: the first entry-bearing node after `from` in the traversal,
      or `End`; `End` stays `End`. */
  function Next(f: Fib, walk: seq<Name>, from: Option<Name>): (r: Option<Name>)
    requires from.Some? ==> from.value in walk
    ensures from.None? ==> r.None?
    ensures r.Some? ==> r.value in f.entries && r.value in walk
  {
    if from.None? then None
    else
      var i := PosIn(walk, from.value);
      var r := FirstKey(f, walk[i + 1..]);
      assert r.Some? ==> r.value in walk[i + 1..];
      r
  }

  /** Keys of a walk split around an entry-bearing node. */
  lemma {:induction false} KeysSplit(f: Fib, walk: seq<Name>, i: nat)
    requires i < |walk| && walk[i] in f.entries
    ensures Keys(f, walk) == Keys(f, walk[..i]) + [walk[i]] + Keys(f, walk[i + 1..])
    decreases i
  {
    if i > 0 {
      KeysSplit(f, walk[1..], i - 1);
      assert walk[1..][..i - 1] == walk[1..i];
      assert walk[1..][i - 1 + 1..] == walk[i + 1..];
      assert walk[..i][1..] == walk[1..i];
    } else {
      assert walk[..0] == [];
      assert walk[1..] == walk[0 + 1..];
    }
  }

  /** Keys of a walk split around a node that bears no entry. */
  lemma {:induction false} KeysSkip(f: Fib, walk: seq<Name>, i: nat)
    requires i < |walk| && walk[i] !in f.entries
    ensures Keys(f, walk) == Keys(f, walk[..i]) + Keys(f, walk[i + 1..])
    decreases i
  {
    if i > 0 {
      KeysSkip(f, walk[1..], i - 1);
      assert walk[1..][..i - 1] == walk[1..i];
      assert walk[1..][i - 1 + 1..] == walk[i + 1..];
      assert walk[..i][1..] == walk[1..i];
    } else {
      assert walk[..0] == [];
    }
  }

  /** The position of a node in a walk without repetition is the only one
      holding it. */
  lemma PosUnique(walk: seq<Name>, i: nat)
    requires forall a, b :: 0 <= a < b < |walk| ==> walk[a] != walk[b]
    requires i < |walk|
    ensures PosIn(walk, walk[i]) == i
  {
  }

  /** In a sequence without repetition split around one of its elements,
      that element sits at the length of the part before it, and the part
      after starts with its successor. */
  lemma SplitAt(ks: seq<Name>, before: seq<Name>, p: Name, after: seq<Name>, k: nat)
    requires Distinct(ks) && ks == before + [p] + after && k < |ks| && ks[k] == p
    ensures |before| == k && |after| == |ks| - k - 1
    ensures k + 1 < |ks| ==> after[0] == ks[k + 1]
  {
    assert ks[|before|] == p;
  }

  /** `Next` from an entry-bearing node is the first key after it. */
  lemma NextAfter(f: Fib, walk: seq<Name>, i: nat)
    requires Walks(f, walk) && i < |walk|
    ensures Next(f, walk, Some(walk[i])) == FirstKey(f, walk[i + 1..])
  {
    PosUnique(walk, i);
  }

  /** `Begin` then `Next` visit exactly the entry-bearing nodes, each once,
      in traversal order, and end with `End`. */
  lemma IterationVisitsEveryEntry(f: Fib, walk: seq<Name>, k: nat)
    requires Walks(f, walk)
    requires k < |Keys(f, walk)|
    ensures Begin(f, walk) == Some(Keys(f, walk)[0])
    ensures Keys(f, walk)[k] in walk
    ensures Next(f, walk, Some(Keys(f, walk)[k])) ==
      (if k + 1 < |Keys(f, walk)| then Some(Keys(f, walk)[k + 1]) else None)
  {
    var ks := Keys(f, walk);
    var p := ks[k];
    assert p in ks;
    var i := PosIn(walk, p);
    KeysSplit(f, walk, i);
    KeysDistinct(f, walk);
    var after := Keys(f, walk[i + 1..]);
    SplitAt(ks, Keys(f, walk[..i]), p, after, k);
    NextAfter(f, walk, i);
  }

  lemma {:induction false} KeysDistinct(f: Fib, walk: seq<Name>)
    requires Distinct(walk)
    ensures Distinct(Keys(f, walk))
    decreases |walk|
  {
    if |walk| > 0 {
      KeysDistinct(f, walk[1..]);
      assert walk[0] !in walk[1..];
      assert walk[0] !in Keys(f, walk[1..]);
    }
  }
}

=== FILE: fib_entry.dfy ===
/**
 A FIB entry: the records of the faces through which a prefix is reachable,
 at most one per face, ranked by (status, routing cost), plus the entry's
 data counter. This module holds the container, the ranking, the operations
 the BCube and the plain variant share, and the plain variant's
 "never raise the cost" update rule and minimum-cost rebalancing.

 The container is a sequence in insertion order. The ranked view is a
 stable sort of that sequence by (status, cost); records with equal keys
 keep their container order.
 */
module FibEntry {
  import opened Common
  import opened FaceMetrics

  /** Starting value of the minimum searches of the rebalancing step. */
  const MAX_BOUND: real := 10000000.0

  /** `std::numeric_limits<uint16_t>::max()`: the cost of an invalidated face. */
  const INVALID_COST: int := 65535

  datatype Entry = Entry(faces: seq<FaceMetric>, inited: bool, data: nat)

  /** The unique face index: no face has two records. */
  predicate UniqueFaces(s: seq<FaceMetric>)
  {
    forall i, j :: 0 <= i < j < |s| ==> s[i].face != s[j].face
  }

  predicate Valid(e: Entry)
  {
    UniqueFaces(e.faces)
  }

  /** A new entry: no faces, not yet rebalanced, no data counted. */
  function NewEntry(): (e: Entry)
    ensures Valid(e) && e.faces == [] && !e.inited && e.data == 0
  {
    Entry([], false, 0)
  }

  /** Position of the record of face `f`, if any. */
  function IndexOf(s: seq<FaceMetric>, f: Face): (r: Option<nat>)
    ensures r.Some? ==> r.value < |s| && s[r.value].face == f
    ensures r.None? <==> forall j :: 0 <= j < |s| ==> s[j].face != f
  {
    if |s| == 0 then None
    else if s[0].face == f then Some(0)
    else match IndexOf(s[1..], f)
      case None => None
      case Some(i) => Some(i + 1)
  }

  /** The record of face `f` (the by-face index lookup). */
  function Find(e: Entry, f: Face): (r: Option<FaceMetric>)
    ensures r.Some? <==> HasFace(e, f)
    ensures r.Some? ==> r.value.face == f && r.value in e.faces
  {
    match IndexOf(e.faces, f)
    case None => None
    case Some(i) => Some(e.faces[i])
  }

  predicate HasFace(e: Entry, f: Face)
  {
    exists i :: 0 <= i < |e.faces| && e.faces[i].face == f
  }

  /** In a valid entry the record of a face is the one at its position. */
  lemma FindAt(e: Entry, i: nat)
    requires Valid(e) && i < |e.faces|
    ensures Find(e, e.faces[i].face) == Some(e.faces[i])
  {
    var k := IndexOf(e.faces, e.faces[i].face);
    assert k.Some?;
  }

  /** Replace the record of a present face; every other face keeps its
      record and the face index stays unique. */
  function Replace(e: Entry, i: nat, m: FaceMetric): (r: Entry)
    requires Valid(e) && i < |e.faces| && m.face == e.faces[i].face
    ensures Valid(r) && |r.faces| == |e.faces|
    ensures Find(r, m.face) == Some(m)
    ensures forall g :: g != m.face ==> Find(r, g) == Find(e, g)
    ensures r.inited == e.inited && r.data == e.data
  {
    var r := e.(faces := e.faces[i := m]);
    FindAt(r, i);
    assert forall g :: g != m.face ==> IndexOf(r.faces, g) == IndexOf(e.faces, g) by {
      forall g | g != m.face
        ensures IndexOf(r.faces, g) == IndexOf(e.faces, g)
      {
        IndexOfReplace(e.faces, i, m, g);
      }
    }
    r
  }

  lemma {:induction false} IndexOfReplace(s: seq<FaceMetric>, i: nat, m: FaceMetric, g: Face)
    requires i < |s| && m.face == s[i].face && g != m.face
    ensures IndexOf(s[i := m], g) == IndexOf(s, g)
    decreases |s|
  {
    if i > 0 && s[0].face != g {
      assert s[i := m][1..] == s[1..][i - 1 := m];
      IndexOfReplace(s[1..], i - 1, m, g);
    }
  }

  /** The plain variant's metric update. An unknown face is inserted with
      exactly the given cost; a known face takes the new cost (and YELLOW)
      only when that lowers its cost or the face is RED. */
  function AddOrUpdateRoutingMetric(e: Entry, f: Face, metric: int): (r: Entry)
    requires Valid(e)
    ensures Valid(r) && HasFace(r, f)
    ensures !HasFace(e, f) ==> Find(r, f) == Some(NewFaceMetric(f, metric)) && |r.faces| == |e.faces| + 1
    ensures HasFace(e, f) ==>
      var old_ := Find(e, f).value;
      var new_ := Find(r, f).value;
      if old_.routingCost > metric || old_.status == Red
      then new_ == old_.(routingCost := metric, status := Yellow)
      else new_ == old_
    ensures forall g :: g != f ==> Find(r, g) == Find(e, g)
    ensures r.inited == e.inited && r.data == e.data
  {
    match IndexOf(e.faces, f)
    case None => AddRecord(e, NewFaceMetric(f, metric))
    case Some(i) =>
      var m := e.faces[i];
      FindAt(e, i);
      if m.routingCost > metric || m.status == Red
      then Replace(e, i, m.(routingCost := metric, status := Yellow))
      else e
  }

  /** Insert the record of a face the entry does not have yet; every other
      face keeps its record. */
  function AddRecord(e: Entry, m: FaceMetric): (r: Entry)
    requires Valid(e) && !HasFace(e, m.face)
    ensures Valid(r) && |r.faces| == |e.faces| + 1
    ensures Find(r, m.face) == Some(m)
    ensures forall g :: g != m.face ==> Find(r, g) == Find(e, g)
    ensures r.inited == e.inited && r.data == e.data
  {
    var r := e.(faces := e.faces + [m]);
    FindAt(r, |e.faces|);
    assert forall g :: g != m.face ==> IndexOf(r.faces, g) == IndexOf(e.faces, g) by {
      forall g | g != m.face
        ensures IndexOf(r.faces, g) == IndexOf(e.faces, g)
      {
        IndexOfAppend(e.faces, m, g);
      }
    }
    r
  }

  lemma {:induction false} IndexOfAppend(s: seq<FaceMetric>, m: FaceMetric, g: Face)
    requires g != m.face
    ensures IndexOf(s + [m], g) == IndexOf(s, g)
    decreases |s|
  {
    if |s| > 0 && s[0].face != g {
      assert (s + [m])[1..] == s[1..] + [m];
      IndexOfAppend(s[1..], m, g);
    }
  }

  /** The plain variant never raises the cost of a face that is not RED,
      and after an update a face is never RED. */
  lemma CostNeverRaised(e: Entry, f: Face, metric: int)
    requires Valid(e) && HasFace(e, f) && Find(e, f).value.status != Red
    ensures Find(AddOrUpdateRoutingMetric(e, f, metric), f).value.routingCost <= Find(e, f).value.routingCost
    ensures Find(AddOrUpdateRoutingMetric(e, f, metric), f).value.status != Red
  {
  }

  /** Set the status of a present face; nothing else changes. */
  function UpdateStatus(e: Entry, f: Face, status: Status): (r: Entry)
    requires Valid(e) && HasFace(e, f)
    ensures Valid(r) && Find(r, f) == Some(Find(e, f).value.(status := status))
    ensures forall g :: g != f ==> Find(r, g) == Find(e, g)
    ensures r.inited == e.inited && r.data == e.data
  {
    var i := IndexOf(e.faces, f).value;
    FindAt(e, i);
    Replace(e, i, e.faces[i].(status := status))
  }

  /** Feed an RTT sample to the estimator of a present face. */
  function UpdateFaceRtt(e: Entry, f: Face, sample: real): (r: Entry)
    requires Valid(e) && HasFace(e, f) && RttConsistent(Find(e, f).value)
    ensures Valid(r) && Find(r, f) == Some(UpdateRtt(Find(e, f).value, sample))
    ensures forall g :: g != f ==> Find(r, g) == Find(e, g)
    ensures r.inited == e.inited && r.data == e.data
  {
    var i := IndexOf(e.faces, f).value;
    FindAt(e, i);
    Replace(e, i, UpdateRtt(e.faces[i], sample))
  }

  /** Record the propagation delay to the producer; absent faces are ignored. */
  function SetRealDelayToProducer(e: Entry, f: Face, delay: real): (r: Entry)
    requires Valid(e)
    ensures Valid(r)
    ensures HasFace(e, f) ==> Find(r, f) == Some(Find(e, f).value.(realDelay := delay))
    ensures !HasFace(e, f) ==> r == e
    ensures forall g :: g != f ==> Find(r, g) == Find(e, g)
  {
    match IndexOf(e.faces, f)
    case None => e
    case Some(i) =>
      FindAt(e, i);
      Replace(e, i, e.faces[i].(realDelay := delay))
  }

  /** Mark every face RED with the largest 16-bit cost; the set of faces and
      everything else in the records is kept. */
  function Invalidate(e: Entry): (r: Entry)
    requires Valid(e)
    ensures Valid(r) && |r.faces| == |e.faces|
    ensures forall i :: 0 <= i < |r.faces| ==>
      r.faces[i].routingCost == INVALID_COST && r.faces[i].status == Red &&
      r.faces[i].(routingCost := e.faces[i].routingCost, status := e.faces[i].status) == e.faces[i]
    ensures r.inited == e.inited && r.data == e.data
  {
    e.(faces := seq(|e.faces|, i requires 0 <= i < |e.faces| =>
                      e.faces[i].(routingCost := INVALID_COST, status := Red)))
  }

  /** After invalidation every face is RED, so the plain variant's update
      takes any new metric for a face that is still present, even a higher
      one. */
  lemma InvalidateThenAdd(e: Entry, f: Face, metric: int)
    requires Valid(e) && HasFace(e, f)
    ensures HasFace(Invalidate(e), f)
    ensures Find(AddOrUpdateRoutingMetric(Invalidate(e), f, metric), f).value.routingCost == metric
    ensures Find(AddOrUpdateRoutingMetric(Invalidate(e), f, metric), f).value.status == Yellow
  {
    var i :| 0 <= i < |e.faces| && e.faces[i].face == f;
    FindAt(Invalidate(e), i);
  }

  /** Erase the record of `f`; every other record is kept. */
  function RemoveFace(e: Entry, f: Face): (r: Entry)
    requires Valid(e)
    ensures Valid(r) && !HasFace(r, f)
    ensures forall g :: g != f ==> Find(r, g) == Find(e, g)
    ensures HasFace(e, f) ==> |r.faces| == |e.faces| - 1
    ensures r.inited == e.inited && r.data == e.data
  {
    match IndexOf(e.faces, f)
    case None => e
    case Some(i) =>
      var s := RemoveAt(e.faces, i);
      var r := e.(faces := s);
      assert forall g :: g != f ==> IndexOf(s, g) == ShiftDown(IndexOf(e.faces, g), i) by {
        forall g | g != f
          ensures IndexOf(s, g) == ShiftDown(IndexOf(e.faces, g), i)
        {
          IndexOfRemove(e.faces, i, g);
        }
      }
      r
  }

  /** Positions after the removed one move down by one. */
  function ShiftDown(k: Option<nat>, i: nat): Option<nat>
  {
    match k
    case None => None
    case Some(j) => if j < i then Some(j) else if j == 0 then None else Some(j - 1)
  }

  /** The container without position `i`. */
  function RemoveAt(s: seq<FaceMetric>, i: nat): (r: seq<FaceMetric>)
    requires i < |s| && UniqueFaces(s)
    ensures |r| == |s| - 1 && UniqueFaces(r)
    ensures forall k :: 0 <= k < i ==> r[k] == s[k]
    ensures forall k :: i <= k < |r| ==> r[k] == s[k + 1]
    ensures forall k :: 0 <= k < |r| ==> r[k].face != s[i].face
  {
    s[..i] + s[i + 1..]
  }

  lemma IndexOfRemove(s: seq<FaceMetric>, i: nat, g: Face)
    requires i < |s| && UniqueFaces(s) && g != s[i].face
    ensures IndexOf(RemoveAt(s, i), g) == ShiftDown(IndexOf(s, g), i)
  {
    IndexOfCut(s, i, g);
  }

  /** Past a first record of another face, the position is one more than
      in the tail. */
  lemma IndexOfTail(s: seq<FaceMetric>, g: Face)
    requires |s| > 0 && s[0].face != g
    ensures IndexOf(s, g) == if IndexOf(s[1..], g).Some? then Some(IndexOf(s[1..], g).value + 1) else None
  {
  }

  /** Cutting position `i` out of a sequence moves the record of any other
      face one place down when it came after `i`. */
  lemma {:induction false} IndexOfCut(s: seq<FaceMetric>, i: nat, g: Face)
    requires i < |s| && g != s[i].face
    ensures IndexOf(s[..i] + s[i + 1..], g) == ShiftDown(IndexOf(s, g), i)
    decreases |s|
  {
    var r := s[..i] + s[i + 1..];
    if i == 0 {
      assert r == s[1..];
      IndexOfTail(s, g);
    } else if s[0].face != g {
      assert r[1..] == s[1..][..i - 1] + s[1..][i..];
      IndexOfCut(s[1..], i - 1, g);
      IndexOfCutStep(s, i, g);
    } else {
      assert r[0] == s[0];
    }
  }

  /** The inductive step of `IndexOfCut`: past a first record of another
      face, cutting position `i` shifts like cutting `i - 1` from the tail. */
  lemma IndexOfCutStep(s: seq<FaceMetric>, i: nat, g: Face)
    requires 0 < i < |s| && g != s[i].face && s[0].face != g
    requires IndexOf((s[..i] + s[i + 1..])[1..], g) == ShiftDown(IndexOf(s[1..], g), i - 1)
    ensures IndexOf(s[..i] + s[i + 1..], g) == ShiftDown(IndexOf(s, g), i)
  {
    var r := s[..i] + s[i + 1..];
    assert r[0] == s[0];
    IndexOfTail(s, g);
    IndexOfTail(r, g);
  }

  function IncreaseData(e: Entry): (r: Entry)
    ensures r.data == e.data + 1 && r.(data := e.data) == e
  {
    e.(data := e.data + 1)
  }

  /** The periodic data-rate report restarts the entry's data counter. */
  function ShowRate(e: Entry): (r: Entry)
    ensures r.data == 0 && r.(data := e.data) == e
  {
    e.(data := 0)
  }

  // ---------------------------------------------------------------------
  // Ranking by (status, routing cost)
  // ---------------------------------------------------------------------

  /** The composite key order: status first, then routing cost. */
  predicate KeyLe(a: FaceMetric, b: FaceMetric)
  {
    StatusRank(a.status) < StatusRank(b.status) ||
    (StatusRank(a.status) == StatusRank(b.status) && a.routingCost <= b.routingCost)
  }

  predicate Ranked(s: seq<FaceMetric>)
  {
    forall i, j :: 0 <= i < j < |s| ==> KeyLe(s[i], s[j])
  }

  /** Insert `x` before the first record whose key is not smaller. */
  function Insert(x: FaceMetric, s: seq<FaceMetric>): (r: seq<FaceMetric>)
    requires Ranked(s)
    ensures Ranked(r) && multiset(r) == multiset(s) + multiset{x}
    ensures |r| == |s| + 1
  {
    if |s| == 0 || KeyLe(x, s[0]) then [x] + s
    else
      var rest := Insert(x, s[1..]);
      assert s == [s[0]] + s[1..];
      assert forall k :: 0 <= k < |rest| ==> KeyLe(s[0], rest[k]) by {
        forall k | 0 <= k < |rest|
          ensures KeyLe(s[0], rest[k])
        {
          assert rest[k] in multiset(rest);
          if rest[k] != x {
            assert rest[k] in multiset(s[1..]);
            var j :| 0 <= j < |s[1..]| && s[1..][j] == rest[k];
            assert s[j + 1] == rest[k];
          }
        }
      }
      [s[0]] + rest
  }

  /** The by-metric view of a container: a permutation of its records in
      non-decreasing (status, cost) order. */
  function Rank(s: seq<FaceMetric>): (r: seq<FaceMetric>)
    ensures Ranked(r) && multiset(r) == multiset(s) && |r| == |s|
  {
    if |s| == 0 then [] else
      assert s == [s[0]] + s[1..];
      Insert(s[0], Rank(s[1..]))
  }

  /** The ranking holds exactly the container's records, and its head is
      a record of least key. */
  lemma RankMembers(s: seq<FaceMetric>)
    ensures forall k :: 0 <= k < |s| ==> Rank(s)[k] in s
    ensures forall m :: m in s ==> m in Rank(s)
    ensures |s| > 0 ==> forall m :: m in s ==> KeyLe(Rank(s)[0], m)
  {
    var r := Rank(s);
    forall k | 0 <= k < |s|
      ensures r[k] in s
    {
      assert r[k] in multiset(r);
    }
    forall m | m in s
      ensures m in r
    {
      assert m in multiset(s);
    }
    if |s| > 0 {
      forall m | m in s
        ensures KeyLe(r[0], m)
      {
        assert m in multiset(r);
        var j :| 0 <= j < |r| && r[j] == m;
        if j > 0 {
          assert KeyLe(r[0], r[j]);
        }
      }
    }
  }

  /** The candidate `skip` places down the ranking (modulo the number of
      faces); an entry without faces raises `NoFaces`, modelled as `None`.
      With no skip the result is a record of least (status, cost). */
  function FindBestCandidate(e: Entry, skip: nat): (r: Option<FaceMetric>)
    ensures r.None? <==> |e.faces| == 0
    ensures r.Some? ==> r.value in e.faces
    ensures r.Some? && skip == 0 ==> forall m :: m in e.faces ==> KeyLe(r.value, m)
  {
    if |e.faces| == 0 then None
    else
      RankMembers(e.faces);
      if skip == 0 then
        DivModUnique(0, |e.faces|, 0, 0);
        Some(Rank(e.faces)[0])
      else Some(Rank(e.faces)[skip % |e.faces|])
  }

  /** Every record of the entry is the candidate for some skip below the
      number of faces. */
  lemma CandidatesCoverEntry(e: Entry, m: FaceMetric)
    requires m in e.faces
    ensures exists skip: nat :: skip < |e.faces| && FindBestCandidate(e, skip) == Some(m)
  {
    RankMembers(e.faces);
    var ranked := Rank(e.faces);
    var k :| 0 <= k < |ranked| && ranked[k] == m;
    DivModUnique(k, |e.faces|, 0, k);
    assert FindBestCandidate(e, k) == Some(ranked[k]);
  }

  // ---------------------------------------------------------------------
  // Rebalancing of the plain variant (minimum-cost faces only)
  // ---------------------------------------------------------------------

  /** End-of-interval counter reset applied to every record. */
  function ResetAll(s: seq<FaceMetric>): (r: seq<FaceMetric>)
    ensures |r| == |s|
    ensures forall i :: 0 <= i < |s| ==> r[i] == ResetCounter(s[i])
  {
    seq(|s|, i requires 0 <= i < |s| => ResetCounter(s[i]))
  }

  /** The smaller of `MAX_BOUND` and the least routing cost. */
  function MinCost(s: seq<FaceMetric>): (c: real)
    ensures c <= MAX_BOUND
    ensures forall i :: 0 <= i < |s| ==> c <= s[i].routingCost as real
    ensures c == MAX_BOUND || exists i :: 0 <= i < |s| && s[i].routingCost as real == c
  {
    if |s| == 0 then MAX_BOUND
    else
      var rest := MinCost(s[1..]);
      var here := s[0].routingCost as real;
      assert forall i :: 1 <= i < |s| ==> s[i] == s[1..][i - 1];
      if here < rest then here else rest
  }

  predicate AtCost(m: FaceMetric, c: real)
  {
    m.routingCost as real == c
  }

  /** Number of records at cost `c`. */
  function CountAt(s: seq<FaceMetric>, c: real): (n: nat)
    ensures n <= |s|
    ensures n == 0 <==> forall i :: 0 <= i < |s| ==> !AtCost(s[i], c)
  {
    if |s| == 0 then 0
    else
      assert forall i :: 1 <= i < |s| ==> s[i] == s[1..][i - 1];
      (if AtCost(s[0], c) then 1 else 0) + CountAt(s[1..], c)
  }

  function SumSharingAt(s: seq<FaceMetric>, c: real): real
  {
    if |s| == 0 then 0.0
    else (if AtCost(s[0], c) then s[0].sharingMetric else 0.0) + SumSharingAt(s[1..], c)
  }

  function SumFractionAt(s: seq<FaceMetric>, c: real): real
  {
    if |s| == 0 then 0.0
    else (if AtCost(s[0], c) then s[0].fraction else 0.0) + SumFractionAt(s[1..], c)
  }

  /** The step bound of one record whose deviation from the target is
      `dev`: how far the fraction may move before leaving [lo, hi]. */
  function StepBound(fraction: real, dev: real, lo: real, hi: real): real
  {
    if dev > 0.0 then (hi - fraction) / dev
    else if dev < 0.0 then (lo - fraction) / dev
    else MAX_BOUND
  }

  function Min(a: real, b: real): real
  {
    if a < b then a else b
  }

  /** Every fraction lies in the band [5, 100]. */
  predicate InBand(s: seq<FaceMetric>)
  {
    forall i :: 0 <= i < |s| ==> 5.0 <= s[i].fraction <= 100.0
  }

  lemma StepBoundNonNegative(f: real, dev: real)
    requires 5.0 <= f <= 100.0
    ensures StepBound(f, dev, 5.0, 100.0) >= 0.0
  {
    if dev > 0.0 {
      DivSign(100.0 - f, dev);
    } else if dev < 0.0 {
      DivSign(f - 5.0, -dev);
      assert (5.0 - f) / dev == (f - 5.0) / (-dev);
    }
  }

  lemma DivSign(a: real, b: real)
    requires a >= 0.0 && b > 0.0
    ensures a / b >= 0.0
  {
  }

  lemma MulMono01(x: real, d: real)
    requires x >= 0.0 && 0.0 <= d <= 1.0
    ensures 0.0 <= x * d <= x
  {
  }

  /** The band arithmetic of one step, on plain numbers: moving f by k·dev,
      with k at most the bound sb that takes f to the edge of [5, 100],
      stays inside the band. */
  lemma BandCore(f: real, dev: real, k: real, sb: real, nf: real)
    requires 5.0 <= f <= 100.0 && 0.0 <= k <= sb
    requires dev > 0.0 ==> sb * dev == 100.0 - f
    requires dev < 0.0 ==> sb * (-dev) == f - 5.0
    requires nf - f == k * dev
    ensures 5.0 <= nf <= 100.0
  {
    if dev > 0.0 {
      MulLe(k, sb, dev);
    } else if dev < 0.0 {
      MulLe(k, sb, -dev);
      assert k * dev == -(k * (-dev));
    } else {
      assert k * dev == 0.0;
    }
  }

  lemma MulLe(a: real, b: real, c: real)
    requires 0.0 <= a <= b && c > 0.0
    ensures 0.0 <= a * c <= b * c
  {
  }

  /** The least step bound of the records at cost `c`, capped by
      `MAX_BOUND`; the deviation of a record is its sharing metric minus the
      mean `mean`. */
  function KBoundAt(s: seq<FaceMetric>, c: real, mean: real): (k: real)
    ensures k <= MAX_BOUND
    ensures forall i :: 0 <= i < |s| && AtCost(s[i], c) ==>
      k <= StepBound(s[i].fraction, s[i].sharingMetric - mean, 5.0, 100.0)
  {
    if |s| == 0 then MAX_BOUND
    else
      assert forall i :: 1 <= i < |s| ==> s[i] == s[1..][i - 1];
      var rest := KBoundAt(s[1..], c, mean);
      if AtCost(s[0], c)
      then Min(StepBound(s[0].fraction, s[0].sharingMetric - mean, 5.0, 100.0), rest)
      else rest
  }

  /** The new fraction of every record at cost `c`: `share` on the first
      run, the old fraction plus `k` times the deviation of the sharing
      metric from `mean` afterwards. Records at other costs are kept. */
  function SetFractionsAt(s: seq<FaceMetric>, c: real, inited: bool, k: real, mean: real, share: real): (r: seq<FaceMetric>)
    ensures |r| == |s|
    ensures forall i :: 0 <= i < |s| ==> r[i].(fraction := s[i].fraction) == s[i]
    ensures forall i :: 0 <= i < |s| && !AtCost(s[i], c) ==> r[i] == s[i]
    ensures forall i :: 0 <= i < |s| && AtCost(s[i], c) && !inited ==> r[i].fraction == share
    ensures forall i :: 0 <= i < |s| && AtCost(s[i], c) && inited ==>
      r[i].fraction - s[i].fraction == k * (s[i].sharingMetric - mean)
  {
    seq(|s|, i requires 0 <= i < |s| =>
      if !AtCost(s[i], c) then s[i]
      else if inited then s[i].(fraction := s[i].fraction + k * (s[i].sharingMetric - mean))
      else s[i].(fraction := share))
  }

  /** Mean sharing metric of the records at cost `c` (zero when there are
      none). */
  function MeanSharingAt(s: seq<FaceMetric>, c: real): real
  {
    var n := CountAt(s, c);
    if n == 0 then 0.0 else SumSharingAt(s, c) / (n as real)
  }

  /** The gain K of a later run: the least step bound at cost `c` damped by
      `damping`. */
  function GainAt(s: seq<FaceMetric>, c: real, damping: real): real
  {
    KBoundAt(s, c, MeanSharingAt(s, c)) * damping
  }

  /** The periodic rebalancing of the plain variant. Every record's counters
      are reset; then only the records of least cost get a new fraction:
      on the first run the integer quotient 100 / n (n of them), later the
      old fraction plus K times the record's deviation of sharing metric
      from the mean, where K is the least step bound damped by `damping`
      (standing for the `tanh` of the metric spread, a value in [0, 1]).
      The log line at the start dereferences the first record, so an entry
      without faces stops the node. */
  function ResetCountMinCost(e: Entry, damping: real): (r: Outcome<Entry>)
    requires 0.0 <= damping <= 1.0
    ensures r.Fatal? <==> |e.faces| == 0
    ensures r.Ok? ==> r.value.inited && r.value.data == 0 && |r.value.faces| == |e.faces|
    ensures r.Ok? ==> forall i :: 0 <= i < |e.faces| ==>
      r.value.faces[i].(fraction := e.faces[i].fraction) == ResetCounter(e.faces[i])
    ensures r.Ok? ==> forall i :: 0 <= i < |e.faces| && !AtCost(e.faces[i], MinCost(e.faces)) ==>
      r.value.faces[i].fraction == e.faces[i].fraction
    ensures r.Ok? && !e.inited ==> forall i :: 0 <= i < |e.faces| && AtCost(e.faces[i], MinCost(e.faces)) ==>
      r.value.faces[i].fraction == EqualShare(CountAt(e.faces, MinCost(e.faces)))
  {
    if |e.faces| == 0 then Fatal("ResetCount dereferences the first face of an empty entry")
    else
      var c := MinCost(e.faces);
      var n := CountAt(e.faces, c);
      var s := ResetAll(e.faces);
      if n == 0 then
        Ok(Entry(s, true, 0))
      else
        var k := GainAt(e.faces, c, damping);
        var mean := MeanSharingAt(e.faces, c);
        Ok(Entry(SetFractionsAt(s, c, e.inited, k, mean, EqualShare(n)), true, 0))
  }

  /** Record `a` is record `b` after a step of gain `k` toward the mean:
      its fraction moved by `k` times the deviation of `b`'s sharing metric
      from `mean`. */
  predicate Moved(a: FaceMetric, b: FaceMetric, k: real, mean: real)
  {
    a.fraction - b.fraction == k * (b.sharingMetric - mean)
  }

  /** On a later run each least-cost record moves by the gain times its
      deviation of sharing metric from the mean. */
  lemma LaterRun(e: Entry, damping: real)
    requires 0.0 <= damping <= 1.0 && |e.faces| > 0 && e.inited
    ensures forall i :: 0 <= i < |e.faces| && AtCost(e.faces[i], MinCost(e.faces)) ==>
      Moved(ResetCountMinCost(e, damping).value.faces[i], e.faces[i],
            GainAt(e.faces, MinCost(e.faces), damping), MeanSharingAt(e.faces, MinCost(e.faces)))
  {
    var c := MinCost(e.faces);
    var n := CountAt(e.faces, c);
    if n > 0 {
      var k := GainAt(e.faces, c, damping);
      var mean := MeanSharingAt(e.faces, c);
      var share := EqualShare(n);
      var r := ResetCountMinCost(e, damping).value.faces;
      var t := SetFractionsAt(ResetAll(e.faces), c, true, k, mean, share);
      assert r == t;
      LaterRunStep(e.faces, c, k, mean, share);
    } else {
      assert forall i :: 0 <= i < |e.faces| ==> !AtCost(e.faces[i], c);
    }
  }

  /** A later run's step, stated on the records before their reset. */
  lemma LaterRunStep(t: seq<FaceMetric>, c: real, k: real, mean: real, share: real)
    ensures forall i :: 0 <= i < |t| && AtCost(t[i], c) ==>
      Moved(SetFractionsAt(ResetAll(t), c, true, k, mean, share)[i], t[i], k, mean)
  {
    var s := ResetAll(t);
    var r := SetFractionsAt(s, c, true, k, mean, share);
    forall i | 0 <= i < |t| && AtCost(t[i], c)
      ensures Moved(r[i], t[i], k, mean)
    {
      assert s[i].fraction == t[i].fraction && s[i].sharingMetric == t[i].sharingMetric;
      assert AtCost(s[i], c);
    }
  }

  /** The least step bound at cost `c` is never negative while the
      fractions at that cost lie in [5, 100]. */
  lemma {:induction false} KBoundAtNonNegative(s: seq<FaceMetric>, c: real, mean: real)
    requires forall i :: 0 <= i < |s| && AtCost(s[i], c) ==> 5.0 <= s[i].fraction <= 100.0
    ensures KBoundAt(s, c, mean) >= 0.0
    decreases |s|
  {
    if |s| > 0 {
      assert forall i :: 1 <= i < |s| ==> s[i] == s[1..][i - 1];
      KBoundAtNonNegative(s[1..], c, mean);
      if AtCost(s[0], c) {
        StepBoundNonNegative(s[0].fraction, s[0].sharingMetric - mean);
      }
    }
  }

  /** A later run keeps every fraction in [5, 100]: the gain is at most the
      step bound of each least-cost record, which stops it at the edge of
      the band, and the other records keep their fractions. */
  lemma LaterRunStaysInBand(e: Entry, damping: real)
    requires 0.0 <= damping <= 1.0 && |e.faces| > 0 && e.inited && InBand(e.faces)
    ensures InBand(ResetCountMinCost(e, damping).value.faces)
  {
    var c := MinCost(e.faces);
    var n := CountAt(e.faces, c);
    if n == 0 {
      assert ResetCountMinCost(e, damping).value.faces == ResetAll(e.faces);
    } else {
      var mean := MeanSharingAt(e.faces, c);
      var kb := KBoundAt(e.faces, c, mean);
      var k := GainAt(e.faces, c, damping);
      assert 0.0 <= k <= kb by {
        assert k == kb * damping;
        KBoundAtNonNegative(e.faces, c, mean);
        MulMono01(kb, damping);
      }
      SetFractionsInBand(e.faces, c, k, kb, mean, EqualShare(n));
      assert ResetCountMinCost(e, damping).value.faces ==
        SetFractionsAt(ResetAll(e.faces), c, true, k, mean, EqualShare(n));
    }
  }

  /** A later run's new fractions, stated on the records before their
      reset: with a gain between 0 and the step bound of every record at
      cost `c`, they stay in [5, 100]. */
  lemma SetFractionsInBand(t: seq<FaceMetric>, c: real, k: real, kb: real, mean: real, share: real)
    requires InBand(t) && 0.0 <= k <= kb
    requires forall i :: 0 <= i < |t| && AtCost(t[i], c) ==>
      kb <= StepBound(t[i].fraction, t[i].sharingMetric - mean, 5.0, 100.0)
    ensures InBand(SetFractionsAt(ResetAll(t), c, true, k, mean, share))
  {
    var s := ResetAll(t);
    var r := SetFractionsAt(s, c, true, k, mean, share);
    LaterRunStep(t, c, k, mean, share);
    forall i | 0 <= i < |t| && !AtCost(t[i], c)
      ensures r[i].fraction == t[i].fraction
    {
      assert s[i].routingCost == t[i].routingCost;
    }
    StepsStayInBand(r, t, c, k, kb, mean);
  }

  /** Records stepped with a gain between 0 and the step bound of each
      record at cost `c`, the others unchanged, stay in [5, 100]. */
  lemma StepsStayInBand(r: seq<FaceMetric>, t: seq<FaceMetric>, c: real, k: real, kb: real, mean: real)
    requires |r| == |t| && InBand(t) && 0.0 <= k <= kb
    requires forall i :: 0 <= i < |t| && AtCost(t[i], c) ==>
      kb <= StepBound(t[i].fraction, t[i].sharingMetric - mean, 5.0, 100.0) && Moved(r[i], t[i], k, mean)
    requires forall i :: 0 <= i < |t| && !AtCost(t[i], c) ==> r[i].fraction == t[i].fraction
    ensures InBand(r)
  {
    forall i | 0 <= i < |r|
      ensures 5.0 <= r[i].fraction <= 100.0
    {
      if AtCost(t[i], c) {
        StepAtInBand(r[i], t[i], k, kb, mean);
      }
    }
  }

  /** One least-cost record's step: with a gain between 0 and its step
      bound, the new fraction stays in [5, 100]. */
  lemma StepAtInBand(a: FaceMetric, b: FaceMetric, k: real, kb: real, mean: real)
    requires 5.0 <= b.fraction <= 100.0 && 0.0 <= k <= kb
    requires kb <= StepBound(b.fraction, b.sharingMetric - mean, 5.0, 100.0)
    requires Moved(a, b, k, mean)
    ensures 5.0 <= a.fraction <= 100.0
  {
    var f := b.fraction;
    var dev := b.sharingMetric - mean;
    var sb := StepBound(f, dev, 5.0, 100.0);
    assert dev > 0.0 ==> sb * dev == 100.0 - f;
    assert dev < 0.0 ==> sb * (-dev) == f - 5.0;
    BandCore(f, dev, k, sb, a.fraction);
  }


  /** Resetting counters keeps the costs, hence the least cost and the set
      of records at any cost. */
  lemma {:induction false} ResetKeepsCosts(s: seq<FaceMetric>, c: real)
    ensures MinCost(ResetAll(s)) == MinCost(s)
    ensures CountAt(ResetAll(s), c) == CountAt(s, c)
    ensures SumSharingAt(ResetAll(s), c) == SumSharingAt(s, c)
    decreases |s|
  {
    if |s| > 0 {
      assert ResetAll(s)[1..] == ResetAll(s[1..]);
      ResetKeepsCosts(s[1..], c);
    }
  }

  /** On the first run the least-cost faces share 100 in equal integer
      parts: their fractions add up to 100 minus the remainder of 100 / n.
      (Some face must cost at most `MAX_BOUND` for the least cost to be
      attained.) */
  lemma FirstRunShares(e: Entry, damping: real)
    requires 0.0 <= damping <= 1.0 && !e.inited
    requires exists i :: 0 <= i < |e.faces| && e.faces[i].routingCost as real <= MAX_BOUND
    ensures ResetCountMinCost(e, damping).Ok?
    ensures var c := MinCost(e.faces);
            var n := CountAt(e.faces, c);
            n > 0 && SumFractionAt(ResetCountMinCost(e, damping).value.faces, c) == (100 - 100 % n) as real
  {
    var c := MinCost(e.faces);
    var n := CountAt(e.faces, c);
    MinCostAttained(e.faces);
    assert n > 0;
    var share := EqualShare(n);
    var faces := ResetCountMinCost(e, damping).value.faces;
    assert forall i :: 0 <= i < |faces| ==> faces[i].routingCost == ResetCounter(e.faces[i]).routingCost;
    CountSameCosts(faces, e.faces, c);
    SumOfEqualShares(faces, c, share);
    EqualShareTotal(n);
  }

  /** The first-run share of each of `n` least-cost faces: the integer
      quotient of 100 by `n`. */
  function EqualShare(n: nat): (v: real)
    requires n > 0
    ensures 0.0 <= v <= 100.0
    ensures (n as real) * v <= 100.0 < (n as real) * (v + 1.0)
  {
    var q := 100 / n;
    DivModUnique(100, n, q, 100 % n);
    q as real
  }

  lemma EqualShareTotal(n: nat)
    requires n > 0
    ensures Times(n, EqualShare(n)) == (100 - 100 % n) as real
  {
    var q := 100 / n;
    TimesInt(n, q);
    assert n * q == 100 - 100 % n;
  }

  /** `n` copies of `v` added up. */
  function Times(n: nat, v: real): real
  {
    if n == 0 then 0.0 else v + Times(n - 1, v)
  }

  lemma {:induction false} TimesInt(n: nat, q: int)
    ensures Times(n, q as real) == (n * q) as real
  {
    if n > 0 {
      TimesInt(n - 1, q);
      assert n * q == (n - 1) * q + q;
    }
  }

  /** The least cost is attained when some face costs at most the bound. */
  lemma MinCostAttained(s: seq<FaceMetric>)
    requires exists i :: 0 <= i < |s| && s[i].routingCost as real <= MAX_BOUND
    ensures exists i :: 0 <= i < |s| && AtCost(s[i], MinCost(s))
  {
    var i0 :| 0 <= i0 < |s| && s[i0].routingCost as real <= MAX_BOUND;
    if MinCost(s) == MAX_BOUND {
      assert AtCost(s[i0], MinCost(s));
    }
  }

  lemma {:induction false} CountSameCosts(a: seq<FaceMetric>, b: seq<FaceMetric>, c: real)
    requires |a| == |b|
    requires forall i :: 0 <= i < |a| ==> a[i].routingCost == b[i].routingCost
    ensures CountAt(a, c) == CountAt(b, c)
    decreases |a|
  {
    if |a| > 0 {
      CountSameCosts(a[1..], b[1..], c);
    }
  }

  /** When every record at cost `c` has fraction `v`, those fractions add up
      to `v` times their number. */
  lemma {:induction false} SumOfEqualShares(s: seq<FaceMetric>, c: real, v: real)
    requires forall i :: 0 <= i < |s| && AtCost(s[i], c) ==> s[i].fraction == v
    ensures SumFractionAt(s, c) == Times(CountAt(s, c), v)
    decreases |s|
  {
    if |s| > 0 {
      SumOfEqualShares(s[1..], c, v);
    }
  }

  /** The sharing metric is 1 on every record (nothing ever changes it), so
      every deviation from the mean is zero and later runs leave every
      fraction where it was. */
  lemma UnitSharingKeepsFractions(e: Entry, damping: real)
    requires 0.0 <= damping <= 1.0 && |e.faces| > 0 && e.inited
    requires forall i :: 0 <= i < |e.faces| ==> e.faces[i].sharingMetric == 1.0
    ensures forall i :: 0 <= i < |e.faces| ==>
      ResetCountMinCost(e, damping).value.faces[i].fraction == e.faces[i].fraction
  {
    var c := MinCost(e.faces);
    var n := CountAt(e.faces, c);
    LaterRun(e, damping);
    if n > 0 {
      var mean := MeanSharingAt(e.faces, c);
      assert mean == 1.0 by {
        SumOfUnitSharing(e.faces, c);
        DivSelf(n as real);
      }
      var k := GainAt(e.faces, c, damping);
      var r := ResetCountMinCost(e, damping).value.faces;
      forall i | 0 <= i < |e.faces| && AtCost(e.faces[i], c)
        ensures r[i].fraction == e.faces[i].fraction
      {
        CenteredStays(r[i], e.faces[i], k, mean);
      }
    }
  }

  lemma CenteredStays(a: FaceMetric, b: FaceMetric, k: real, mean: real)
    requires Moved(a, b, k, mean) && b.sharingMetric == mean
    ensures a.fraction == b.fraction
  {
  }

  lemma DivSelf(x: real)
    requires x != 0.0
    ensures x / x == 1.0
  {
  }

  lemma {:induction false} SumOfUnitSharing(s: seq<FaceMetric>, c: real)
    requires forall i :: 0 <= i < |s| ==> s[i].sharingMetric == 1.0
    ensures SumSharingAt(s, c) == CountAt(s, c) as real
    decreases |s|
  {
    if |s| > 0 {
      SumOfUnitSharing(s[1..], c);
    }
  }
}

=== FILE: fw_base.dfy ===
/**
 The packets, the node state and the base handlers of the BCube forwarding
 strategy (`ForwardingStrategy`). The strategy the BCube nodes run is the
 chain `ForwardingStrategy` <- `Nacks` <- `BestCC` <- `PerOutFaceDeltaLimits`;
 the handlers that a later class overrides are defined in the module of
 that class, and the handlers here are the ones every class shares.

 One call of a handler sees one PIT entry, the FIB entry it points at, and
 the per-face limiters; it returns the new state and the packets it sent,
 in order. Content store, PIT lookup and clock are inputs.
 */
module FwBase {
  import opened Common
  import opened FaceMetrics
  import opened FibEntry
  import opened BCubeTag
  import opened Pit
  import Limits
  import BCubeFib

  /** An Interest, or a NACK when `nack` is not zero.
      - `tag`: the BCube tag attached to the packet, if any;
      - `routeKey`: the route the tag names (its `GetRoutingCost`);
      - `seqNo`: the last name component read as an unsigned 32-bit number,
        or None when it does not read as one. */
  datatype Interest = Interest(
    nonce: nat,
    nack: nat,
    intraSharing: real,
    tag: Option<Tag>,
    routeKey: nat,
    seqNo: Option<nat>)

  /** A Data packet: its congestion mark and its BCube tag, if any. */
  datatype Data = Data(ce: nat, tag: Option<Tag>)

  /** What a handler sends, in order. */
  datatype Emit =
    | InterestOut(face: Face, tag: Tag)
    | DataOut(face: Face, tag: Tag)
    | NackOut(face: Face, code: nat, sharing: real, nackTag: Option<Tag>)
    | AppNack(app: Face, sharing: real)

  /** Packets that only refuse: NACKs to neighbours and to applications. */
  predicate NacksOnly(out: seq<Emit>)
  {
    forall k :: 0 <= k < |out| ==> out[k].NackOut? || out[k].AppNack?
  }

  /** Configuration: the faces of the node's applications and the two
      switches of the strategy. `corrected` is not a switch of the program:
      when false, propagation runs as the program is written (the token is
      taken before the send, and the min-cost coin compares with `>=`);
      when true, it runs the corrected variant of both. */
  datatype Env = Env(apps: seq<Face>, nacksEnabled: bool, detectRetx: bool, corrected: bool)

  datatype State = State(pit: PitEntry, fib: Entry, limits: map<Face, Limits.Limiter>)

  /** A handler's result: the new state, what was sent, and the boolean the
      handler returns (where it returns one). */
  datatype Step = Step(st: State, out: seq<Emit>, ok: bool)

  predicate Sound(s: State)
  {
    Keyed(s.pit) && FibEntry.Valid(s.fib)
  }

  /** The node as a packet's handler finds it: the PIT entry the lookup
      returns for the packet's name (if any), the FIB entry that entry
      points at, and the per-face limiters. */
  datatype Node = Node(pit: Option<PitEntry>, fib: Entry, limits: map<Face, Limits.Limiter>)

  /** A top-level handler's result: the new node and what was sent. */
  datatype Visit = Visit(node: Node, out: seq<Emit>)

  /** A node whose PIT entry (if any) keys its records by face and whose
      FIB entry holds one record per face. */
  predicate Healthy(n: Node)
  {
    (n.pit.Some? ==> Keyed(n.pit.value)) && FibEntry.Valid(n.fib)
  }

  function Enter(n: Node): (s: State)
    requires n.pit.Some?
    ensures s.pit == n.pit.value && s.fib == n.fib && s.limits == n.limits
  {
    State(n.pit.value, n.fib, n.limits)
  }

  function Leave(s: State): (n: Node)
    ensures n.pit == Some(s.pit) && n.fib == s.fib && n.limits == s.limits
  {
    Node(Some(s.pit), s.fib, s.limits)
  }

  // ---------------------------------------------------------------------
  // Counters of a FIB record
  // ---------------------------------------------------------------------

  datatype Counter = NackCount | InterestCount | DataInCount | DataCeCount

  function Count(c: Counter, m: FaceMetric): (r: FaceMetric)
    ensures c == NackCount ==> r == IncreaseNack(m)
    ensures c == InterestCount ==> r == IncreaseInterest(m)
    ensures c == DataInCount ==> r == IncreaseDataIn(m)
    ensures c == DataCeCount ==> r == IncreaseDataCE(m)
    ensures r.face == m.face
  {
    match c
    case NackCount => IncreaseNack(m)
    case InterestCount => IncreaseInterest(m)
    case DataInCount => IncreaseDataIn(m)
    case DataCeCount => IncreaseDataCE(m)
  }

  /** Count one event on the record of face `f`; an entry without a record
      for `f` is unchanged. */
  function Bump(e: Entry, f: Face, c: Counter): (r: Entry)
    requires FibEntry.Valid(e)
    ensures FibEntry.Valid(r) && |r.faces| == |e.faces|
    ensures forall i :: 0 <= i < |e.faces| ==> r.faces[i].face == e.faces[i].face
    ensures HasFace(e, f) ==> Find(r, f) == Some(Count(c, Find(e, f).value))
    ensures !HasFace(e, f) ==> r == e
    ensures forall g :: g != f ==> Find(r, g) == Find(e, g)
    ensures r.inited == e.inited && r.data == e.data
  {
    match IndexOf(e.faces, f)
    case None => e
    case Some(i) =>
      var r := Replace(e, i, Count(c, e.faces[i]));
      assert r.faces == e.faces[i := Count(c, e.faces[i])];
      r
  }

  /** The tag a handler reads from a packet: the attached one, or a
      default-constructed tag when none is attached. */
  function TagOf(t: Option<Tag>): (r: Tag)
    ensures t.Some? ==> r == t.value
    ensures t.None? ==> r == DefaultTag()
  {
    match t
    case Some(x) => x
    case None => DefaultTag()
  }

  /** The port an Interest came in on, as the previous hop of its tag;
      an untagged Interest gives the "no hop" marker. */
  function LocalPort(pkt: Interest): (port: Port)
    ensures port == GetPrevHop(TagOf(pkt.tag))
    ensures pkt.tag.None? ==> port == UINT32_MAX
  {
    GetPrevHop(TagOf(pkt.tag))
  }

  /** Conversion of a signed value to an unsigned 32-bit field. */
  function U32(x: int): (r: Port)
    ensures 0 <= x < TWO32 ==> r == x
    ensures (x - r) % TWO32 == 0
  {
    x % TWO32
  }

  /** The base admission test: never back to the incoming face; a face the
      Interest already went out on only when retransmissions are detected
      and the face has retransmissions left. */
  predicate CanSendBase(env: Env, p: PitEntry, inFace: Face, outFace: Face)
  {
    outFace != inFace &&
    match OutRecordOf(p, outFace)
    case None => true
    case Some(o) => env.detectRetx && o.retxCount < p.maxRetx
  }

  /** The base admission test blocks exactly the incoming face and the
      out faces that already carry the Interest and may not carry it again. */
  lemma CanSendBaseCases(env: Env, p: PitEntry, inFace: Face, outFace: Face)
    ensures outFace == inFace ==> !CanSendBase(env, p, inFace, outFace)
    ensures outFace != inFace && !IsOutgoing(p, outFace) ==> CanSendBase(env, p, inFace, outFace)
    ensures outFace != inFace && IsOutgoing(p, outFace) ==>
      (CanSendBase(env, p, inFace, outFace) <==>
        env.detectRetx && OutRecordOf(p, outFace).value.retxCount < p.maxRetx)
  {
  }

  /** An Interest is taken as a retransmission when its face is already
      incoming. */
  function DetectRetransmitted(p: PitEntry, inFace: Face): (b: bool)
    ensures b <==> exists i :: 0 <= i < |p.incoming| && p.incoming[i].face == inFace
  {
    IsIncoming(p, inFace)
  }

  /** Suppression of a similar Interest: never for a new entry, never for a
      face the Interest went out on, and otherwise unless it is a detected
      retransmission. */
  function ShouldSuppress(env: Env, p: PitEntry, inFace: Face): (b: bool)
    ensures b ==> |p.incoming| + |p.outgoing| > 0
    ensures IsOutgoing(p, inFace) ==> !b
    ensures env.detectRetx && IsIncoming(p, inFace) ==> !b
    ensures |p.incoming| + |p.outgoing| > 0 && !IsOutgoing(p, inFace) && !IsIncoming(p, inFace) ==> b
  {
    var isNew := |p.incoming| == 0 && |p.outgoing| == 0;
    if isNew then false
    else
      var isRetransmitted := env.detectRetx && DetectRetransmitted(p, inFace);
      if IsOutgoing(p, inFace) then false
      else !isNew && !isRetransmitted
  }

  /** The base duplicate handler: the face becomes incoming (with the port
      of the packet's tag) and nothing else happens. */
  function BaseDuplicate(p: PitEntry, inFace: Face, pkt: Interest): (r: PitEntry)
    requires Keyed(p)
    ensures Keyed(r) && IsIncoming(r, inFace)
    ensures r.nonces == p.nonces && r.outgoing == p.outgoing && r.maxRetx == p.maxRetx && r.erased == p.erased
    ensures !IsIncoming(p, inFace) ==> r.incoming == p.incoming + [InRecord(inFace, LocalPort(pkt))]
  {
    AddIncoming(p, inFace, LocalPort(pkt))
  }

  /** The base exhaustion handler: when every outgoing face answered with a
      NACK, the entry forgets its faces and is erased; otherwise nothing
      changes. */
  function BaseExhaust(p: PitEntry): (r: PitEntry)
    ensures AllOutgoingInVain(p) ==>
      r.incoming == [] && r.outgoing == [] && r.erased && r.nonces == p.nonces && r.maxRetx == p.maxRetx
    ensures !AllOutgoingInVain(p) ==> r == p
    ensures Keyed(r) || r == p
  {
    if AllOutgoingInVain(p) then MarkErased(ClearOutgoing(ClearIncoming(p))) else p
  }

  /** The tag of the Data copy sent back on an incoming record: the Data's
      own tag with the next hop set to the record's port. */
  function ReplyTag(d: Data, port: Port): (t: Tag)
    ensures t == TagOf(d.tag).(nexthop := port)
  {
    SetNextHop(TagOf(d.tag), port)
  }

  /** The incoming records left once the arrival face (if any) is removed. */
  function Waiting(p: PitEntry, inFace: Option<Face>): (r: seq<InRecord>)
    requires Keyed(p)
    ensures forall x :: x in r <==> x in p.incoming && (inFace.None? || x.face != inFace.value)
    ensures forall i, j :: 0 <= i < j < |r| ==> r[i].face != r[j].face
  {
    if inFace.Some? then RemoveIncoming(p, inFace.value).incoming else p.incoming
  }

  /** Satisfy the entry with Data that arrived on `inFace` (None for a
      content-store hit). The arrival face must have a FIB record. Every
      other incoming face gets one copy of the Data, tagged with the port of
      its record; then the entry forgets its faces and is erased. */
  function Satisfy(s: State, inFace: Option<Face>, d: Data): (r: Outcome<Step>)
    requires Sound(s)
    ensures r.Fatal? <==> inFace.Some? && !HasFace(s.fib, inFace.value)
    ensures r.Ok? ==> var w := Waiting(s.pit, inFace);
      |r.value.out| == |w| &&
      (forall i :: 0 <= i < |w| ==> r.value.out[i] == DataOut(w[i].face, ReplyTag(d, w[i].localport)))
    ensures r.Ok? ==> var p := r.value.st.pit;
      p.incoming == [] && p.outgoing == [] && p.erased && p.nonces == s.pit.nonces && p.maxRetx == s.pit.maxRetx
    ensures r.Ok? ==> r.value.st.fib == s.fib && r.value.st.limits == s.limits
  {
    if inFace.Some? && !HasFace(s.fib, inFace.value) then Fatal("no FIB record for the Data's face")
    else
      var w := Waiting(s.pit, inFace);
      var out := seq(|w|, i requires 0 <= i < |w| => DataOut(w[i].face, ReplyTag(d, w[i].localport)));
      var p := MarkErased(ClearOutgoing(ClearIncoming(s.pit)));
      Ok(Step(s.(pit := p), out, true))
  }

  /** Every face still waiting receives exactly one copy, and the face the
      Data came from receives none. */
  lemma SatisfyReachesEachWaitingFaceOnce(s: State, inFace: Option<Face>, d: Data)
    requires Sound(s) && Satisfy(s, inFace, d).Ok?
    ensures var out := Satisfy(s, inFace, d).value.out;
      (forall g :: (exists i :: 0 <= i < |out| && out[i].face == g) <==>
        IsIncoming(s.pit, g) && (inFace.None? || g != inFace.value)) &&
      (forall i, j :: 0 <= i < j < |out| ==> out[i].face != out[j].face)
  {
    var out := Satisfy(s, inFace, d).value.out;
    var w := Waiting(s.pit, inFace);
    forall g
      ensures (exists i :: 0 <= i < |out| && out[i].face == g) <==>
        IsIncoming(s.pit, g) && (inFace.None? || g != inFace.value)
    {
      if exists i :: 0 <= i < |out| && out[i].face == g {
        var i :| 0 <= i < |out| && out[i].face == g;
        assert w[i] in w;
      }
      if IsIncoming(s.pit, g) && (inFace.None? || g != inFace.value) {
        var k :| 0 <= k < |s.pit.incoming| && s.pit.incoming[k].face == g;
        assert s.pit.incoming[k] in w;
        var i :| 0 <= i < |w| && w[i] == s.pit.incoming[k];
        assert out[i].face == g;
      }
    }
  }

  /** The RTT measurement done before satisfying: when the Interest went out
      on the Data's face, the face's RTT estimator takes the time since that
      send. The FIB must hold the face, and its estimator must not have a
      variation without a smoothed RTT. */
  function MeasureRtt(s: State, inFace: Option<Face>, now: real): (r: Outcome<Entry>)
    requires Sound(s)
    ensures inFace.None? || !IsOutgoing(s.pit, inFace.value) ==> r == Ok(s.fib)
    ensures inFace.Some? && IsOutgoing(s.pit, inFace.value) ==>
      (r.Fatal? <==> !HasFace(s.fib, inFace.value) || !RttConsistent(Find(s.fib, inFace.value).value))
    ensures r.Ok? && inFace.Some? && IsOutgoing(s.pit, inFace.value) ==>
      Find(r.value, inFace.value) ==
        Some(UpdateRtt(Find(s.fib, inFace.value).value, now - OutRecordOf(s.pit, inFace.value).value.sendTime))
    ensures r.Ok? ==> FibEntry.Valid(r.value) && forall g :: inFace != Some(g) ==> Find(r.value, g) == Find(s.fib, g)
  {
    if inFace.None? then Ok(s.fib)
    else
      var f := inFace.value;
      match OutRecordOf(s.pit, f)
      case None => Ok(s.fib)
      case Some(o) =>
        if !HasFace(s.fib, f) then Fatal("RTT update of a face the FIB entry does not hold")
        else if !RttConsistent(Find(s.fib, f).value) then Fatal("SRTT is zero, but variation is not")
        else Ok(UpdateFaceRtt(s.fib, f, now - o.sendTime))
  }
}

=== FILE: fw_bestcc.dfy ===
/**
 `BestCC` of the BCube build, the third class of the strategy chain: the
 choice of the one face an Interest goes out on, and the NACK handler.

 The face is chosen from the FIB entry's ranking by (status, cost):
 - an application face, if the entry has one, before anything else;
 - at an intermediate server (the Interest came from another node), the
   first face whose cost records the route named by the Interest's BCube
   tag; an untagged Interest is not forwarded;
 - at the consumer (the Interest came from an application), a weighted
   split: the sequence number of the Interest modulo the total traffic
   share of the other faces selects the first face whose running share
   reaches it.
 */
module FwBestCC {
  import opened Common
  import opened FaceMetrics
  import opened FibEntry
  import opened BCubeTag
  import opened Pit
  import opened FwBase
  import opened FwLimits
  import opened FwNacks
  import Limits
  import BCubeFib

  /** Position of the first application face. */
  function FirstApp(s: seq<FaceMetric>): (r: Option<nat>)
    ensures r.Some? ==> r.value < |s| && s[r.value].face.isApp
    ensures r.Some? ==> forall j :: 0 <= j < r.value ==> !s[j].face.isApp
    ensures r.None? <==> forall j :: 0 <= j < |s| ==> !s[j].face.isApp
  {
    if |s| == 0 then None
    else if s[0].face.isApp then Some(0)
    else match FirstApp(s[1..])
      case None => None
      case Some(i) => Some(i + 1)
  }

  /** Position of the first face whose cost records route `key`. */
  function FirstRoute(s: seq<FaceMetric>, key: nat): (r: Option<nat>)
    ensures r.Some? ==> r.value < |s| && BCubeFib.CarriesRoute(s[r.value].routingCost, key)
    ensures r.Some? ==> forall j :: 0 <= j < r.value ==> !BCubeFib.CarriesRoute(s[j].routingCost, key)
    ensures r.None? <==> forall j :: 0 <= j < |s| ==> !BCubeFib.CarriesRoute(s[j].routingCost, key)
  {
    if |s| == 0 then None
    else if BCubeFib.CarriesRoute(s[0].routingCost, key) then Some(0)
    else match FirstRoute(s[1..], key)
      case None => None
      case Some(i) => Some(i + 1)
  }

  /** The traffic share a record contributes to the split: its fraction,
      unless it is the Interest's own face. */
  function Share(m: FaceMetric, inFace: Face): real
  {
    if m.face != inFace then m.fraction else 0.0
  }

  /** Total share of the faces other than `inFace`. */
  function Others(s: seq<FaceMetric>, inFace: Face): real
    decreases |s|
  {
    if |s| == 0 then 0.0 else Share(s[0], inFace) + Others(s[1..], inFace)
  }

  lemma OthersCons(s: seq<FaceMetric>, inFace: Face, n: nat)
    requires 0 < n <= |s|
    ensures Others(s[..n], inFace) == Share(s[0], inFace) + Others(s[1..][..n - 1], inFace)
  {
    assert s[..n][1..] == s[1..][..n - 1];
  }

  /** The face at position `i` is the first other face at which the running
      share, started at `coin`, reaches `target`. */
  predicate Reaches(s: seq<FaceMetric>, inFace: Face, target: real, coin: real, i: nat)
  {
    i < |s| && s[i].face != inFace && coin + Others(s[..i + 1], inFace) >= target &&
    forall j :: 0 <= j < i && s[j].face != inFace ==> coin + Others(s[..j + 1], inFace) < target
  }

  /** The split walk: add up the shares of the other faces in ranking order
      and stop at the first face where the sum reaches the target. */
  function Walk(s: seq<FaceMetric>, inFace: Face, target: real, coin: real): (r: Option<nat>)
    ensures r.Some? ==> Reaches(s, inFace, target, coin, r.value)
    ensures r.None? && (exists i :: 0 <= i < |s| && s[i].face != inFace) ==> coin + Others(s, inFace) < target
    decreases |s|
  {
    if |s| == 0 then None
    else if s[0].face != inFace && coin + s[0].fraction >= target then
      assert s[..1][1..] == [];
      Some(0)
    else
      var c := coin + Share(s[0], inFace);
      var rest := Walk(s[1..], inFace, target, c);
      WalkStep(s, inFace, target, coin, rest);
      match rest
      case None => None
      case Some(i) => Some(i + 1)
  }

  /** One step of the walk: a face reached in the tail, with the running
      share moved past the head, is reached in the whole sequence. */
  lemma WalkStep(s: seq<FaceMetric>, inFace: Face, target: real, coin: real, rest: Option<nat>)
    requires |s| > 0 && !(s[0].face != inFace && coin + s[0].fraction >= target)
    requires rest.Some? ==> Reaches(s[1..], inFace, target, coin + Share(s[0], inFace), rest.value)
    requires rest.None? && (exists i :: 0 <= i < |s[1..]| && s[1..][i].face != inFace) ==>
      coin + Share(s[0], inFace) + Others(s[1..], inFace) < target
    ensures rest.Some? ==> Reaches(s, inFace, target, coin, rest.value + 1)
    ensures rest.None? && (exists i :: 0 <= i < |s| && s[i].face != inFace) ==> coin + Others(s, inFace) < target
  {
    var c := coin + Share(s[0], inFace);
    if rest.Some? {
      var i := rest.value;
      OthersCons(s, inFace, i + 2);
      forall j | 0 <= j < i + 1 && s[j].face != inFace
        ensures coin + Others(s[..j + 1], inFace) < target
      {
        OthersCons(s, inFace, j + 1);
        if j > 0 {
          assert s[1..][j - 1] == s[j];
        } else {
          assert s[1..][..0] == [];
        }
      }
    } else {
      if exists i :: 0 <= i < |s| && s[i].face != inFace {
        var i :| 0 <= i < |s| && s[i].face != inFace;
        if i > 0 {
          assert s[1..][i - 1].face != inFace;
        } else if !(exists k :: 0 <= k < |s[1..]| && s[1..][k].face != inFace) {
          OthersNone(s[1..], inFace);
        }
      }
    }
  }

  /** Without other faces, the other faces share nothing. */
  lemma {:induction false} OthersNone(s: seq<FaceMetric>, inFace: Face)
    requires forall k :: 0 <= k < |s| ==> s[k].face == inFace
    ensures Others(s, inFace) == 0.0
    decreases |s|
  {
    if |s| > 0 {
      OthersNone(s[1..], inFace);
    }
  }

  /** The target of the consumer's split: the sequence number modulo the
      integer part of the other faces' total share, raised to one when
      below one. */
  function Target(s: seq<FaceMetric>, inFace: Face, q: nat): (t: nat)
    ensures Others(s, inFace) >= 1.0 ==> t < Others(s, inFace).Floor
    ensures Others(s, inFace) < 1.0 ==> t == 0
  {
    var total := Others(s, inFace);
    var w := if total < 1.0 then 1.0 else total;
    q % w.Floor
  }

  /** The consumer's split: no other share, no face; otherwise the walk
      picks the face that the target falls on. The sequence number must be
      readable from the name. */
  function Split(s: seq<FaceMetric>, inFace: Face, seqNo: Option<nat>): (r: Outcome<Option<nat>>)
    ensures Others(s, inFace) == 0.0 ==> r == Ok(None)
    ensures Others(s, inFace) != 0.0 ==> (r.Fatal? <==> seqNo.None?)
    ensures r.Ok? && r.value.Some? ==>
      seqNo.Some? && Reaches(s, inFace, Target(s, inFace, seqNo.value) as real, 0.0, r.value.value)
  {
    if Others(s, inFace) == 0.0 then Ok(None)
    else
      match seqNo
      case None => Fatal("the last name component is not a sequence number")
      case Some(q) => Ok(Walk(s, inFace, Target(s, inFace, q) as real, 0.0))
  }

  /** The target of the split lies below the total share, so a positive
      total always selects a face, whatever the signs of single shares. */
  lemma SplitChooses(s: seq<FaceMetric>, inFace: Face, q: nat)
    requires Others(s, inFace) > 0.0
    ensures Split(s, inFace, Some(q)).Ok? && Split(s, inFace, Some(q)).value.Some?
  {
    var target := Target(s, inFace, q);
    assert (target as real) < Others(s, inFace) || target == 0;
    if forall k :: 0 <= k < |s| ==> s[k].face == inFace {
      OthersNone(s, inFace);
    }
  }

  /** With unit-free shares adding up to a whole number, each face gets the
      targets that fall in its band of the running sum: the face at position
      `i` is chosen for exactly the targets above the running sum before it
      and not above the running sum through it. */
  lemma WalkBands(s: seq<FaceMetric>, inFace: Face, target: real, i: nat)
    requires i < |s| && s[i].face != inFace
    requires forall k :: 0 <= k < |s| ==> s[k].fraction >= 0.0
    ensures Reaches(s, inFace, target, 0.0, i) <==>
      Others(s[..i], inFace) < target <= Others(s[..i + 1], inFace) ||
      (target <= Others(s[..i + 1], inFace) && forall j :: 0 <= j < i ==> s[j].face == inFace)
  {
    PrefixMonotone(s, inFace, i);
    if Others(s[..i], inFace) < target <= Others(s[..i + 1], inFace) {
      forall j | 0 <= j < i && s[j].face != inFace
        ensures Others(s[..j + 1], inFace) < target
      {
        PrefixLe(s, inFace, j + 1, i);
      }
    }
    if target <= Others(s[..i + 1], inFace) && forall j :: 0 <= j < i ==> s[j].face == inFace {
      assert forall j :: 0 <= j < i && s[j].face != inFace ==> Others(s[..j + 1], inFace) < target;
    }
    if Reaches(s, inFace, target, 0.0, i) && !(forall j :: 0 <= j < i ==> s[j].face == inFace) {
      var j :| 0 <= j < i && s[j].face != inFace;
      var last := LastOther(s, inFace, i);
      assert Others(s[..last + 1], inFace) < target;
      PrefixFlat(s, inFace, last + 1, i);
    }
  }

  /** Running shares do not decrease when shares are non-negative. */
  lemma {:induction false} PrefixLe(s: seq<FaceMetric>, inFace: Face, a: nat, b: nat)
    requires a <= b <= |s|
    requires forall k :: 0 <= k < |s| ==> s[k].fraction >= 0.0
    ensures Others(s[..a], inFace) <= Others(s[..b], inFace)
    decreases b - a
  {
    if a < b {
      PrefixLe(s, inFace, a, b - 1);
      PrefixSnoc(s, inFace, b);
    }
  }

  /** Extending the prefix by one record adds that record's share. */
  lemma PrefixSnoc(s: seq<FaceMetric>, inFace: Face, b: nat)
    requires 0 < b <= |s|
    ensures Others(s[..b], inFace) == Others(s[..b - 1], inFace) + Share(s[b - 1], inFace)
  {
    OthersAppend(s[..b - 1], s[b - 1], inFace);
    assert s[..b] == s[..b - 1] + [s[b - 1]];
  }

  lemma {:induction false} OthersAppend(s: seq<FaceMetric>, m: FaceMetric, inFace: Face)
    ensures Others(s + [m], inFace) == Others(s, inFace) + Share(m, inFace)
    decreases |s|
  {
    if |s| > 0 {
      OthersAppend(s[1..], m, inFace);
      assert (s + [m])[1..] == s[1..] + [m];
    }
  }

  lemma PrefixMonotone(s: seq<FaceMetric>, inFace: Face, i: nat)
    requires i < |s| && s[i].face != inFace
    ensures Others(s[..i + 1], inFace) == Others(s[..i], inFace) + s[i].fraction
  {
    PrefixSnoc(s, inFace, i + 1);
  }

  /** The last position before `i` of a face other than `inFace`. */
  function LastOther(s: seq<FaceMetric>, inFace: Face, i: nat): (j: nat)
    requires i <= |s| && exists k :: 0 <= k < i && s[k].face != inFace
    ensures j < i && s[j].face != inFace
    ensures forall k :: j < k < i ==> s[k].face == inFace
    decreases i
  {
    if s[i - 1].face != inFace then i - 1 else LastOther(s, inFace, i - 1)
  }

  /** Records of the Interest's own face add nothing to the running share. */
  lemma {:induction false} PrefixFlat(s: seq<FaceMetric>, inFace: Face, a: nat, b: nat)
    requires a <= b <= |s|
    requires forall k :: a <= k < b ==> s[k].face == inFace
    ensures Others(s[..a], inFace) == Others(s[..b], inFace)
    decreases b - a
  {
    if a < b {
      PrefixFlat(s, inFace, a, b - 1);
      PrefixSnoc(s, inFace, b);
    }
  }

  /** Position in the ranking of the face chosen for the Interest, if any:
      - the first application face;
      - else, for an Interest from another node, the first face carrying the
        tag's route, none for an untagged Interest, and a failed assertion
        when no face carries the route;
      - else the consumer's split, which never picks the Interest's own face. */
  function Choose(ranked: seq<FaceMetric>, inFace: Face, pkt: Interest): (r: Outcome<Option<nat>>)
    ensures r.Ok? && r.value.Some? ==> r.value.value < |ranked|
    ensures FirstApp(ranked).Some? ==> r == Ok(FirstApp(ranked))
    ensures FirstApp(ranked).None? && !inFace.isApp ==>
      (pkt.tag.None? ==> r == Ok(None)) &&
      (pkt.tag.Some? ==> (r.Fatal? <==> FirstRoute(ranked, pkt.routeKey).None?)) &&
      (pkt.tag.Some? && r.Ok? ==> r == Ok(FirstRoute(ranked, pkt.routeKey)))
    ensures FirstApp(ranked).None? && inFace.isApp ==>
      r == Split(ranked, inFace, pkt.seqNo) &&
      (r.Ok? && r.value.Some? ==> ranked[r.value.value].face != inFace)
  {
    match FirstApp(ranked)
    case Some(i) => Ok(Some(i))
    case None =>
      if !inFace.isApp then
        if pkt.tag.None? then Ok(None)
        else
          match FirstRoute(ranked, pkt.routeKey)
          case Some(i) => Ok(Some(i))
          case None => Fatal("no face carries the route of the tag")
      else Split(ranked, inFace, pkt.seqNo)
  }

  /** The face chosen for the Interest from the FIB entry's ranking; it is
      always a face of the entry. */
  function Select(s: State, inFace: Face, pkt: Interest): (r: Outcome<Option<Face>>)
    ensures r.Fatal? <==> Choose(Rank(s.fib.faces), inFace, pkt).Fatal?
    ensures r.Ok? ==> (r.value.Some? <==> Choose(Rank(s.fib.faces), inFace, pkt).value.Some?)
    ensures r.Ok? && r.value.Some? ==>
      HasFace(s.fib, r.value.value) &&
      r.value.value == Rank(s.fib.faces)[Choose(Rank(s.fib.faces), inFace, pkt).value.value].face
  {
    var ranked := Rank(s.fib.faces);
    match Choose(ranked, inFace, pkt)
    case Fatal(m) => Fatal(m)
    case Ok(None) => Ok(None)
    case Ok(Some(i)) =>
      RankMembers(s.fib.faces);
      assert ranked[i] in s.fib.faces;
      Ok(Some(ranked[i].face))
  }

  /** A face of the FIB entry has a limiter. */
  lemma AttachedFace(s: State, f: Face)
    requires Attached(s) && HasFace(s.fib, f)
    ensures f in s.limits
  {
  }

  /** Propagation of an Interest on the chosen face. When the face fails
      admission, its FIB NACK count goes up and nothing is sent. Otherwise
      the Interest goes out on it, one token is taken from its limiter and
      its FIB Interest count goes up; the send is made before the token is
      taken, so that the admission test of the send sees the limiter that
      passed the check. */
  function DoPropagate(env: Env, s: State, inFace: Face, pkt: Interest, now: real): (r: Outcome<Step>)
    requires Sound(s) && Attached(s)
    ensures r.Fatal? <==> Select(s, inFace, pkt).Fatal?
    ensures r.Ok? && Select(s, inFace, pkt).value.None? ==> r.value == Step(s, [], false)
    ensures r.Ok? && !r.value.ok ==> r.value.out == [] && r.value.st.pit == s.pit && r.value.st.limits == s.limits
    ensures r.Ok? && Select(s, inFace, pkt).value.Some? ==>
      var f := Select(s, inFace, pkt).value.value;
      f in s.limits &&
      (r.value.ok <==> CanSend(env, s, inFace, f)) &&
      (!r.value.ok ==> r.value.out == [] && r.value.st == s.(fib := Bump(s.fib, f, NackCount))) &&
      (r.value.ok ==>
        r.value.out == [InterestOut(f, SendTag(pkt, Find(s.fib, f).value.routingCost))] &&
        r.value.st.pit == AddOutgoing(s.pit, f, now) &&
        r.value.st.limits == s.limits[f := Limits.BorrowLimit(s.limits[f])] &&
        r.value.st.fib == Bump(s.fib, f, InterestCount))
  {
    match Select(s, inFace, pkt)
    case Fatal(m) => Fatal(m)
    case Ok(None) => Ok(Step(s, [], false))
    case Ok(Some(f)) =>
      AttachedFace(s, f);
      if !CanSend(env, s, inFace, f) then Ok(Step(s.(fib := Bump(s.fib, f, NackCount)), [], false))
      else
        match TrySend(env, s, inFace, f, pkt, now)
        case Fatal(m) => Fatal(m)
        case Ok(t) =>
          var limits := t.st.limits[f := Limits.BorrowLimit(t.st.limits[f])];
          Ok(Step(t.st.(limits := limits, fib := Bump(t.st.fib, f, InterestCount)), t.out, true))
  }

  /** Propagation keeps the state sound and every limiter attached, and
      reports success exactly when one Interest went out, on a face the
      entry now has as outgoing. */
  lemma DoPropagateSendsWhatItReports(env: Env, s: State, inFace: Face, pkt: Interest, now: real)
    requires Sound(s) && Attached(s) && DoPropagate(env, s, inFace, pkt, now).Ok?
    ensures var t := DoPropagate(env, s, inFace, pkt, now).value;
      Sound(t.st) && Attached(t.st) &&
      (t.ok <==> |t.out| == 1) &&
      (t.ok ==> t.out[0].InterestOut? && IsOutgoing(t.st.pit, t.out[0].face) && t.out[0].face != inFace)
    ensures var t := DoPropagate(env, s, inFace, pkt, now).value;
      t.st.pit.incoming == s.pit.incoming && t.st.pit.nonces == s.pit.nonces &&
      t.st.pit.maxRetx == s.pit.maxRetx && t.st.limits.Keys == s.limits.Keys
  {
    var t := DoPropagate(env, s, inFace, pkt, now).value;
    var sel := Select(s, inFace, pkt).value;
    if sel.Some? {
      var f := sel.value;
      if t.ok {
        TrySendRecordsFace(env, s, inFace, f, pkt, now);
      }
    }
  }

  /** The propagation as the program orders it: the token is taken first and
      the send, whose admission test asks the limiter again, comes after. */
  function DoPropagateAsWritten(env: Env, s: State, inFace: Face, pkt: Interest, now: real): (r: Outcome<Step>)
    requires Sound(s) && Attached(s)
    ensures r.Fatal? <==> Select(s, inFace, pkt).Fatal?
    ensures r.Ok? && Select(s, inFace, pkt).value.Some? ==>
      var f := Select(s, inFace, pkt).value.value;
      f in s.limits &&
      (r.value.ok <==> CanSend(env, s, inFace, f)) &&
      (r.value.ok ==> f in r.value.st.limits && r.value.st.limits[f] == Limits.BorrowLimit(s.limits[f]))
  {
    match Select(s, inFace, pkt)
    case Fatal(m) => Fatal(m)
    case Ok(None) => Ok(Step(s, [], false))
    case Ok(Some(f)) =>
      AttachedFace(s, f);
      if !CanSend(env, s, inFace, f) then Ok(Step(s.(fib := Bump(s.fib, f, NackCount)), [], false))
      else
        var s1 := TakeToken(s, f);
        match TrySend(env, s1, inFace, f, pkt, now)
        case Fatal(m) => Fatal(m)
        case Ok(t) =>
          Ok(Step(t.st.(fib := Bump(t.st.fib, f, InterestCount)), t.out, true))
  }

  /** Propagation taking the token first keeps the state sound and every
      limiter attached; it sends at most one Interest, and only when it
      reports success, on a face the entry now has as outgoing. */
  lemma DoPropagateAsWrittenKeepsShape(env: Env, s: State, inFace: Face, pkt: Interest, now: real)
    requires Sound(s) && Attached(s) && DoPropagateAsWritten(env, s, inFace, pkt, now).Ok?
    ensures Forwarded(s, inFace, DoPropagateAsWritten(env, s, inFace, pkt, now).value)
  {
    var sel := Select(s, inFace, pkt).value;
    if sel.Some? {
      var f := sel.value;
      AttachedFace(s, f);
      if CanSend(env, s, inFace, f) {
        var s1 := TakeToken(s, f);
        TrySendRecordsFace(env, s1, inFace, f, pkt, now);
      }
    }
  }

  /** What every propagation step promises, in either order: the state
      stays sound with every limiter attached, arrivals, nonces and the
      retransmission allowance are untouched, a failure changes neither the
      PIT entry nor the limiters and sends nothing, and at most one Interest
      leaves, only on success, on a face other than the arrival face that
      the entry now has as outgoing. */
  predicate Forwarded(s: State, inFace: Face, t: Step)
  {
    Sound(t.st) && Attached(t.st) &&
    t.st.pit.incoming == s.pit.incoming && t.st.pit.nonces == s.pit.nonces &&
    t.st.pit.maxRetx == s.pit.maxRetx && t.st.limits.Keys == s.limits.Keys &&
    (!t.ok ==> t.out == [] && t.st.pit == s.pit && t.st.limits == s.limits) &&
    |t.out| <= 1 &&
    (|t.out| == 1 ==>
      t.ok && t.out[0].InterestOut? && t.out[0].face != inFace && IsOutgoing(t.st.pit, t.out[0].face))
  }

  /** The propagation the node runs: the program's order, or the corrected
      one when the configuration asks for it. Either way a chosen face
      reports success exactly when it passed admission; only the corrected
      order also sends an Interest whenever it reports success. */
  function Forward(env: Env, s: State, inFace: Face, pkt: Interest, now: real): (r: Outcome<Step>)
    requires Sound(s) && Attached(s)
    ensures r.Fatal? <==> Select(s, inFace, pkt).Fatal?
    ensures r.Ok? ==> Forwarded(s, inFace, r.value)
    ensures r.Ok? && Select(s, inFace, pkt).value.None? ==> r.value == Step(s, [], false)
    ensures r.Ok? && Select(s, inFace, pkt).value.Some? ==>
      var f := Select(s, inFace, pkt).value.value;
      f in s.limits && (r.value.ok <==> CanSend(env, s, inFace, f))
    ensures r.Ok? && env.corrected ==> (r.value.ok <==> |r.value.out| == 1)
  {
    if env.corrected then
      var r := DoPropagate(env, s, inFace, pkt, now);
      if r.Ok? then
        DoPropagateSendsWhatItReports(env, s, inFace, pkt, now);
        r
      else r
    else
      var r := DoPropagateAsWritten(env, s, inFace, pkt, now);
      if r.Ok? then
        DoPropagateAsWrittenKeepsShape(env, s, inFace, pkt, now);
        r
      else r
  }

  /** An enabled limiter with at least one token of headroom and less than
      two (a fresh enabled limiter, with ceiling 1 and an empty bucket, is
      one): admitted, and without headroom once a token is taken. */
  predicate LastToken(l: Limits.Limiter)
  {
    l.enabled && 1.0 <= l.bucketMax - l.bucket < 2.0
  }

  /** The program's order loses the Interest: when the chosen face's limiter
      holds its last token, the admission check passes, the token is taken,
      the send's own admission test then finds no headroom, nothing is sent
      and no outgoing record is made, and propagation still reports success,
      so the entry is neither forwarded nor exhausted. */
  lemma AsWrittenReportsUnsentInterest(env: Env, s: State, inFace: Face, pkt: Interest, now: real)
    requires Sound(s) && Attached(s)
    requires Select(s, inFace, pkt).Ok? && Select(s, inFace, pkt).value.Some?
    requires var f := Select(s, inFace, pkt).value.value;
      f in s.limits && CanSend(env, s, inFace, f) && LastToken(s.limits[f])
    ensures var r := DoPropagateAsWritten(env, s, inFace, pkt, now);
      r.Ok? && r.value.ok && r.value.out == [] && r.value.st.pit == s.pit
  {
    var f := Select(s, inFace, pkt).value.value;
    var s1 := s.(limits := s.limits[f := Limits.BorrowLimit(s.limits[f])]);
    assert !CanSend(env, s1, inFace, f);
  }

  /** In the corrected order the same situation sends the Interest on the
      chosen face and records it as outgoing. */
  lemma CorrectedSendsInterest(env: Env, s: State, inFace: Face, pkt: Interest, now: real)
    requires Sound(s) && Attached(s)
    requires Select(s, inFace, pkt).Ok? && Select(s, inFace, pkt).value.Some?
    requires var f := Select(s, inFace, pkt).value.value;
      f in s.limits && CanSend(env, s, inFace, f) && LastToken(s.limits[f])
    ensures var r := DoPropagate(env, s, inFace, pkt, now);
      r.Ok? && r.value.ok && |r.value.out| == 1 &&
      IsOutgoing(r.value.st.pit, Select(s, inFace, pkt).value.value)
  {
    DoPropagateSendsWhatItReports(env, s, inFace, pkt, now);
  }

  /** Count one NACK on the limiter of `f`, when it has one. */
  function NackLimits(limits: map<Face, Limits.Limiter>, f: Face): (r: map<Face, Limits.Limiter>)
    ensures r.Keys == limits.Keys
    ensures f in limits ==> Limits.Nack(r[f]) == Limits.Nack(limits[f]) + 1.0 && r[f].(nack := limits[f].nack) == limits[f]
    ensures forall g :: g in limits && g != f ==> r[g] == limits[g]
  {
    if f in limits then limits[f := Limits.IncreaseNack(limits[f])] else limits
  }

  /** The NACK handler of the BCube strategy, which does not reroute:
      - without a PIT entry the NACK is dropped;
      - the NACK is noted in the entry; after a refusal that leaves some
        outgoing face still waiting, the NACK is dropped before any counter
        moves;
      - after a refusal that leaves every outgoing face in vain, the entry
        is exhausted at once, with no second propagation;
      - then the limiter of the face counts the NACK, and for a give-up
        NACK so does the face's FIB record. */
  function OnNack(env: Env, n: Node, inFace: Face, pkt: Interest): (r: Outcome<Visit>)
    requires Healthy(n)
    ensures n.pit.None? ==> r == Ok(Visit(n, []))
    ensures r.Ok? ==> Healthy(r.value.node) && r.value.node.limits.Keys == n.limits.Keys && r.value.node.pit.Some? == n.pit.Some?
    ensures n.pit.Some? && !IsRefusal(pkt.nack) ==>
      r == Ok(Visit(n.(limits := NackLimits(n.limits, inFace)), []))
    ensures n.pit.Some? && IsRefusal(pkt.nack) ==>
      var q := NoteNack(n.pit.value, inFace, pkt.nack);
      (!AllOutgoingInVain(q) ==> r == Ok(Visit(n.(pit := Some(q)), []))) &&
      (AllOutgoingInVain(q) ==>
        var e := Exhaust(env, Enter(n).(pit := q), inFace);
        (r.Fatal? <==> e.Fatal?) &&
        (r.Ok? ==>
          r.value.out == e.value.out &&
          r.value.node.pit == Some(e.value.st.pit) && r.value.node.pit.value.erased &&
          r.value.node.limits == NackLimits(n.limits, inFace) &&
          r.value.node.fib == (if pkt.nack == NACK_GIVEUP_PIT then Bump(n.fib, inFace, NackCount) else n.fib)))
  {
    match n.pit
    case None => Ok(Visit(n, []))
    case Some(p) =>
      var q := NoteNack(p, inFace, pkt.nack);
      if !IsRefusal(pkt.nack) then Ok(Visit(n.(limits := NackLimits(n.limits, inFace)), []))
      else if !AllOutgoingInVain(q) then Ok(Visit(n.(pit := Some(q)), []))
      else
        match Exhaust(env, Enter(n).(pit := q), inFace)
        case Fatal(m) => Fatal(m)
        case Ok(t) =>
          var fib := if pkt.nack == NACK_GIVEUP_PIT then Bump(t.st.fib, inFace, NackCount) else t.st.fib;
          Ok(Visit(Node(Some(t.st.pit), fib, NackLimits(t.st.limits, inFace)), t.out))
  }

  /** A give-up NACK is never answered on the face it came from: that
      face's incoming record is gone before the entry is exhausted, so
      the give-up NACKs go to the other incoming faces only. */
  lemma OnNackGiveUpNotEchoed(env: Env, n: Node, inFace: Face, pkt: Interest)
    requires Healthy(n) && pkt.nack == NACK_GIVEUP_PIT && OnNack(env, n, inFace, pkt).Ok?
    ensures forall k :: 0 <= k < |OnNack(env, n, inFace, pkt).value.out| ==>
      var o := OnNack(env, n, inFace, pkt).value.out[k];
      o.NackOut? ==> o.face != inFace
  {
    var out := OnNack(env, n, inFace, pkt).value.out;
    if n.pit.Some? {
      var q := NoteNack(n.pit.value, inFace, pkt.nack);
      if AllOutgoingInVain(q) {
        var s := Enter(n).(pit := q);
        if env.nacksEnabled {
          ExhaustPackets(env, s, inFace);
        }
        forall k | 0 <= k < |out| && out[k].NackOut?
          ensures out[k].face != inFace
        {
          if k < |q.incoming| {
            assert out[k] == GiveUpNack(q.incoming[k]);
            assert !IsIncoming(q, inFace);
          }
        }
      }
    }
  }

  /** Noting a NACK keeps the state sound and every limiter attached. */
  lemma NotedStaysAttached(s: State, inFace: Face, code: nat)
    requires Sound(s) && Attached(s)
    ensures Sound(s.(pit := NoteNack(s.pit, inFace, code)))
    ensures Attached(s.(pit := NoteNack(s.pit, inFace, code)))
  {
    var q := NoteNack(s.pit, inFace, code);
    assert forall i :: 0 <= i < |q.outgoing| ==> q.outgoing[i].face == s.pit.outgoing[i].face;
  }

  /** Propagation with exhaustion as the fallback: when propagation
      reports failure, the entry is handed to the exhaustion handler and the
      packets of both are sent in order. */
  function Repropagate(env: Env, s: State, inFace: Face, pkt: Interest, now: real): (r: Outcome<Step>)
    requires Sound(s) && Attached(s)
    ensures Forward(env, s, inFace, pkt, now).Fatal? ==> r.Fatal?
    ensures Forward(env, s, inFace, pkt, now).Ok? && Forward(env, s, inFace, pkt, now).value.ok ==>
      r == Forward(env, s, inFace, pkt, now)
    ensures r.Ok? && !r.value.ok ==> (AllOutgoingInVain(s.pit) ==> r.value.st.pit.erased)
    ensures r.Ok? && !r.value.ok ==>
      Forward(env, s, inFace, pkt, now).Ok? &&
      Exhaust(env, Forward(env, s, inFace, pkt, now).value.st, inFace).Ok? &&
      r.value.st == Exhaust(env, Forward(env, s, inFace, pkt, now).value.st, inFace).value.st
    ensures r.Ok? ==> Sound(r.value.st) && r.value.st.limits.Keys == s.limits.Keys
  {
    match Forward(env, s, inFace, pkt, now)
    case Fatal(m) => Fatal(m)
    case Ok(t) =>
      if t.ok then Ok(t)
      else
        match Exhaust(env, t.st, inFace)
        case Fatal(m) => Fatal(m)
        case Ok(e) => Ok(Step(e.st, t.out + e.out, false))
  }

  /** The NACK handler of the `Nacks` class, which the BCube strategy
      overrides: after a refusal that leaves every outgoing face in vain the
      Interest is propagated again as a fresh normal Interest, built from
      the header alone and so without the NACK's BCube tag, and the entry is
      exhausted only when that fails. */
  function ValidNack(env: Env, s: State, inFace: Face, pkt: Interest, now: real): (r: Outcome<Step>)
    requires Sound(s) && Attached(s)
    ensures var q := NoteNack(s.pit, inFace, pkt.nack);
      (!IsRefusal(pkt.nack) || !AllOutgoingInVain(q)) ==> r == Ok(Step(s.(pit := q), [], false))
    ensures var q := NoteNack(s.pit, inFace, pkt.nack);
      IsRefusal(pkt.nack) && AllOutgoingInVain(q) ==>
      r == Repropagate(env, s.(pit := q), inFace, pkt.(nack := NORMAL_INTEREST, tag := None), now)
    ensures r.Ok? && !r.value.ok ==> r.value.out == [] || r.value.st.pit.erased
    ensures r.Ok? ==> Sound(r.value.st) && r.value.st.limits.Keys == s.limits.Keys
  {
    var q := NoteNack(s.pit, inFace, pkt.nack);
    var s1 := s.(pit := q);
    NotedStaysAttached(s, inFace, pkt.nack);
    if !IsRefusal(pkt.nack) || !AllOutgoingInVain(q) then Ok(Step(s1, [], false))
    else Repropagate(env, s1, inFace, pkt.(nack := NORMAL_INTEREST, tag := None), now)
  }

  /** At an intermediate server (the NACK came from another node and the
      entry has no application face) the fresh Interest has no tag, so no
      face is chosen for it whatever tag the NACK carried: a refusal that
      leaves every outgoing face in vain always ends in the exhaustion of
      the entry, which sends only NACKs and erases it. */
  lemma UntaggedResendExhausts(env: Env, s: State, inFace: Face, pkt: Interest, now: real)
    requires Sound(s) && Attached(s)
    requires !inFace.isApp && FirstApp(Rank(s.fib.faces)).None?
    requires IsRefusal(pkt.nack) && AllOutgoingInVain(NoteNack(s.pit, inFace, pkt.nack))
    ensures var e := Exhaust(env, s.(pit := NoteNack(s.pit, inFace, pkt.nack)), inFace);
      var r := ValidNack(env, s, inFace, pkt, now);
      (r.Fatal? <==> e.Fatal?) &&
      (r.Ok? ==> r == Ok(Step(e.value.st, e.value.out, false)) && r.value.st.pit.erased && NacksOnly(r.value.out))
  {
    var s1 := s.(pit := NoteNack(s.pit, inFace, pkt.nack));
    var resent := pkt.(nack := NORMAL_INTEREST, tag := None);
    NotedStaysAttached(s, inFace, pkt.nack);
    assert Choose(Rank(s1.fib.faces), inFace, resent) == Ok(None);
    assert Forward(env, s1, inFace, resent, now) == Ok(Step(s1, [], false));
    var e := Exhaust(env, s1, inFace);
    if e.Ok? {
      ExhaustSendsOnlyNacks(env, s1, inFace);
      assert [] + e.value.out == e.value.out;
    }
  }
}

=== FILE: fw_limits.dfy ===
/**
 The registry of per-face limiters of `PerOutFaceDeltaLimits`: every face
 registered with the strategy gets its own `LimitsDeltaRate` limiter.
 */
module FaceLimiters {
  import opened Common
  import Limits

  /** The limiter a face gets when it is registered: a fresh
      `LimitsDeltaRate`, marked as attached. */
  function Attached(): (l: Limits.Limiter)
    ensures l.aggregated && !l.enabled
    ensures l.bucket == 0.0 && l.bucketMax == 1.0 && Limits.Bounded(l)
  {
    Limits.Limiter(false, 0.0, 1.0, 0.0, 0.0, 1.0, 0.0, true)
  }

  /** The attached limiter is the freshly constructed one, attached. */
  lemma AttachedIsNew()
    ensures Attached() == Limits.New().(aggregated := true)
  {
  }

  /** Attach a fresh limiter to a face that has none: exactly that face is
      added and the faces registered before keep their limiters. */
  function Register(limits: map<Face, Limits.Limiter>, f: Face): (r: map<Face, Limits.Limiter>)
    requires f !in limits
    ensures f in r && r[f] == Attached()
    ensures r.Keys == limits.Keys + {f}
    ensures forall g :: g in limits ==> r[g] == limits[g]
  {
    UpdateKeepsOthers(limits, f, Attached());
    limits[f := Attached()]
  }

  /** Register a face with the strategy. Aggregating a second limiter to a
      face aborts. */
  function AddFace(limits: map<Face, Limits.Limiter>, f: Face): (r: Outcome<map<Face, Limits.Limiter>>)
    ensures r.Fatal? <==> f in limits
    ensures r.Ok? ==> f !in limits && r.value == Register(limits, f)
  {
    if f in limits then Fatal("a limiter is already aggregated to the face")
    else Ok(Register(limits, f))
  }
}

/**
 `PerOutFaceDeltaLimits`, the last class of the strategy chain: every face
 registered with the strategy gets its own `LimitsDeltaRate` limiter, the
 admission test of an out face also asks the face's limiter, and
 satisfaction and timeout hand the outgoing faces' tokens back. Because
 admission is virtual, the base `TrySendOutInterest` of the composed
 strategy asks this test; it is defined here.
 */
module FwLimits {
  import opened Common
  import opened FibEntry
  import opened BCubeTag
  import opened Pit
  import opened FwBase
  import Limits
  import BCubeFib

  /** Every face of the FIB entry and every outgoing face has a limiter;
      registering faces with `FaceLimiters.AddFace` establishes it. */
  predicate Attached(s: State)
  {
    (forall i :: 0 <= i < |s.fib.faces| ==> s.fib.faces[i].face in s.limits) &&
    (forall i :: 0 <= i < |s.pit.outgoing| ==> s.pit.outgoing[i].face in s.limits)
  }

  /** Take one token from the limiter of `f`, which must have headroom;
      nothing else changes, so every limiter stays attached. */
  function TakeToken(s: State, f: Face): (r: State)
    requires Attached(s) && f in s.limits && Limits.IsBelowLimit(s.limits[f])
    ensures Attached(r) && r.pit == s.pit && r.fib == s.fib && r.limits.Keys == s.limits.Keys
    ensures r.limits[f] == Limits.BorrowLimit(s.limits[f])
  {
    UpdateKeepsOthersOrSame(s.limits, f, Limits.BorrowLimit(s.limits[f]));
    s.(limits := s.limits[f := Limits.BorrowLimit(s.limits[f])])
  }

  /** Admission of an out face: its limiter must have headroom, and only
      then is the base test asked. Nothing is borrowed here. */
  predicate CanSend(env: Env, s: State, inFace: Face, outFace: Face)
    requires outFace in s.limits
  {
    Limits.IsBelowLimit(s.limits[outFace]) && CanSendBase(env, s.pit, inFace, outFace)
  }

  /** The tag an Interest leaves with: the packet's tag with the next hop
      taken from the last digit of the out face's cost and the previous hop
      from the digits above it, each converted to 32 bits. */
  function SendTag(pkt: Interest, cost: int): (t: Tag)
    ensures t.(nexthop := TagOf(pkt.tag).nexthop, prevhop := TagOf(pkt.tag).prevhop) == TagOf(pkt.tag)
    ensures t.nexthop == U32(BCubeFib.CRem10(cost)) && t.prevhop == U32(BCubeFib.CDiv10(cost))
  {
    SetPrevHop(SetNextHop(TagOf(pkt.tag), U32(BCubeFib.CRem10(cost))), U32(BCubeFib.CDiv10(cost)))
  }

  /** A cost written as `prevhop * 10 + nexthop`, with a one-digit next hop
      and a previous hop that fits 32 bits, is split back into exactly those
      two ports. */
  lemma SendTagSplitsCost(pkt: Interest, prevhop: nat, nexthop: nat)
    requires nexthop < 10 && prevhop * 10 + nexthop < TWO32
    ensures SendTag(pkt, prevhop * 10 + nexthop).nexthop == nexthop
    ensures SendTag(pkt, prevhop * 10 + nexthop).prevhop == prevhop
  {
    var cost := prevhop * 10 + nexthop;
    DivModUnique(cost, 10, prevhop, nexthop);
  }

  /** Try to send the Interest on `outFace`. When admission fails nothing
      changes and the result is false. Otherwise the face becomes (or again
      is) outgoing at `now`, one Interest leaves on it tagged from the face's
      FIB cost, and the result is true whatever the face does with the
      packet. The FIB entry must hold the face. */
  function TrySend(env: Env, s: State, inFace: Face, outFace: Face, pkt: Interest, now: real): (r: Outcome<Step>)
    requires Sound(s) && outFace in s.limits
    ensures r.Fatal? <==> CanSend(env, s, inFace, outFace) && !HasFace(s.fib, outFace)
    ensures r.Ok? ==> (r.value.ok <==> CanSend(env, s, inFace, outFace))
    ensures r.Ok? && !r.value.ok ==> r.value.st == s && r.value.out == []
    ensures r.Ok? && r.value.ok ==>
      r.value.st == s.(pit := AddOutgoing(s.pit, outFace, now)) &&
      r.value.out == [InterestOut(outFace, SendTag(pkt, Find(s.fib, outFace).value.routingCost))]
  {
    if !CanSend(env, s, inFace, outFace) then Ok(Step(s, [], false))
    else
      match Find(s.fib, outFace)
      case None => Fatal("no FIB record for the out face")
      case Some(rec) =>
        Ok(Step(s.(pit := AddOutgoing(s.pit, outFace, now)), [InterestOut(outFace, SendTag(pkt, rec.routingCost))], true))
  }

  /** A successful send leaves the state sound, keeps every limiter and FIB
      record, and records the out face with a fresh stamp; a first send on
      the face starts with no retransmission. */
  lemma TrySendRecordsFace(env: Env, s: State, inFace: Face, outFace: Face, pkt: Interest, now: real)
    requires Sound(s) && Attached(s) && outFace in s.limits
    requires TrySend(env, s, inFace, outFace, pkt, now).Ok?
    ensures var t := TrySend(env, s, inFace, outFace, pkt, now).value;
      Sound(t.st) && Attached(t.st) && t.st.fib == s.fib && t.st.limits == s.limits &&
      (t.ok ==> IsOutgoing(t.st.pit, outFace) && OutRecordOf(t.st.pit, outFace).value.sendTime == now) &&
      (t.ok && !IsOutgoing(s.pit, outFace) ==> OutRecordOf(t.st.pit, outFace).value.retxCount == 0) &&
      (t.ok ==> outFace != inFace && Limits.IsBelowLimit(s.limits[outFace]))
  {
    var t := TrySend(env, s, inFace, outFace, pkt, now).value;
    if t.ok {
      var p := AddOutgoing(s.pit, outFace, now);
      forall i | 0 <= i < |p.outgoing|
        ensures p.outgoing[i].face in s.limits
      {
        var g := p.outgoing[i].face;
        if g != outFace {
          assert OutRecordOf(p, g) == OutRecordOf(s.pit, g) by {
            assert OutRecordOf(p, g).Some?;
          }
        }
      }
    }
  }

  /** Hand the token of every outgoing face back to its limiter. */
  function ReturnAll(s: State): (r: map<Face, Limits.Limiter>)
    ensures r.Keys == s.limits.Keys
    ensures forall f :: f in r && IsOutgoing(s.pit, f) ==> r[f] == Limits.ReturnLimit(s.limits[f])
    ensures forall f :: f in r && !IsOutgoing(s.pit, f) ==> r[f] == s.limits[f]
  {
    map f | f in s.limits :: if IsOutgoing(s.pit, f) then Limits.ReturnLimit(s.limits[f]) else s.limits[f]
  }

  /** Before satisfying: tokens back, then the base RTT measurement. */
  function WillSatisfy(s: State, inFace: Option<Face>, now: real): (r: Outcome<State>)
    requires Sound(s)
    ensures r.Ok? ==> r.value.pit == s.pit && r.value.limits == ReturnAll(s)
    ensures r.Ok? <==> MeasureRtt(s, inFace, now).Ok?
    ensures r.Ok? ==> r.value.fib == MeasureRtt(s, inFace, now).value
  {
    match MeasureRtt(s, inFace, now)
    case Fatal(m) => Fatal(m)
    case Ok(fib) => Ok(s.(limits := ReturnAll(s), fib := fib))
  }

  /** Before a timed-out entry is erased: tokens back; the base does nothing. */
  function WillEraseTimedOut(s: State): (r: State)
    ensures r.pit == s.pit && r.fib == s.fib && r.limits == ReturnAll(s)
  {
    s.(limits := ReturnAll(s))
  }

  /** With `LimitsDeltaRate`, whose tokens leak with time only, satisfaction
      and timeout leave every limiter as it was. */
  lemma ReturnsKeepBuckets(s: State, inFace: Option<Face>, now: real)
    requires Sound(s)
    ensures WillEraseTimedOut(s).limits == s.limits
    ensures WillSatisfy(s, inFace, now).Ok? ==> WillSatisfy(s, inFace, now).value.limits == s.limits
  {
    var r := ReturnAll(s);
    assert forall f :: f in r ==> r[f] == s.limits[f];
  }
}

=== FILE: fw_nacks.dfy ===
/**
 `Nacks`, the second class of the strategy chain: a duplicate Interest is
 answered with a loop NACK, and an entry whose forwarding options are
 exhausted sends a give-up NACK back on every incoming face and tells the
 node's applications, before the base handler erases it.
 */
module FwNacks {
  import opened Common
  import opened FaceMetrics
  import opened FibEntry
  import opened BCubeTag
  import opened Pit
  import opened FwBase

  /** The sharing value carried by the give-up NACKs sent on incoming
      faces: above 100, so that a consumer receiving one applies the full
      decrease. */
  const GIVEUP_SHARING: real := 120.0

  /** A duplicate Interest: the base handling, then one loop NACK back on
      the face it came from when NACKs are enabled. The NACK is a copy of
      the Interest's header and carries no BCube tag. */
  function Duplicate(env: Env, s: State, inFace: Face, pkt: Interest): (r: Step)
    requires Sound(s)
    ensures Sound(r.st) && r.st.fib == s.fib && r.st.limits == s.limits
    ensures r.st.pit == BaseDuplicate(s.pit, inFace, pkt)
    ensures env.nacksEnabled ==> r.out == [NackOut(inFace, NACK_LOOP, pkt.intraSharing, None)]
    ensures !env.nacksEnabled ==> r.out == []
  {
    var p := BaseDuplicate(s.pit, inFace, pkt);
    Step(s.(pit := p), if env.nacksEnabled then [NackOut(inFace, NACK_LOOP, pkt.intraSharing, None)] else [], false)
  }

  /** The give-up NACK sent back on one incoming record: tagged as a packet
      travelling toward the consumer, next hop the record's port. */
  function GiveUpNack(x: InRecord): (e: Emit)
    ensures e == NackOut(x.face, NACK_GIVEUP_PIT, GIVEUP_SHARING, Some(DefaultTag().(interest := 0, nexthop := x.localport)))
  {
    NackOut(x.face, NACK_GIVEUP_PIT, GIVEUP_SHARING, Some(SetNextHop(SetInterest(DefaultTag(), 0), x.localport)))
  }

  /** One give-up NACK per incoming record, in order. */
  function GiveUps(inc: seq<InRecord>): (r: seq<Emit>)
    ensures |r| == |inc| && forall i :: 0 <= i < |inc| ==> r[i] == GiveUpNack(inc[i])
  {
    seq(|inc|, i requires 0 <= i < |inc| => GiveUpNack(inc[i]))
  }

  /** One NACK per application, each with sharing value `share`, in order. */
  function AppNacks(apps: seq<Face>, share: real): (r: seq<Emit>)
    ensures |r| == |apps| && forall j :: 0 <= j < |apps| ==> r[j] == AppNack(apps[j], share)
  {
    seq(|apps|, j requires 0 <= j < |apps| => AppNack(apps[j], share))
  }

  /** The entry given up: the outgoing records dropped and the base
      handler run; one give-up NACK goes to every incoming face, then one
      NACK with sharing value `share` to every application of `apps`. */
  function GiveUp(s: State, apps: seq<Face>, share: real): (r: Step)
    ensures r.st == s.(pit := BaseExhaust(ClearOutgoing(s.pit))) && !r.ok
    ensures |r.out| == |s.pit.incoming| + |apps|
    ensures forall i :: 0 <= i < |s.pit.incoming| ==> r.out[i] == GiveUpNack(s.pit.incoming[i])
    ensures forall j :: 0 <= j < |apps| ==> r.out[|s.pit.incoming| + j] == AppNack(apps[j], share)
  {
    Step(s.(pit := BaseExhaust(ClearOutgoing(s.pit))), GiveUps(s.pit.incoming) + AppNacks(apps, share), false)
  }

  /** No incoming record is on a face with the id of `a`. */
  predicate NotIncoming(incoming: seq<InRecord>, a: Face)
  {
    forall i :: 0 <= i < |incoming| ==> incoming[i].face.id != a.id
  }

  /** The applications whose face is not among the incoming faces (faces
      compared by id), in order. */
  function Uninformed(apps: seq<Face>, incoming: seq<InRecord>): (r: seq<Face>)
    ensures forall a :: a in r <==> a in apps && NotIncoming(incoming, a)
    decreases |apps|
  {
    if |apps| == 0 then []
    else
      var rest := Uninformed(apps[1..], incoming);
      assert forall a :: a in apps <==> a == apps[0] || a in apps[1..];
      if NotIncoming(incoming, apps[0]) then [apps[0]] + rest else rest
  }

  /** The exhaustion handler. With NACKs enabled:
      - every incoming face gets one give-up NACK;
      - when the Interest came from another node, every application whose
        face is not incoming gets a give-up NACK whose sharing value is the
        complement to 100 of the traffic share of the Interest's face (which
        the FIB entry must then hold);
      - the outgoing records are dropped, so the base handler then erases
        the entry.
      With NACKs disabled only the base handler runs. */
  function Exhaust(env: Env, s: State, inFace: Face): (r: Outcome<Step>)
    requires Sound(s)
    ensures r.Fatal? <==> env.nacksEnabled && |Told(env, s, inFace)| > 0 && !HasFace(s.fib, inFace)
    ensures r.Ok? ==> r.value.st.fib == s.fib && r.value.st.limits == s.limits && !r.value.ok
    ensures r.Ok? && !env.nacksEnabled ==> r.value.st.pit == BaseExhaust(s.pit) && r.value.out == []
    ensures r.Ok? && env.nacksEnabled ==> var p := r.value.st.pit;
      p.incoming == [] && p.outgoing == [] && p.erased && p.nonces == s.pit.nonces && p.maxRetx == s.pit.maxRetx
    ensures r.Ok? && env.nacksEnabled ==> r.value == GiveUp(s, Told(env, s, inFace), AppShare(s.fib, inFace))
  {
    if !env.nacksEnabled then Ok(Step(s.(pit := BaseExhaust(s.pit)), [], false))
    else if |Told(env, s, inFace)| > 0 && !HasFace(s.fib, inFace) then Fatal("no FIB record for the Interest's face")
    else Ok(GiveUp(s, Told(env, s, inFace), AppShare(s.fib, inFace)))
  }

  /** The applications an exhaustion tells: none for an Interest from an
      application, otherwise those whose face is not incoming. */
  function Told(env: Env, s: State, inFace: Face): (r: seq<Face>)
    ensures inFace.isApp ==> r == []
    ensures !inFace.isApp ==> r == Uninformed(env.apps, s.pit.incoming)
  {
    if inFace.isApp then [] else Uninformed(env.apps, s.pit.incoming)
  }

  /** The sharing value told to the applications: the complement to 100 of
      the traffic share of the Interest's face, when the entry holds it. */
  function AppShare(fib: Entry, inFace: Face): (x: real)
    ensures HasFace(fib, inFace) ==> x == 100.0 - Find(fib, inFace).value.fraction
  {
    match Find(fib, inFace)
    case None => 0.0
    case Some(rec) => 100.0 - rec.fraction
  }

  /** The packets of an exhaustion with NACKs enabled: one give-up NACK per
      incoming face, in order, and, for an Interest from another node, one
      NACK per uninformed application carrying the complement to 100 of the
      traffic share of the Interest's face, which the entry must hold. */
  lemma ExhaustPackets(env: Env, s: State, inFace: Face)
    requires Sound(s) && Exhaust(env, s, inFace).Ok? && env.nacksEnabled
    ensures var out := Exhaust(env, s, inFace).value.out; var n := |s.pit.incoming|;
      |out| >= n &&
      (forall i :: 0 <= i < n ==> out[i] == GiveUpNack(s.pit.incoming[i])) &&
      (inFace.isApp ==> |out| == n)
    ensures var out := Exhaust(env, s, inFace).value.out; var n := |s.pit.incoming|;
      !inFace.isApp ==> var apps := Uninformed(env.apps, s.pit.incoming);
        |out| == n + |apps| &&
        (|apps| > 0 ==> HasFace(s.fib, inFace)) &&
        forall j :: 0 <= j < |apps| ==> out[n + j] == AppNack(apps[j], 100.0 - Find(s.fib, inFace).value.fraction)
  {
    var g := GiveUp(s, Told(env, s, inFace), AppShare(s.fib, inFace));
    assert Exhaust(env, s, inFace).value == g;
    if !inFace.isApp {
      var apps := Uninformed(env.apps, s.pit.incoming);
      if |apps| > 0 {
        assert HasFace(s.fib, inFace);
        var x := 100.0 - Find(s.fib, inFace).value.fraction;
        assert AppShare(s.fib, inFace) == x;
        forall j | 0 <= j < |apps|
          ensures g.out[|s.pit.incoming| + j] == AppNack(apps[j], x)
        {
        }
      }
    }
  }

  /** An application is told about the give-up exactly when its face is not
      incoming and the Interest came from another node; NACKs disabled, no
      application is told. */
  lemma ExhaustTellsApps(env: Env, s: State, inFace: Face, a: Face)
    requires Sound(s) && Exhaust(env, s, inFace).Ok? && a in env.apps
    ensures var out := Exhaust(env, s, inFace).value.out;
      (exists k :: 0 <= k < |out| && out[k].AppNack? && out[k].app == a) <==>
        env.nacksEnabled && !inFace.isApp && NotIncoming(s.pit.incoming, a)
  {
    var out := Exhaust(env, s, inFace).value.out;
    if env.nacksEnabled {
      if exists k :: 0 <= k < |out| && out[k].AppNack? && out[k].app == a {
        var k :| 0 <= k < |out| && out[k].AppNack? && out[k].app == a;
        ExhaustNackToldApp(env, s, inFace, k);
      }
      if !inFace.isApp && NotIncoming(s.pit.incoming, a) {
        var apps := Uninformed(env.apps, s.pit.incoming);
        var j := PositionOf(apps, a);
        ExhaustTellsEach(env, s, inFace, j);
      }
    }
  }

  /** An application NACK of an exhaustion goes to an uninformed application
      of an Interest from another node. */
  lemma ExhaustNackToldApp(env: Env, s: State, inFace: Face, k: nat)
    requires Sound(s) && Exhaust(env, s, inFace).Ok? && env.nacksEnabled
    requires k < |Exhaust(env, s, inFace).value.out| && Exhaust(env, s, inFace).value.out[k].AppNack?
    ensures !inFace.isApp && Exhaust(env, s, inFace).value.out[k].app in Uninformed(env.apps, s.pit.incoming)
  {
    var told := Told(env, s, inFace);
    var g := GiveUp(s, told, AppShare(s.fib, inFace));
    assert Exhaust(env, s, inFace).value == g;
    AppNackPosition(g.out, s.pit.incoming, told, AppShare(s.fib, inFace), k);
    assert told[k - |s.pit.incoming|] in told;
  }

  /** Packets laid out as a give-up lays them out are all NACKs. */
  lemma GiveUpLayoutNacksOnly(out: seq<Emit>, inc: seq<InRecord>, apps: seq<Face>, share: real)
    requires |out| == |inc| + |apps|
    requires forall i :: 0 <= i < |inc| ==> out[i] == GiveUpNack(inc[i])
    requires forall j :: 0 <= j < |apps| ==> out[|inc| + j] == AppNack(apps[j], share)
    ensures NacksOnly(out)
  {
    forall k | 0 <= k < |out|
      ensures out[k].NackOut? || out[k].AppNack?
    {
      if k < |inc| {
        assert out[k] == GiveUpNack(inc[k]);
      } else {
        assert out[|inc| + (k - |inc|)] == AppNack(apps[k - |inc|], share);
      }
    }
  }

  /** In packets laid out as a give-up lays them out, an application NACK
      comes after the NACKs of the incoming faces and goes to the matching
      application. */
  lemma AppNackPosition(out: seq<Emit>, inc: seq<InRecord>, apps: seq<Face>, share: real, k: nat)
    requires |out| == |inc| + |apps|
    requires forall i :: 0 <= i < |inc| ==> out[i] == GiveUpNack(inc[i])
    requires forall j :: 0 <= j < |apps| ==> out[|inc| + j] == AppNack(apps[j], share)
    requires k < |out| && out[k].AppNack?
    ensures |inc| <= k && out[k].app == apps[k - |inc|]
  {
    if k < |inc| {
      assert false;
    }
    assert out[|inc| + (k - |inc|)] == AppNack(apps[k - |inc|], share);
  }

  /** The j-th uninformed application gets the NACK right after the NACKs of
      the incoming faces. */
  lemma ExhaustTellsEach(env: Env, s: State, inFace: Face, j: nat)
    requires Sound(s) && Exhaust(env, s, inFace).Ok? && env.nacksEnabled && !inFace.isApp
    requires j < |Uninformed(env.apps, s.pit.incoming)|
    ensures var out := Exhaust(env, s, inFace).value.out; var n := |s.pit.incoming|;
      n + j < |out| && out[n + j].AppNack? && out[n + j].app == Uninformed(env.apps, s.pit.incoming)[j]
  {
    var told := Told(env, s, inFace);
    var g := GiveUp(s, told, AppShare(s.fib, inFace));
    assert Exhaust(env, s, inFace).value == g;
    assert g.out[|s.pit.incoming| + j] == AppNack(told[j], AppShare(s.fib, inFace));
  }

  /** Exhaustion only sends NACKs, and leaves a sound state whose PIT
      entry is erased once every outgoing face was in vain. */
  lemma ExhaustSendsOnlyNacks(env: Env, s: State, inFace: Face)
    requires Sound(s) && Exhaust(env, s, inFace).Ok?
    ensures var e := Exhaust(env, s, inFace).value;
      Sound(e.st) && NacksOnly(e.out)
    ensures AllOutgoingInVain(s.pit) || env.nacksEnabled ==> Exhaust(env, s, inFace).value.st.pit.erased
  {
    var e := Exhaust(env, s, inFace).value;
    if env.nacksEnabled {
      var told := Told(env, s, inFace);
      var g := GiveUp(s, told, AppShare(s.fib, inFace));
      assert e == g;
      GiveUpLayoutNacksOnly(g.out, s.pit.incoming, told, AppShare(s.fib, inFace));
    }
  }

  /** The NACK codes that refuse the Interest on a face. */
  predicate IsRefusal(code: nat)
  {
    code == NACK_LOOP || code == NACK_CONGESTION || code == NACK_GIVEUP_PIT
  }

  /** What a NACK received on `inFace` records in the PIT entry: a give-up
      NACK means the neighbour dropped its own entry, so it no longer waits
      for our answer and its incoming record goes; a refusal marks the
      outgoing record of the face as answered in vain. */
  function NoteNack(p: PitEntry, inFace: Face, code: nat): (r: PitEntry)
    requires Keyed(p)
    ensures Keyed(r)
    ensures code == NACK_GIVEUP_PIT ==> !IsIncoming(r, inFace)
    ensures code != NACK_GIVEUP_PIT ==> r.incoming == p.incoming
    ensures forall g :: g != inFace ==> (IsIncoming(r, g) <==> IsIncoming(p, g))
    ensures forall x :: x in r.incoming ==> x in p.incoming
    ensures !IsRefusal(code) ==> r == p
    ensures IsRefusal(code) && IsOutgoing(p, inFace) ==> OutRecordOf(r, inFace) == Some(OutRecordOf(p, inFace).value.(inVain := true))
    ensures forall g :: g != inFace ==> OutRecordOf(r, g) == OutRecordOf(p, g)
    ensures |r.outgoing| == |p.outgoing| && forall i :: 0 <= i < |p.outgoing| ==> r.outgoing[i].face == p.outgoing[i].face
    ensures IsRefusal(code) ==>
      (AllOutgoingInVain(r) <==> forall i :: 0 <= i < |p.outgoing| ==> p.outgoing[i].inVain || p.outgoing[i].face == inFace)
    ensures r.nonces == p.nonces && r.maxRetx == p.maxRetx && r.erased == p.erased
  {
    var q := if code == NACK_GIVEUP_PIT then RemoveIncoming(p, inFace) else p;
    if IsRefusal(code) then SetWaitingInVain(q, inFace) else q
  }
}

=== FILE: fw_node.dfy ===
/**
 The entry points of the composed BCube strategy: an Interest (or a NACK)
 and a Data packet arriving at a node. Each call sees the PIT entry the
 lookup finds for the packet's name (if any), the FIB entry it points at,
 and the per-face limiters; whether the PIT can create an entry, what the
 content store holds for the name, and the clock are inputs.
 */
module FwNode {
  import opened Common
  import opened FaceMetrics
  import opened FibEntry
  import opened Pit
  import opened FwBase
  import opened FwLimits
  import opened FwNacks
  import opened FwBestCC
  import Limits

  /** Every face of the FIB entry, and every outgoing face of the PIT entry
      (if any), has a limiter. */
  predicate Wired(n: Node)
  {
    (forall i :: 0 <= i < |n.fib.faces| ==> n.fib.faces[i].face in n.limits) &&
    (n.pit.Some? ==> forall i :: 0 <= i < |n.pit.value.outgoing| ==> n.pit.value.outgoing[i].face in n.limits)
  }

  /** Whether the arrival face was already incoming before this Interest,
      asked only when retransmission detection is on. */
  function IsRetransmission(env: Env, p: PitEntry, inFace: Face): (b: bool)
    ensures b <==> env.detectRetx && IsIncoming(p, inFace)
  {
    env.detectRetx && DetectRetransmitted(p, inFace)
  }

  /** Recording the arrival face keeps the state sound and attached. */
  lemma ArrivalStaysAttached(s: State, inFace: Face, port: Port)
    requires Sound(s) && Attached(s)
    ensures Sound(s.(pit := AddIncoming(s.pit, inFace, port)))
    ensures Attached(s.(pit := AddIncoming(s.pit, inFace, port)))
  {
  }

  /** One propagation attempt and, when it fails on a retransmission, a
      second one after allowing one more retransmission per face. At most
      one Interest leaves, only on success; in the corrected order success
      always sends it. */
  function Attempts(env: Env, s: State, inFace: Face, pkt: Interest, now: real, retx: bool): (r: Outcome<Step>)
    requires Sound(s) && Attached(s)
    ensures r.Ok? ==> Sound(r.value.st) && Attached(r.value.st) && r.value.st.limits.Keys == s.limits.Keys
    ensures r.Ok? ==> r.value.st.pit.incoming == s.pit.incoming && r.value.st.pit.nonces == s.pit.nonces
    ensures r.Ok? ==> |r.value.out| <= 1 && (!r.value.ok ==> r.value.out == [])
    ensures r.Ok? && env.corrected ==> (r.value.ok <==> |r.value.out| == 1)
    ensures r.Ok? && |r.value.out| == 1 ==>
      r.value.ok && r.value.out[0].InterestOut? && r.value.out[0].face != inFace &&
      IsOutgoing(r.value.st.pit, r.value.out[0].face)
  {
    match Forward(env, s, inFace, pkt, now)
    case Fatal(m) => Fatal(m)
    case Ok(t) =>
      if t.ok || !retx then Ok(t)
      else
        var s2 := t.st.(pit := IncreaseAllowedRetxCount(t.st.pit));
        assert s2.pit.outgoing == t.st.pit.outgoing && s2.pit.incoming == t.st.pit.incoming;
        assert Sound(s2) && Attached(s2);
        Forward(env, s2, inFace, pkt, now)
  }

  /** Propagation of a new Interest: the arrival face becomes incoming
      (with the port the tag names), the strategy tries to send it on, once
      more after a failed retransmission, and when nothing went out and no
      outgoing face is still waiting the entry is exhausted. */
  function Propagate(env: Env, s: State, inFace: Face, pkt: Interest, now: real): (r: Outcome<Step>)
    requires Sound(s) && Attached(s)
    ensures var s1 := s.(pit := AddIncoming(s.pit, inFace, LocalPort(pkt)));
      var a := Attempts(env, s1, inFace, pkt, now, IsRetransmission(env, s.pit, inFace));
      (a.Fatal? ==> r.Fatal?) &&
      (a.Ok? && (a.value.ok || !AllOutgoingInVain(a.value.st.pit)) ==> r == a) &&
      (a.Ok? && !a.value.ok && AllOutgoingInVain(a.value.st.pit) ==>
        (r.Fatal? <==> Exhaust(env, a.value.st, inFace).Fatal?) &&
        (r.Ok? ==> r.value.st.pit.erased && !r.value.ok))
    ensures r.Ok? ==> Sound(r.value.st) && r.value.st.limits.Keys == s.limits.Keys
    ensures r.Ok? && r.value.ok ==> |r.value.out| <= 1 && IsIncoming(r.value.st.pit, inFace)
    ensures r.Ok? && r.value.ok && |r.value.out| == 1 ==>
      r.value.out[0].InterestOut? && r.value.out[0].face != inFace && IsOutgoing(r.value.st.pit, r.value.out[0].face)
    ensures r.Ok? && r.value.ok && env.corrected ==> |r.value.out| == 1
  {
    var s1 := s.(pit := AddIncoming(s.pit, inFace, LocalPort(pkt)));
    ArrivalStaysAttached(s, inFace, LocalPort(pkt));
    var retx := IsRetransmission(env, s.pit, inFace);
    match Attempts(env, s1, inFace, pkt, now, retx)
    case Fatal(m) => Fatal(m)
    case Ok(a) =>
      assert IsIncoming(a.st.pit, inFace) by {
        assert a.st.pit.incoming == s1.pit.incoming;
      }
      if a.ok || !AllOutgoingInVain(a.st.pit) then Ok(a)
      else
        match Exhaust(env, a.st, inFace)
        case Fatal(m) => Fatal(m)
        case Ok(e) =>
          ExhaustSendsOnlyNacks(env, a.st, inFace);
          assert a.out == [];
          Ok(Step(e.st, a.out + e.out, false))
  }

  /** A step that sent at most one Interest and only on success (as an
      attempt does), or failed having sent only NACKs (as an exhaustion
      does): each packet it sent is an Interest exactly when it reports
      success. */
  lemma StepShape(r: Step)
    requires (|r.out| <= 1 && (!r.ok ==> r.out == []) && (|r.out| == 1 ==> r.ok && r.out[0].InterestOut?)) ||
      (!r.ok && NacksOnly(r.out))
    ensures forall k :: 0 <= k < |r.out| ==> (r.out[k].InterestOut? <==> r.ok)
    ensures !r.ok ==> NacksOnly(r.out)
  {
  }

  /** Every packet a successful propagation sends is an Interest; a
      failed propagation sends at most the NACKs of the exhaustion. */
  lemma PropagatePacketsMatchOutcome(env: Env, s: State, inFace: Face, pkt: Interest, now: real)
    requires Sound(s) && Attached(s) && Propagate(env, s, inFace, pkt, now).Ok?
    ensures var r := Propagate(env, s, inFace, pkt, now).value;
      forall k :: 0 <= k < |r.out| ==> (r.out[k].InterestOut? <==> r.ok)
    ensures var r := Propagate(env, s, inFace, pkt, now).value;
      !r.ok ==> NacksOnly(r.out)
  {
    var s1 := s.(pit := AddIncoming(s.pit, inFace, LocalPort(pkt)));
    ArrivalStaysAttached(s, inFace, LocalPort(pkt));
    var a := Attempts(env, s1, inFace, pkt, now, IsRetransmission(env, s.pit, inFace)).value;
    if !a.ok && AllOutgoingInVain(a.st.pit) {
      ExhaustedPropagation(env, s, inFace, pkt, now);
    }
    StepShape(Propagate(env, s, inFace, pkt, now).value);
  }

  /** A propagation that ends in exhaustion fails and sends only the
      exhaustion's NACKs. */
  lemma ExhaustedPropagation(env: Env, s: State, inFace: Face, pkt: Interest, now: real)
    requires Sound(s) && Attached(s) && Propagate(env, s, inFace, pkt, now).Ok?
    requires var s1 := s.(pit := AddIncoming(s.pit, inFace, LocalPort(pkt)));
      var a := Attempts(env, s1, inFace, pkt, now, IsRetransmission(env, s.pit, inFace));
      a.Ok? && !a.value.ok && AllOutgoingInVain(a.value.st.pit)
    ensures var r := Propagate(env, s, inFace, pkt, now).value;
      !r.ok && NacksOnly(r.out)
  {
    var s1 := s.(pit := AddIncoming(s.pit, inFace, LocalPort(pkt)));
    ArrivalStaysAttached(s, inFace, LocalPort(pkt));
    var a := Attempts(env, s1, inFace, pkt, now, IsRetransmission(env, s.pit, inFace)).value;
    ExhaustSendsOnlyNacks(env, a.st, inFace);
    assert Propagate(env, s, inFace, pkt, now).value.out == Exhaust(env, a.st, inFace).value.out;
  }

  /** A failed propagation allows one more retransmission exactly when the
      Interest's face was already incoming and retransmission detection is
      on; a first Interest from a face never raises the allowance. */
  lemma RetryOnlyOnRetransmission(env: Env, s: State, inFace: Face, pkt: Interest, now: real)
    requires Sound(s) && Attached(s) && Propagate(env, s, inFace, pkt, now).Ok?
    ensures var r := Propagate(env, s, inFace, pkt, now).value;
      !IsRetransmission(env, s.pit, inFace) ==> r.st.pit.maxRetx == s.pit.maxRetx
    ensures var r := Propagate(env, s, inFace, pkt, now).value;
      r.st.pit.maxRetx == s.pit.maxRetx + 1 ==> IsRetransmission(env, s.pit, inFace)
  {
    var s1 := s.(pit := AddIncoming(s.pit, inFace, LocalPort(pkt)));
    ArrivalStaysAttached(s, inFace, LocalPort(pkt));
    var retx := IsRetransmission(env, s.pit, inFace);
    var a := Attempts(env, s1, inFace, pkt, now, retx);
    assert s1.pit.maxRetx == s.pit.maxRetx;
    if !a.value.ok && AllOutgoingInVain(a.value.st.pit) {
      assert Exhaust(env, a.value.st, inFace).Ok?;
    }
  }

  /** A content-store hit: the arrival face becomes incoming and the entry
      is satisfied at once, with no arrival face for the RTT measurement or
      the satisfaction, so every incoming face (this one included) gets the
      Data. */
  function Serve(s: State, inFace: Face, pkt: Interest, data: Data, now: real): (r: Outcome<Step>)
    requires Sound(s)
    ensures r.Ok? ==> Sound(r.value.st) && r.value.st.limits.Keys == s.limits.Keys
    ensures r.Ok? ==> var p := r.value.st.pit;
      p.erased && p.incoming == [] && p.outgoing == [] && p.nonces == s.pit.nonces
    ensures r.Ok? ==> var q := AddIncoming(s.pit, inFace, LocalPort(pkt)).incoming;
      |r.value.out| == |q| &&
      forall i :: 0 <= i < |q| ==> r.value.out[i] == DataOut(q[i].face, ReplyTag(data, q[i].localport))
    ensures r.Ok? ==> r.value.st.fib == s.fib
  {
    var s2 := s.(pit := AddIncoming(s.pit, inFace, LocalPort(pkt)));
    match WillSatisfy(s2, None, now)
    case Fatal(m) => Fatal(m)
    case Ok(s3) => Satisfy(s3, None, data)
  }

  /** The Interest handler of the composed strategy (the base
      `OnInterest`; `Nacks` hands NACKs elsewhere):
      - without a PIT entry, one is created when the table can create one,
        and the Interest is dropped otherwise;
      - a nonce already seen makes the Interest a duplicate;
      - otherwise the nonce is remembered, and a content-store hit makes
        the arrival face incoming and satisfies the entry at once (no
        arrival face for the RTT measurement or the satisfaction), while a
        miss propagates the Interest. */
  function OnInterest(env: Env, n: Node, canCreate: bool, hit: Option<Data>, inFace: Face, pkt: Interest, now: real): (r: Outcome<Visit>)
    requires Healthy(n) && Wired(n)
    ensures n.pit.None? && !canCreate ==> r == Ok(Visit(n, []))
    ensures r.Ok? ==> Healthy(r.value.node) && r.value.node.limits.Keys == n.limits.Keys
    ensures r.Ok? && (n.pit.Some? || canCreate) ==> r.value.node.pit.Some?
    ensures n.pit.Some? && pkt.nonce in n.pit.value.nonces ==>
      r.Ok? && r.value.node == n.(pit := Some(BaseDuplicate(n.pit.value, inFace, pkt))) &&
      |r.value.out| == (if env.nacksEnabled then 1 else 0) &&
      forall k :: 0 <= k < |r.value.out| ==> r.value.out[k] == NackOut(inFace, NACK_LOOP, pkt.intraSharing, None)
    ensures r.Ok? && (n.pit.Some? || canCreate) && !(n.pit.Some? && pkt.nonce in n.pit.value.nonces) ==>
      pkt.nonce in r.value.node.pit.value.nonces
    ensures r.Ok? && (n.pit.Some? || canCreate) && !(n.pit.Some? && pkt.nonce in n.pit.value.nonces) && hit.Some? ==>
      r.value.node.pit.value.erased && (forall k :: 0 <= k < |r.value.out| ==> r.value.out[k].DataOut?)
    ensures (n.pit.Some? || canCreate) && !(n.pit.Some? && pkt.nonce in n.pit.value.nonces) && hit.None? ==>
      var s := Enter(n.(pit := Some(AddSeenNonce(if n.pit.Some? then n.pit.value else NewPitEntry(), pkt.nonce))));
      (r.Fatal? <==> Propagate(env, s, inFace, pkt, now).Fatal?) &&
      (r.Ok? ==> r.value == Visit(Leave(Propagate(env, s, inFace, pkt, now).value.st), Propagate(env, s, inFace, pkt, now).value.out))
  {
    if n.pit.None? && !canCreate then Ok(Visit(n, []))
    else
      var p := if n.pit.Some? then n.pit.value else NewPitEntry();
      var s := State(p, n.fib, n.limits);
      if pkt.nonce in p.nonces then
        var d := Duplicate(env, s, inFace, pkt);
        Ok(Visit(Leave(d.st), d.out))
      else
        var s1 := s.(pit := AddSeenNonce(p, pkt.nonce));
        var t := if hit.Some? then Serve(s1, inFace, pkt, hit.value, now) else Propagate(env, s1, inFace, pkt, now);
        match t
        case Fatal(m) => Fatal(m)
        case Ok(t) => Ok(Visit(Leave(t.st), t.out))
  }

  /** The strategy's entry point for an Interest packet: a non-zero NACK
      code makes it a NACK for the BCube NACK handler, anything else is an
      Interest. */
  function Dispatch(env: Env, n: Node, canCreate: bool, hit: Option<Data>, inFace: Face, pkt: Interest, now: real): (r: Outcome<Visit>)
    requires Healthy(n) && Wired(n)
    ensures pkt.nack > 0 ==> r == OnNack(env, n, inFace, pkt)
    ensures pkt.nack == 0 ==> r == OnInterest(env, n, canCreate, hit, inFace, pkt, now)
    ensures r.Ok? ==> Healthy(r.value.node) && r.value.node.limits.Keys == n.limits.Keys
    ensures pkt.nack > 0 ==> r.Ok? ==> r.value.node.pit.Some? == n.pit.Some?
  {
    if pkt.nack > 0 then OnNack(env, n, inFace, pkt) else OnInterest(env, n, canCreate, hit, inFace, pkt, now)
  }

  /** No incoming face of the entry is a face of the FIB entry: only then
      does the Data's face count the Data (and its congestion mark). */
  predicate CountsData(p: PitEntry, fib: Entry)
  {
    forall i :: 0 <= i < |p.incoming| ==> !HasFace(fib, p.incoming[i].face)
  }

  /** The FIB counters a solicited Data moves: the entry's Data count, and,
      when no incoming face is a FIB face, the Data-in count of the arrival
      face and its congestion count for a Data marked 1. The arrival face
      must then have a FIB record. */
  function CountData(p: PitEntry, fib: Entry, inFace: Face, d: Data): (r: Outcome<Entry>)
    requires FibEntry.Valid(fib)
    ensures r.Fatal? <==> CountsData(p, fib) && !HasFace(fib, inFace)
    ensures r.Ok? ==> FibEntry.Valid(r.value) && r.value.data == fib.data + 1 && r.value.inited == fib.inited
    ensures r.Ok? ==> forall g :: g != inFace ==> Find(r.value, g) == Find(fib, g)
    ensures r.Ok? && !CountsData(p, fib) ==> r.value.faces == fib.faces
    ensures r.Ok? && CountsData(p, fib) ==>
      var m := Find(fib, inFace).value;
      Find(r.value, inFace) == Some(if d.ce == 1 then IncreaseDataCE(IncreaseDataIn(m)) else IncreaseDataIn(m))
  {
    var e := IncreaseData(fib);
    assert forall g :: Find(e, g) == Find(fib, g) by {
      assert e.faces == fib.faces;
    }
    if !CountsData(p, fib) then Ok(e)
    else if !HasFace(fib, inFace) then Fatal("no FIB record for the Data's face")
    else
      var e1 := Bump(e, inFace, DataInCount);
      Ok(if d.ce == 1 then Bump(e1, inFace, DataCeCount) else e1)
  }

  /** The Data handler: Data without a PIT entry is dropped (the model has
      no content store to cache it in); otherwise the FIB counters move, the
      RTT of the arrival face is measured, the tokens go back, and the entry
      is satisfied: every other incoming face gets one copy. */
  function OnData(env: Env, n: Node, inFace: Face, d: Data, now: real): (r: Outcome<Visit>)
    requires Healthy(n) && Wired(n)
    ensures n.pit.None? ==> r == Ok(Visit(n, []))
    ensures n.pit.Some? && CountsData(n.pit.value, n.fib) && !HasFace(n.fib, inFace) ==> r.Fatal?
    ensures r.Ok? ==> Healthy(r.value.node) && r.value.node.limits == n.limits
    ensures r.Ok? && n.pit.Some? ==> r.value.node.pit.Some? && var p := r.value.node.pit.value;
      p.erased && p.incoming == [] && p.outgoing == [] && r.value.node.fib.data == n.fib.data + 1
    ensures r.Ok? && n.pit.Some? ==> var out := r.value.out;
      (forall i :: 0 <= i < |out| ==> out[i].DataOut?) &&
      (forall g :: (exists i :: 0 <= i < |out| && out[i].DataOut? && out[i].face == g) <==> IsIncoming(n.pit.value, g) && g != inFace) &&
      (forall i, j :: 0 <= i < j < |out| && out[i].DataOut? && out[j].DataOut? ==> out[i].face != out[j].face)
  {
    match n.pit
    case None => Ok(Visit(n, []))
    case Some(p) =>
      match CountData(p, n.fib, inFace, d)
      case Fatal(m) => Fatal(m)
      case Ok(fib) =>
        var s := State(p, fib, n.limits);
        match WillSatisfy(s, Some(inFace), now)
        case Fatal(m) => Fatal(m)
        case Ok(s1) =>
          ReturnsKeepBuckets(s, Some(inFace), now);
          match Satisfy(s1, Some(inFace), d)
          case Fatal(m) => Fatal(m)
          case Ok(t) =>
            SatisfyReachesEachWaitingFaceOnce(s1, Some(inFace), d);
            Ok(Visit(Leave(t.st), t.out))
  }
}

=== FILE: l2.dfy ===
/**
 The BCube switch (`L2Protocol`). Every port of a switch is a pair of faces
 over one device: the upload face (server to switch) and the download face
 (switch to server). Pair i gets face IDs 2i and 2i+1. The switch keeps no
 table: it forwards every packet to the port named by the next-hop digit of
 the packet's BCube tag.

 Face objects are shared pointers whose ID is a field set by `SetId`; the
 model keeps them as handles (0 is the null pointer) and the IDs in a map
 from handle to ID, so that a face object registered twice carries the ID
 it was given last, as in the program.
 */
module L2 {
  import opened Common
  import opened BCubeTag

  /** A face pointer; 0 is null. */
  type Handle = nat

  const NULL: Handle := 0

  datatype Switch = Switch(uploads: seq<Handle>, downloads: seq<Handle>, ids: map<Handle, nat>, counter: nat)

  /** A switch with no face. */
  function Empty(): (l: Switch)
    ensures l.uploads == [] && l.downloads == [] && l.counter == 0
  {
    Switch([], [], map[], 0)
  }

  /** The shape every switch keeps: one download face per upload face and
      two IDs handed out per pair. */
  predicate Paired(l: Switch)
  {
    |l.uploads| == |l.downloads| && l.counter == 2 * |l.uploads|
  }

  /** Face object `h` currently carries ID `id`. */
  predicate HasId(l: Switch, h: Handle, id: nat)
  {
    h in l.ids && l.ids[h] == id
  }

  /** The numbering a switch has when every registered face object is a
      distinct non-null pointer: pair i is (2i, 2i+1). */
  predicate Numbered(l: Switch)
  {
    Paired(l) &&
    (forall i :: 0 <= i < |l.uploads| ==> l.uploads[i] != NULL && HasId(l, l.uploads[i], 2 * i)) &&
    (forall i :: 0 <= i < |l.downloads| ==> l.downloads[i] != NULL && HasId(l, l.downloads[i], 2 * i + 1))
  }

  /** Registers one port. Both faces must be non-null and distinct; the
      upload face takes the next ID, the download face the one after, and
      the download face's ID is returned. */
  function AddFace(l: Switch, up: Handle, down: Handle): (r: Outcome<(Switch, nat)>)
    ensures r.Fatal? <==> up == NULL || down == NULL || up == down
    ensures r.Ok? ==> var (l', id) := r.value;
      l'.uploads == l.uploads + [up] && l'.downloads == l.downloads + [down] &&
      l'.counter == l.counter + 2 && id == l.counter + 1 &&
      HasId(l', up, l.counter) && HasId(l', down, l.counter + 1) &&
      forall h :: h != up && h != down ==> (h in l'.ids <==> h in l.ids) && (h in l.ids ==> l'.ids[h] == l.ids[h])
    ensures r.Ok? && Paired(l) ==> Paired(r.value.0) && r.value.1 % 2 == 1
  {
    if up == NULL || down == NULL || up == down then Fatal("AddFace: null or identical faces")
    else
      var l' := Switch(l.uploads + [up], l.downloads + [down], l.ids[up := l.counter][down := l.counter + 1], l.counter + 2);
      Ok((l', l.counter + 1))
  }

  /** A handle registered on the switch. */
  predicate Registered(l: Switch, h: Handle)
  {
    h in l.uploads || h in l.downloads
  }

  /** Registering two fresh, distinct, non-null faces keeps the numbering. */
  lemma AddFaceKeepsNumbering(l: Switch, up: Handle, down: Handle)
    requires Numbered(l)
    requires up != NULL && down != NULL && up != down
    requires !Registered(l, up) && !Registered(l, down)
    ensures AddFace(l, up, down).Ok?
    ensures Numbered(AddFace(l, up, down).value.0)
  {
    var l' := AddFace(l, up, down).value.0;
    var n := |l.uploads|;
    forall i | 0 <= i < |l'.uploads|
      ensures l'.uploads[i] != NULL && HasId(l', l'.uploads[i], 2 * i)
    {
      if i < n {
        assert l'.uploads[i] == l.uploads[i];
        assert l.uploads[i] in l.uploads;
      }
    }
    forall i | 0 <= i < |l'.downloads|
      ensures l'.downloads[i] != NULL && HasId(l', l'.downloads[i], 2 * i + 1)
    {
      if i < n {
        assert l'.downloads[i] == l.downloads[i];
        assert l.downloads[i] in l.downloads;
      }
    }
  }

  /** The faces of a sequence of ports, all distinct and non-null. */
  predicate FreshPorts(ports: seq<(Handle, Handle)>)
  {
    (forall i :: 0 <= i < |ports| ==> ports[i].0 != NULL && ports[i].1 != NULL && ports[i].0 != ports[i].1) &&
    (forall i, j :: 0 <= i < j < |ports| ==>
      ports[i].0 != ports[j].0 && ports[i].0 != ports[j].1 && ports[i].1 != ports[j].0 && ports[i].1 != ports[j].1)
  }

  /** Registering the ports one after another on an empty switch, as the
      switch stack helper does for the devices of a node. */
  function Wire(ports: seq<(Handle, Handle)>): (r: Outcome<Switch>)
    decreases |ports|
  {
    if |ports| == 0 then Ok(Empty())
    else
      match Wire(ports[..|ports| - 1])
      case Fatal(why) => Fatal(why)
      case Ok(l) =>
        var last := ports[|ports| - 1];
        match AddFace(l, last.0, last.1)
        case Fatal(why) => Fatal(why)
        case Ok(res) => Ok(res.0)
  }

  /** The switch lists exactly the given ports, in order. */
  predicate Lists(l: Switch, ports: seq<(Handle, Handle)>)
  {
    |l.uploads| == |ports| && |l.downloads| == |ports| &&
    forall i :: 0 <= i < |ports| ==> l.uploads[i] == ports[i].0 && l.downloads[i] == ports[i].1
  }

  /** After registering p fresh ports, upload face i has ID 2i, download
      face i has ID 2i+1, and the counter is 2p. */
  lemma {:induction false} WireNumbers(ports: seq<(Handle, Handle)>)
    requires FreshPorts(ports)
    ensures Wire(ports).Ok?
    ensures var l := Wire(ports).value;
      Numbered(l) && |l.uploads| == |ports| && l.counter == 2 * |ports| &&
      forall i :: 0 <= i < |ports| ==> l.uploads[i] == ports[i].0 && l.downloads[i] == ports[i].1
    decreases |ports|
  {
    if |ports| > 0 {
      var init := ports[..|ports| - 1];
      FreshInit(ports);
      WireNumbers(init);
      var l := Wire(init).value;
      var last := ports[|ports| - 1];
      assert Lists(l, init);
      LastUnregistered(l, ports);
      AddFaceKeepsNumbering(l, last.0, last.1);
      ListsExtend(l, ports);
    }
  }

  lemma FreshInit(ports: seq<(Handle, Handle)>)
    requires FreshPorts(ports) && |ports| > 0
    ensures FreshPorts(ports[..|ports| - 1])
  {
    var init := ports[..|ports| - 1];
    forall i, j | 0 <= i < j < |init|
      ensures init[i].0 != init[j].0 && init[i].0 != init[j].1 && init[i].1 != init[j].0 && init[i].1 != init[j].1
    {
      assert init[i] == ports[i] && init[j] == ports[j];
    }
  }

  lemma LastUnregistered(l: Switch, ports: seq<(Handle, Handle)>)
    requires FreshPorts(ports) && |ports| > 0 && Lists(l, ports[..|ports| - 1])
    ensures var last := ports[|ports| - 1]; !Registered(l, last.0) && !Registered(l, last.1)
  {
    var last := ports[|ports| - 1];
    forall h | h in l.uploads || h in l.downloads
      ensures h != last.0 && h != last.1
    {
      if h in l.uploads {
        var i :| 0 <= i < |l.uploads| && l.uploads[i] == h;
        assert h == ports[i].0;
      } else {
        var i :| 0 <= i < |l.downloads| && l.downloads[i] == h;
        assert h == ports[i].1;
      }
    }
  }

  lemma ListsExtend(l: Switch, ports: seq<(Handle, Handle)>)
    requires |ports| > 0 && Lists(l, ports[..|ports| - 1])
    requires AddFace(l, ports[|ports| - 1].0, ports[|ports| - 1].1).Ok?
    ensures Lists(AddFace(l, ports[|ports| - 1].0, ports[|ports| - 1].1).value.0, ports)
  {
  }

  /** `GetNFaces`: both halves of every port. */
  function FaceCount(l: Switch): (n: nat)
    ensures Paired(l) ==> n % 2 == 0 && n == l.counter
  {
    |l.uploads| + |l.downloads|
  }

  // ---------------------------------------------------------------------
  // Lookup by index
  // ---------------------------------------------------------------------

  /** `GetUploadFace` as written: the index must be even and below the
      number of upload faces. */
  function UploadAtAsWritten(l: Switch, index: nat): (r: Outcome<Handle>)
    ensures r.Ok? <==> index < |l.uploads| && index % 2 == 0
    ensures r.Ok? ==> r.value == l.uploads[index / 2]
  {
    if index < |l.uploads| && index % 2 == 0 then Ok(l.uploads[index / 2]) else Fatal("GetUploadFace: bad index")
  }

  /** `GetDownloadFace` as written: the index must be odd and below the
      number of download faces. */
  function DownloadAtAsWritten(l: Switch, index: nat): (r: Outcome<Handle>)
    ensures r.Ok? <==> index < |l.downloads| && index % 2 == 1
    ensures r.Ok? ==> r.value == l.downloads[index / 2]
  {
    if index < |l.downloads| && index % 2 == 1 then Ok(l.downloads[index / 2]) else Fatal("GetDownloadFace: bad index")
  }

  /** The lookups as written reject a face ID the switch handed out: on a
      switch with one port, download face ID 1; with two ports, upload face
      ID 2. The parameter is documented as a position in the face list, but
      the body reads it as a face ID. */
  lemma AsWrittenRejectsIssuedIds(ports: seq<(Handle, Handle)>)
    requires FreshPorts(ports) && |ports| >= 1
    ensures Wire(ports).Ok? && var l := Wire(ports).value;
      |l.uploads| == |l.downloads| == |ports| &&
      DownloadAtAsWritten(l, 2 * |ports| - 1).Fatal? &&
      (|ports| >= 2 ==> UploadAtAsWritten(l, 2 * |ports| - 2).Fatal?)
    ensures Wire(ports).Ok? && var l := Wire(ports).value;
      |l.uploads| == |l.downloads| == |ports| &&
      HasId(l, l.downloads[|ports| - 1], 2 * |ports| - 1) &&
      HasId(l, l.uploads[|ports| - 1], 2 * |ports| - 2)
  {
    WireNumbers(ports);
  }

  /** `GetUploadFace` as intended: the index is a face ID, so its half
      must be a position of the upload list. */
  function UploadAt(l: Switch, index: nat): (r: Outcome<Handle>)
    ensures r.Ok? <==> index / 2 < |l.uploads| && index % 2 == 0
    ensures r.Ok? ==> r.value in l.uploads
  {
    if index / 2 < |l.uploads| && index % 2 == 0 then Ok(l.uploads[index / 2]) else Fatal("GetUploadFace: bad index")
  }

  /** `GetDownloadFace` as intended. */
  function DownloadAt(l: Switch, index: nat): (r: Outcome<Handle>)
    ensures r.Ok? <==> index / 2 < |l.downloads| && index % 2 == 1
    ensures r.Ok? ==> r.value in l.downloads
  {
    if index / 2 < |l.downloads| && index % 2 == 1 then Ok(l.downloads[index / 2]) else Fatal("GetDownloadFace: bad index")
  }

  /** On a numbered switch the corrected lookups accept exactly the IDs the
      switch issued and return the face carrying that ID. */
  lemma LookupFindsIssuedId(l: Switch, index: nat)
    requires Numbered(l)
    ensures UploadAt(l, index).Ok? <==> index < l.counter && index % 2 == 0
    ensures DownloadAt(l, index).Ok? <==> index < l.counter && index % 2 == 1
    ensures UploadAt(l, index).Ok? ==> HasId(l, UploadAt(l, index).value, index)
    ensures DownloadAt(l, index).Ok? ==> HasId(l, DownloadAt(l, index).value, index)
  {
    if index % 2 == 0 {
      assert index == 2 * (index / 2);
    } else {
      assert index == 2 * (index / 2) + 1;
    }
  }

  // ---------------------------------------------------------------------
  // Lookup by ID
  // ---------------------------------------------------------------------

  /** The first face of `fs` that carries `id`. */
  function FirstWithId(l: Switch, fs: seq<Handle>, id: nat): (r: Option<Handle>)
    ensures r.Some? ==> r.value in fs && HasId(l, r.value, id)
    ensures r.None? <==> forall i :: 0 <= i < |fs| ==> !HasId(l, fs[i], id)
    ensures r.Some? ==> exists k :: 0 <= k < |fs| && fs[k] == r.value && forall i :: 0 <= i < k ==> !HasId(l, fs[i], id)
    decreases |fs|
  {
    if |fs| == 0 then None
    else if HasId(l, fs[0], id) then
      assert fs[0] == fs[0];
      Some(fs[0])
    else
      var rest := FirstWithId(l, fs[1..], id);
      assert forall i :: 1 <= i < |fs| ==> fs[i] == fs[1..][i - 1];
      if rest.Some? then
        var k :| 0 <= k < |fs[1..]| && fs[1..][k] == rest.value && forall i :: 0 <= i < k ==> !HasId(l, fs[1..][i], id);
        assert fs[k + 1] == rest.value;
        rest
      else rest
  }

  /** `GetFaceById`: the upload faces are searched first, then the download
      faces; null when no face carries the ID. */
  function FaceById(l: Switch, id: nat): (r: Option<Handle>)
    ensures r.Some? ==> Registered(l, r.value) && HasId(l, r.value, id)
    ensures r.None? <==>
      (forall i :: 0 <= i < |l.uploads| ==> !HasId(l, l.uploads[i], id)) &&
      (forall i :: 0 <= i < |l.downloads| ==> !HasId(l, l.downloads[i], id))
    ensures (exists i :: 0 <= i < |l.uploads| && HasId(l, l.uploads[i], id)) ==> r == FirstWithId(l, l.uploads, id)
  {
    var u := FirstWithId(l, l.uploads, id);
    if u.Some? then u else FirstWithId(l, l.downloads, id)
  }

  /** A list whose face i carries the ID 2i+off holds exactly the IDs of
      that parity below twice its length, the ID's own face first. */
  lemma ListIds(l: Switch, fs: seq<Handle>, id: nat, off: nat)
    requires off < 2 && forall i :: 0 <= i < |fs| ==> HasId(l, fs[i], 2 * i + off)
    ensures id < 2 * |fs| && id % 2 == off ==> FirstWithId(l, fs, id) == Some(fs[id / 2])
    ensures !(id < 2 * |fs| && id % 2 == off) ==> FirstWithId(l, fs, id).None?
  {
    if id < 2 * |fs| && id % 2 == off {
      assert HasId(l, fs[id / 2], id);
    }
    var r := FirstWithId(l, fs, id);
    if r.Some? {
      var j :| 0 <= j < |fs| && fs[j] == r.value && forall i :: 0 <= i < j ==> !HasId(l, fs[i], id);
      assert HasId(l, fs[j], 2 * j + off);
    }
  }

  /** On a numbered switch the upload faces carry exactly the even IDs
      below the counter, upload face i the ID 2i. */
  lemma UploadIds(l: Switch, id: nat)
    requires Numbered(l)
    ensures id < l.counter && id % 2 == 0 ==> FirstWithId(l, l.uploads, id) == Some(l.uploads[id / 2])
    ensures !(id < l.counter && id % 2 == 0) ==> FirstWithId(l, l.uploads, id).None?
  {
    assert forall i :: 0 <= i < |l.uploads| ==> HasId(l, l.uploads[i], 2 * i + 0);
    ListIds(l, l.uploads, id, 0);
  }

  /** On a numbered switch the download faces carry exactly the odd IDs
      below the counter, download face i the ID 2i+1. */
  lemma DownloadIds(l: Switch, id: nat)
    requires Numbered(l)
    ensures id < l.counter && id % 2 == 1 ==> FirstWithId(l, l.downloads, id) == Some(l.downloads[id / 2])
    ensures !(id < l.counter && id % 2 == 1) ==> FirstWithId(l, l.downloads, id).None?
  {
    ListIds(l, l.downloads, id, 1);
  }

  /** On a numbered switch an ID names exactly one face: even IDs the
      upload face of their pair, odd IDs the download face, and no face for
      an ID never issued. */
  lemma FaceByIdOnNumbered(l: Switch, id: nat)
    requires Numbered(l)
    ensures id >= l.counter ==> FaceById(l, id).None?
    ensures id < l.counter && id % 2 == 0 ==> FaceById(l, id) == Some(l.uploads[id / 2])
    ensures id < l.counter && id % 2 == 1 ==> FaceById(l, id) == Some(l.downloads[id / 2])
  {
    UploadIds(l, id);
    DownloadIds(l, id);
  }

  // ---------------------------------------------------------------------
  // Forwarding
  // ---------------------------------------------------------------------

  /** What arrives on a switch face, by header type. */
  datatype Kind = NormalInterest | NackInterest | ContentObject | CcnbPacket

  /** The receive callback for a packet of kind `kind` with `payload` bytes
      after its header, arriving on face `face` (up or not) with BCube tag
      `tag` (the default tag when the packet carries none). The result is
      the face the packet is sent on, if any:
      - on a face that is down nothing happens;
      - a normal Interest goes down to the download face named by the tag,
        and only when it arrived on an upload face;
      - a NACK goes up to the upload face named by the tag;
      - Data goes up to the upload face named by the tag, unless it arrived
        on a download face;
      - an Interest with a payload, a hop beyond the ports, or a ccnb
        packet stops the node. */
  function Receive(l: Switch, face: Handle, isUp: bool, kind: Kind, payload: nat, tag: Tag): (r: Outcome<Option<Handle>>)
    ensures r == Ok(None) <==>
      !isUp || (kind.NormalInterest? && payload == 0 && face !in l.uploads) || (kind.ContentObject? && face in l.downloads)
    ensures r.Fatal? <==> (isUp &&
      (kind.CcnbPacket? ||
       ((kind.NormalInterest? || kind.NackInterest?) && payload != 0) ||
       (kind.NormalInterest? && payload == 0 && face in l.uploads && GetNextHop(tag) >= |l.downloads|) ||
       (kind.NackInterest? && payload == 0 && GetNextHop(tag) >= |l.uploads|) ||
       (kind.ContentObject? && face !in l.downloads && GetNextHop(tag) >= |l.uploads|)))
  {
    if !isUp then Ok(None)
    else
      var hop := GetNextHop(tag);
      match kind
      case NormalInterest =>
        if payload != 0 then Fatal("Interest with payload")
        else if face !in l.uploads then Ok(None)
        else if hop != UINT32_MAX && hop < |l.downloads| then Ok(Some(l.downloads[hop]))
        else Fatal("Interest hop beyond the ports")
      case NackInterest =>
        if payload != 0 then Fatal("Interest with payload")
        else if hop != UINT32_MAX && hop < |l.uploads| then Ok(Some(l.uploads[hop]))
        else Fatal("NACK hop beyond the ports")
      case ContentObject =>
        if face in l.downloads then Ok(None)
        else if hop != UINT32_MAX && hop < |l.uploads| then Ok(Some(l.uploads[hop]))
        else Fatal("Data hop beyond the ports")
      case CcnbPacket => Fatal("ccnb support is broken")
  }

  /** On a numbered switch a forwarded packet leaves on the face whose ID
      the tag's hop digit names: Interests on download face 2·hop+1, NACKs
      and Data on upload face 2·hop. A sent packet never goes back up the
      face it came from when that face is a download face. */
  lemma ReceiveFollowsTag(l: Switch, face: Handle, isUp: bool, kind: Kind, payload: nat, tag: Tag)
    requires Numbered(l)
    requires Receive(l, face, isUp, kind, payload, tag).Ok? && Receive(l, face, isUp, kind, payload, tag).value.Some?
    ensures var out := Receive(l, face, isUp, kind, payload, tag).value.value;
      var hop := GetNextHop(tag);
      isUp && !kind.CcnbPacket? &&
      (kind.NormalInterest? ==> face in l.uploads && HasId(l, out, 2 * hop + 1) && FaceById(l, 2 * hop + 1) == Some(out)) &&
      (!kind.NormalInterest? ==> HasId(l, out, 2 * hop) && FaceById(l, 2 * hop) == Some(out))
  {
    var hop := GetNextHop(tag);
    var out := Receive(l, face, isUp, kind, payload, tag).value.value;
    if kind.NormalInterest? {
      assert face in l.uploads && hop < |l.downloads| && out == l.downloads[hop];
      DownloadOfHop(l, hop);
    } else {
      assert hop < |l.uploads| && out == l.uploads[hop];
      UploadOfHop(l, hop);
    }
  }

  /** Download face `hop` is the one `GetFaceById(2·hop+1)` finds. */
  lemma DownloadOfHop(l: Switch, hop: nat)
    requires Numbered(l) && hop < |l.downloads|
    ensures HasId(l, l.downloads[hop], 2 * hop + 1) && FaceById(l, 2 * hop + 1) == Some(l.downloads[hop])
  {
    var id := 2 * hop + 1;
    assert id / 2 == hop && id % 2 == 1;
    UploadIds(l, id);
    DownloadIds(l, id);
  }

  /** Upload face `hop` is the one `GetFaceById(2·hop)` finds. */
  lemma UploadOfHop(l: Switch, hop: nat)
    requires Numbered(l) && hop < |l.uploads|
    ensures HasId(l, l.uploads[hop], 2 * hop) && FaceById(l, 2 * hop) == Some(l.uploads[hop])
  {
    var id := 2 * hop;
    assert id / 2 == hop && id % 2 == 0;
    UploadIds(l, id);
  }
}

=== FILE: limits.dfy ===
/**
 The per-face Interest limiter `LimitsDeltaRate`: a token counter `bucket`
 that admissions increase by one and a periodic tick resets to zero, and a
 ceiling `bucketMax` derived from the configured rate. Rates are reals.

 `enabled` and `maxRate` stand for the state of the `Limits` base class
 (`IsEnabled()` and `GetMaxRate()`); `aggregated` says whether the limiter is
 attached to a face, which the periodic reset checks first.
 */
module Limits {

  datatype Limiter = Limiter(
    enabled: bool,
    maxRate: real,
    bucketMax: real,
    bucket: real,
    bucketOld: real,
    resetInterval: real,
    nack: real,
    aggregated: bool)

  /** The token-bucket invariant: the counter never exceeds the ceiling. */
  predicate Bounded(l: Limiter)
  {
    l.bucket <= l.bucketMax
  }

  /** A freshly constructed limiter. The base class starts disabled with no
      rate; the limiter is not yet attached to a face. */
  function New(): (l: Limiter)
    ensures l.bucketMax == 1.0 && l.bucket == 0.0 && l.bucketOld == 0.0
    ensures l.resetInterval == 1.0 && l.nack == 0.0
    ensures Bounded(l) && AvailableIncrement(l) == 1.0
  {
    Limiter(false, 0.0, 1.0, 0.0, 0.0, 1.0, 0.0, false)
  }

  /** Configure the limit. The base class records the rate (whether this
      also switches the limiter on is the base class's business and is kept
      as is); the ceiling becomes one reset interval's worth of the rate.
      The delay is accepted and not used. */
  function SetLimits(l: Limiter, rate: real, delay: real): (r: Limiter)
    ensures r.bucketMax == rate * l.resetInterval
    ensures MaxLimit(r) == rate
    ensures r.bucket == l.bucket && r.bucketOld == l.bucketOld && r.nack == l.nack
    ensures r.resetInterval == l.resetInterval && r.enabled == l.enabled
  {
    l.(maxRate := rate, bucketMax := rate * l.resetInterval)
  }

  /** Re-scale the ceiling to a new non-negative limit; the counter is kept. */
  function UpdateCurrentLimit(l: Limiter, limit: real): (r: Limiter)
    requires limit >= 0.0
    ensures r.bucketMax == limit * l.resetInterval
    ensures r.bucketMax >= 0.0 || l.resetInterval < 0.0
    ensures r.(bucketMax := l.bucketMax) == l
  {
    l.(bucketMax := limit * l.resetInterval)
  }

  /** Admission test: always true when disabled, otherwise a whole token of
      headroom must remain. */
  function IsBelowLimit(l: Limiter): (b: bool)
    ensures b <==> !l.enabled || l.bucketMax - l.bucket >= 1.0
  {
    !l.enabled || l.bucketMax - l.bucket >= 1.0
  }

  /** Take one token. The caller must have checked `IsBelowLimit`. */
  function BorrowLimit(l: Limiter): (r: Limiter)
    requires IsBelowLimit(l)
    ensures !l.enabled ==> r == l
    ensures l.enabled ==> r.bucket == l.bucket + 1.0
    ensures r.(bucket := l.bucket) == l
    ensures Bounded(l) ==> Bounded(r)
  {
    if !l.enabled then l else l.(bucket := l.bucket + 1.0)
  }

  /** Token-bucket leakage is time driven only, so returning does nothing. */
  function ReturnLimit(l: Limiter): (r: Limiter)
    ensures r == l
  {
    l
  }

  /** The headroom left in the bucket, never negative. */
  function AvailableIncrement(l: Limiter): (d: real)
    ensures d >= 0.0
    ensures d >= l.bucketMax - l.bucket
    ensures d == 0.0 || d == l.bucketMax - l.bucket
  {
    var delta := l.bucketMax - l.bucket;
    if delta > 0.0 then delta else 0.0
  }

  /** The periodic reset: the counter moves to `bucketOld` and starts again
      at zero. A limiter not attached to a face stops its timer unchanged. */
  function UpdateBucket(l: Limiter): (r: Limiter)
    ensures !l.aggregated ==> r == l
    ensures l.aggregated ==> r.bucketOld == l.bucket && r.bucket == 0.0
    ensures r.nack == l.nack && r.bucketMax == l.bucketMax && r.enabled == l.enabled
    ensures l.aggregated && l.bucketMax >= 0.0 ==> Bounded(r)
  {
    if !l.aggregated then l else l.(bucketOld := l.bucket, bucket := 0.0)
  }

  function MaxLimit(l: Limiter): real { l.maxRate }
  function CurrentLimit(l: Limiter): real { l.bucketMax }
  function CurrentLimitRate(l: Limiter): real { l.bucketMax }
  function CurrentCounter(l: Limiter): real { l.bucket }
  function Nack(l: Limiter): real { l.nack }

  /** Count one NACK received on the limiter's face; nothing else changes. */
  function IncreaseNack(l: Limiter): (r: Limiter)
    ensures Nack(r) == Nack(l) + 1.0
    ensures r.(nack := l.nack) == l
    ensures IsBelowLimit(r) == IsBelowLimit(l) && AvailableIncrement(r) == AvailableIncrement(l)
  {
    l.(nack := l.nack + 1.0)
  }

  /** Both limit getters report the ceiling and the counter getter the
      bucket; an enabled limiter admits exactly when at least one whole token
      of headroom is available; after configuration the ceiling is the
      maximum rate scaled by the reset interval, whatever the delay. */
  lemma GettersReportBucket(l: Limiter, rate: real, delay: real)
    ensures CurrentLimit(l) == CurrentLimitRate(l) == l.bucketMax
    ensures CurrentCounter(l) == l.bucket
    ensures l.enabled ==> (IsBelowLimit(l) <==> AvailableIncrement(l) >= 1.0)
    ensures CurrentLimit(SetLimits(l, rate, delay)) == MaxLimit(SetLimits(l, rate, delay)) * l.resetInterval
    ensures SetLimits(l, rate, delay) == SetLimits(l, rate, 0.0)
  {
  }

  /** Within one reset interval the number of consecutive admissions of an
      enabled limiter is bounded by the headroom of its bucket. */
  lemma {:induction false} BorrowsBoundedByCeiling(l: Limiter, n: nat)
    requires l.enabled && Bounded(l)
    requires CanBorrowTimes(l, n)
    ensures l.bucket + (n as real) <= l.bucketMax
    ensures l.bucket >= 0.0 ==> (n as real) <= l.bucketMax
    decreases n
  {
    if n > 0 {
      BorrowsBoundedByCeiling(BorrowLimit(l), n - 1);
    }
  }

  /** `n` consecutive `IsBelowLimit`/`BorrowLimit` pairs all succeed. */
  predicate CanBorrowTimes(l: Limiter, n: nat)
    decreases n
  {
    n == 0 || (IsBelowLimit(l) && CanBorrowTimes(BorrowLimit(l), n - 1))
  }
}

=== FILE: min_cost.dfy ===
/**
 The plain (non-BCube) `BestCC` strategy of the ns-3 tree: among the faces
 of least routing cost it collects the admitted ones, then picks one at
 random in proportion to the faces' sharing metrics; the random number is
 an input. It sits on the same `Nacks` and `PerOutFaceDeltaLimits` layers
 as the BCube strategy, and its NACK handler is the `Nacks` one followed by
 a count on the arrival face's limiter.
 */
module MinCostFw {
  import opened Common
  import opened FaceMetrics
  import opened FibEntry
  import opened Pit
  import opened FwBase
  import opened FwLimits
  import opened FwNacks
  import FwBestCC
  import FwNode
  import Limits

  /** The cost the minimum search starts from. */
  const START_COST: real := 10000.0

  /** The running total before any candidate is collected. */
  const NO_TOTAL: real := -1.0

  /** The smaller of `START_COST` and the least routing cost of `s`. */
  function Cheapest(s: seq<FaceMetric>): (c: real)
    ensures c <= START_COST
    ensures forall i :: 0 <= i < |s| ==> c <= s[i].routingCost as real
    ensures c == START_COST || exists i :: 0 <= i < |s| && s[i].routingCost as real == c
  {
    if |s| == 0 then START_COST
    else
      var rest := Cheapest(s[1..]);
      assert forall i :: 1 <= i < |s| ==> s[i] == s[1..][i - 1];
      if (s[0].routingCost as real) < rest then s[0].routingCost as real else rest
  }

  /** The records of `s` whose cost is exactly `c`, in the order of `s`. */
  function Tied(s: seq<FaceMetric>, c: real): (r: seq<FaceMetric>)
    ensures forall m :: m in r <==> m in s && m.routingCost as real == c
    ensures |r| <= |s|
  {
    if |s| == 0 then []
    else
      assert forall m :: m in s <==> m == s[0] || m in s[1..];
      if s[0].routingCost as real == c then [s[0]] + Tied(s[1..], c) else Tied(s[1..], c)
  }

  /** Every record of `s` has a limiter. */
  predicate Hooked(s: State, t: seq<FaceMetric>)
  {
    forall m :: m in t ==> m.face in s.limits
  }

  /** The candidates collected so far and the running total of their
      sharing metrics (`NO_TOTAL` before the first one). */
  datatype Pool = Pool(cands: seq<FaceMetric>, total: real)

  /** The records of `t` that pass the admission test, in order. */
  function Admitted(env: Env, s: State, inFace: Face, t: seq<FaceMetric>): (r: seq<FaceMetric>)
    requires Hooked(s, t)
    ensures forall m :: m in r <==> m in t && CanSend(env, s, inFace, m.face)
  {
    if |t| == 0 then []
    else
      assert forall m :: m in t <==> m == t[0] || m in t[1..];
      var rest := Admitted(env, s, inFace, t[1..]);
      if CanSend(env, s, inFace, t[0].face) then [t[0]] + rest else rest
  }

  /** One node face visited by the collection loop: when it passes the
      admission test it joins the candidates and adds its sharing metric to
      the total (the first one replaces `NO_TOTAL`). */
  function Collect(env: Env, s: State, inFace: Face, acc: Pool, m: FaceMetric): (r: Pool)
    requires m.face in s.limits
    ensures CanSend(env, s, inFace, m.face) ==> (r.cands == acc.cands + [m] &&
      r.total == (if acc.total == NO_TOTAL then m.sharingMetric else acc.total + m.sharingMetric))
    ensures !CanSend(env, s, inFace, m.face) ==> r == acc
  {
    if CanSend(env, s, inFace, m.face)
    then Pool(acc.cands + [m], if acc.total == NO_TOTAL then m.sharingMetric else acc.total + m.sharingMetric)
    else acc
  }

  /** The collection loop from a given pool: node faces are collected in
      turn; an application face joins unconditionally, sets the total to
      zero and ends the scan. */
  function ScanFrom(env: Env, s: State, inFace: Face, t: seq<FaceMetric>, acc: Pool): Pool
    requires Hooked(s, t)
    decreases |t|
  {
    if |t| == 0 then acc
    else if t[0].face.isApp then Pool(acc.cands + [t[0]], 0.0)
    else
      assert forall m :: m in t[1..] ==> m in t;
      ScanFrom(env, s, inFace, t[1..], Collect(env, s, inFace, acc, t[0]))
  }

  /** With no application face the scan appends exactly the admitted
      records. */
  lemma {:induction false} ScanCollectsAll(env: Env, s: State, inFace: Face, t: seq<FaceMetric>, acc: Pool)
    requires Hooked(s, t) && FwBestCC.FirstApp(t).None?
    ensures ScanFrom(env, s, inFace, t, acc).cands == acc.cands + Admitted(env, s, inFace, t)
    decreases |t|
  {
    if |t| > 0 {
      assert !t[0].face.isApp;
      assert forall m :: m in t[1..] ==> m in t;
      var next := Collect(env, s, inFace, acc, t[0]);
      assert ScanFrom(env, s, inFace, t, acc) == ScanFrom(env, s, inFace, t[1..], next);
      ScanCollectsAll(env, s, inFace, t[1..], next);
    }
  }

  /** The admitted records of a nonempty sequence: its head when admitted,
      then the admitted records of its tail. */
  lemma AdmittedCons(env: Env, s: State, inFace: Face, t: seq<FaceMetric>)
    requires Hooked(s, t) && |t| > 0
    ensures Hooked(s, t[1..])
    ensures Admitted(env, s, inFace, t) ==
      (if CanSend(env, s, inFace, t[0].face) then [t[0]] else []) + Admitted(env, s, inFace, t[1..])
  {
    assert forall m :: m in t[1..] ==> m in t;
  }

  lemma PrefixHooked(s: State, t: seq<FaceMetric>, j: nat)
    requires Hooked(s, t) && j <= |t|
    ensures Hooked(s, t[..j])
  {
    assert forall m :: m in t[..j] ==> m in t;
  }

  /** The admitted records of a nonempty prefix: those of the head, then
      those of the prefix of the tail. */
  lemma AdmittedPrefixCons(env: Env, s: State, inFace: Face, t: seq<FaceMetric>, j: nat)
    requires Hooked(s, t) && 0 < j <= |t|
    ensures Hooked(s, t[..j]) && Hooked(s, t[1..][..j - 1])
    ensures Admitted(env, s, inFace, t[..j]) ==
      Collect(env, s, inFace, Pool([], NO_TOTAL), t[0]).cands + Admitted(env, s, inFace, t[1..][..j - 1])
  {
    PrefixHooked(s, t, j);
    assert t[..j][1..] == t[1..][..j - 1];
    AdmittedCons(env, s, inFace, t[..j]);
  }

  /** Up to the first application face the scan appends the admitted
      records; then it appends that face and sets the total to zero. */
  lemma {:induction false} ScanCollectsToApp(env: Env, s: State, inFace: Face, t: seq<FaceMetric>, acc: Pool, j: nat)
    requires Hooked(s, t) && FwBestCC.FirstApp(t) == Some(j)
    ensures Hooked(s, t[..j])
    ensures ScanFrom(env, s, inFace, t, acc) == Pool(acc.cands + Admitted(env, s, inFace, t[..j]) + [t[j]], 0.0)
    decreases |t|
  {
    PrefixHooked(s, t, j);
    if j == 0 {
      assert t[..0] == [];
    } else {
      var u := t[1..];
      var next := Collect(env, s, inFace, acc, t[0]);
      var add := Collect(env, s, inFace, Pool([], NO_TOTAL), t[0]).cands;
      assert next.cands == acc.cands + add;
      assert ScanFrom(env, s, inFace, t, acc) == ScanFrom(env, s, inFace, u, next);
      assert FwBestCC.FirstApp(u) == Some(j - 1);
      ScanCollectsToApp(env, s, inFace, u, next, j - 1);
      AdmittedPrefixCons(env, s, inFace, t, j);
      var rest := Admitted(env, s, inFace, u[..j - 1]);
      assert u[j - 1] == t[j];
      AppendRegroup(acc.cands, add, rest, [t[j]]);
    }
  }

  /** The candidates among the cheapest records `t`: the admitted ones up
      to the first application face, then that face, whose total is zero;
      with no application face, the admitted records. */
  function Candidates(env: Env, s: State, inFace: Face, t: seq<FaceMetric>): (p: Pool)
    requires Hooked(s, t)
    ensures forall m :: m in p.cands ==> m in t
    ensures FwBestCC.FirstApp(t).None? ==> p.cands == Admitted(env, s, inFace, t)
    ensures FwBestCC.FirstApp(t).Some? ==>
      var j := FwBestCC.FirstApp(t).value;
      assert forall m :: m in t[..j] ==> m in t;
      p == Pool(Admitted(env, s, inFace, t[..j]) + [t[j]], 0.0)
  {
    var p := ScanFrom(env, s, inFace, t, Pool([], NO_TOTAL));
    if FwBestCC.FirstApp(t).None? then
      ScanCollectsAll(env, s, inFace, t, Pool([], NO_TOTAL));
      assert [] + Admitted(env, s, inFace, t) == Admitted(env, s, inFace, t);
      p
    else
      var j := FwBestCC.FirstApp(t).value;
      ScanCollectsToApp(env, s, inFace, t, Pool([], NO_TOTAL), j);
      assert forall m :: m in t[..j] ==> m in t;
      assert [] + Admitted(env, s, inFace, t[..j]) == Admitted(env, s, inFace, t[..j]);
      assert forall m :: m in p.cands ==> m in Admitted(env, s, inFace, t[..j]) || m == t[j];
      p
  }

  /** Sum of the sharing metrics of `c`. */
  function Sharing(c: seq<FaceMetric>): real
  {
    if |c| == 0 then 0.0 else c[0].sharingMetric + Sharing(c[1..])
  }

  lemma {:induction false} SharingAppend(c: seq<FaceMetric>, m: FaceMetric)
    ensures Sharing(c + [m]) == Sharing(c) + m.sharingMetric
    decreases |c|
  {
    if |c| > 0 {
      assert (c + [m])[1..] == c[1..] + [m];
      SharingAppend(c[1..], m);
    }
  }

  predicate NonNegative(c: seq<FaceMetric>)
  {
    forall m :: m in c ==> m.sharingMetric >= 0.0
  }

  lemma {:induction false} SharingNonNegative(c: seq<FaceMetric>)
    requires NonNegative(c)
    ensures Sharing(c) >= 0.0
    decreases |c|
  {
    if |c| > 0 {
      assert c[0] in c;
      assert forall m :: m in c[1..] ==> m in c;
      SharingNonNegative(c[1..]);
    }
  }

  /** A pool whose total is the sum of its candidates' metrics, or
      `NO_TOTAL` when it has none. */
  predicate Tallied(p: Pool)
  {
    if |p.cands| == 0 then p.total == NO_TOTAL else p.total == Sharing(p.cands)
  }

  /** With nonnegative metrics and no application face, the scan keeps the
      total equal to the sum of the candidates' metrics: the sentinel can
      never be mistaken for a total. */
  lemma {:induction false} ScanTallies(env: Env, s: State, inFace: Face, t: seq<FaceMetric>, acc: Pool)
    requires Hooked(s, t) && NonNegative(t) && NonNegative(acc.cands) && Tallied(acc)
    requires FwBestCC.FirstApp(t).None?
    ensures Tallied(ScanFrom(env, s, inFace, t, acc))
    ensures NonNegative(ScanFrom(env, s, inFace, t, acc).cands)
    decreases |t|
  {
    if |t| > 0 {
      assert t[0] in t;
      assert !t[0].face.isApp;
      assert forall m :: m in t[1..] ==> m in t;
      if CanSend(env, s, inFace, t[0].face) {
        var c := acc.cands + [t[0]];
        SharingAppend(acc.cands, t[0]);
        if |acc.cands| > 0 {
          SharingNonNegative(acc.cands);
        } else {
          assert Sharing(acc.cands) == 0.0;
        }
        var next := Pool(c, if acc.total == NO_TOTAL then t[0].sharingMetric else acc.total + t[0].sharingMetric);
        assert Tallied(next);
        ScanTallies(env, s, inFace, t[1..], next);
      } else {
        ScanTallies(env, s, inFace, t[1..], acc);
      }
    }
  }

  /** Truncation of a real toward zero, as C converts a double to int. */
  function Trunc(x: real): (n: int)
    ensures x >= 0.0 ==> n == x.Floor
    ensures x < 0.0 ==> n == -((-x).Floor)
    ensures n as real <= x < n as real + 1.0 || n as real - 1.0 < x <= n as real
  {
    if x >= 0.0 then x.Floor else -((-x).Floor)
  }

  /** The C remainder of a nonnegative `a` by a nonzero `k`: its sign is
      that of `a`, so it lies in `[0, |k|)`. */
  function CRem(a: nat, k: int): (r: nat)
    requires k != 0
    ensures r < if k > 0 then k else -k
    ensures a < (if k > 0 then k else -k) ==> r == a
  {
    var d := if k > 0 then k else -k;
    a % d
  }

  /** Whether the running coin selects the candidate: the program compares
      with `>=`; the corrected comparison is `>`. */
  predicate Hit(coin: int, target: int, corrected: bool)
  {
    if corrected then coin > target else coin >= target
  }

  /** The integer coin after adding the metrics of `c[..i + 1]`, each
      addition truncated back to an integer. */
  function Coin(c: seq<FaceMetric>, coin: int, i: nat): int
    requires i < |c|
    decreases i
  {
    var next := Trunc(coin as real + c[0].sharingMetric);
    if i == 0 then next else Coin(c[1..], next, i - 1)
  }

  /** The first candidate at which the coin hits the target. */
  function Toss(c: seq<FaceMetric>, target: int, coin: int, corrected: bool): (r: Option<nat>)
    ensures r.Some? ==> r.value < |c| && Hit(Coin(c, coin, r.value), target, corrected)
    ensures r.Some? ==> forall j :: 0 <= j < r.value ==> !Hit(Coin(c, coin, j), target, corrected)
    ensures r.None? ==> forall j :: 0 <= j < |c| ==> !Hit(Coin(c, coin, j), target, corrected)
    decreases |c|
  {
    if |c| == 0 then None
    else
      var next := Trunc(coin as real + c[0].sharingMetric);
      if Hit(next, target, corrected) then Some(0)
      else match Toss(c[1..], target, next, corrected)
        case None => None
        case Some(i) => Some(i + 1)
  }

  /** The choice among the candidates, as a position in `p.cands`:
      - none when nothing was collected;
      - the first candidate when the total is zero (an application face
        ended the scan);
      - otherwise the candidate at which the coin reaches a target drawn as
        `rand` modulo the truncated total; no such candidate, or a total
        that truncates to zero, fails an assertion. */
  function Pick(p: Pool, rand: nat, corrected: bool): (r: Outcome<Option<nat>>)
    ensures r.Ok? && r.value.Some? ==> r.value.value < |p.cands|
    ensures r == Ok(None) <==> p.total == NO_TOTAL
    ensures p.total != NO_TOTAL && |p.cands| == 0 ==> r.Fatal?
    ensures p.total == 0.0 && |p.cands| > 0 ==> r == Ok(Some(0))
    ensures p.total != NO_TOTAL && p.total != 0.0 && |p.cands| > 0 ==>
      (Trunc(p.total) == 0 ==> r.Fatal?) &&
      (Trunc(p.total) != 0 ==>
        var target := CRem(rand, Trunc(p.total));
        (r.Fatal? <==> Toss(p.cands, target, 0, corrected).None?) &&
        (r.Ok? ==> r.value == Toss(p.cands, target, 0, corrected)))
  {
    if p.total == NO_TOTAL then Ok(None)
    else if |p.cands| == 0 then Fatal("no candidate collected")
    else if p.total == 0.0 then Ok(Some(0))
    else
      var k := Trunc(p.total);
      if k == 0 then Fatal("remainder by zero")
      else
        match Toss(p.cands, CRem(rand, k), 0, corrected)
        case None => Fatal("no candidate reached the target")
        case Some(i) => Ok(Some(i))
  }

  predicate Unit(c: seq<FaceMetric>)
  {
    forall m :: m in c ==> m.sharingMetric == 1.0
  }

  /** Truncation leaves a whole number as it is. */
  lemma TruncWhole(k: int)
    ensures Trunc(k as real) == k
  {}

  /** With unit metrics the coin counts the candidates passed. */
  lemma {:induction false} UnitCoin(c: seq<FaceMetric>, coin: int, i: nat)
    requires i < |c| && Unit(c)
    ensures Coin(c, coin, i) == coin + i + 1
    decreases i
  {
    assert c[0] in c;
    assert coin as real + c[0].sharingMetric == (coin + 1) as real;
    TruncWhole(coin + 1);
    if i > 0 {
      assert forall m :: m in c[1..] ==> m in c;
      UnitCoin(c[1..], coin + 1, i - 1);
    }
  }

  /** The program's comparison with unit metrics: target 0 and target 1 both
      pick the first candidate, target `t > 0` picks candidate `t - 1`, so
      the last of two or more candidates is never picked. */
  lemma AsWrittenNeverPicksLast(c: seq<FaceMetric>, rand: nat)
    requires |c| >= 2 && Unit(c)
    ensures var t := CRem(rand, |c|);
      Pick(Pool(c, |c| as real), rand, false) == Ok(Some(if t == 0 then 0 else t - 1))
    ensures Pick(Pool(c, |c| as real), rand, false) != Ok(Some(|c| - 1))
  {
    var t := CRem(rand, |c|);
    forall j | 0 <= j < |c|
      ensures Coin(c, 0, j) == j + 1
    {
      UnitCoin(c, 0, j);
    }
    var want := if t == 0 then 0 else t - 1;
    assert Coin(c, 0, want) == want + 1;
    assert Toss(c, t, 0, false) == Some(want);
  }

  /** The corrected comparison with unit metrics picks candidate
      `rand mod n`, so each of the `n` candidates has exactly one residue. */
  lemma CorrectedPicksEvenly(c: seq<FaceMetric>, rand: nat)
    requires |c| >= 1 && Unit(c)
    ensures Pick(Pool(c, |c| as real), rand, true) == Ok(Some(CRem(rand, |c|)))
  {
    var t := CRem(rand, |c|);
    forall j | 0 <= j < |c|
      ensures Coin(c, 0, j) == j + 1
    {
      UnitCoin(c, 0, j);
    }
    assert Coin(c, 0, t) == t + 1;
    assert Toss(c, t, 0, true) == Some(t);
  }

  /** The cheapest records of the entry's ranking, in ranking order. */
  function Front(s: State): (t: seq<FaceMetric>)
    requires Attached(s)
    ensures Hooked(s, t)
    ensures forall m :: m in t <==> m in s.fib.faces && m.routingCost as real == Cheapest(Rank(s.fib.faces))
  {
    RankMembers(s.fib.faces);
    Tied(Rank(s.fib.faces), Cheapest(Rank(s.fib.faces)))
  }

  /** The sum of unit metrics is the number of candidates. */
  lemma {:induction false} SharingUnit(c: seq<FaceMetric>)
    requires Unit(c)
    ensures Sharing(c) == |c| as real
    decreases |c|
  {
    if |c| > 0 {
      assert c[0] in c;
      assert forall m :: m in c[1..] ==> m in c;
      SharingUnit(c[1..]);
    }
  }

  /** A candidate is a record of the entry of least cost, and it passed
      the admission test unless it is an application face. */
  lemma CandidateFacts(env: Env, s: State, inFace: Face, i: nat)
    requires Sound(s) && Attached(s) && i < |Candidates(env, s, inFace, Front(s)).cands|
    ensures var m := Candidates(env, s, inFace, Front(s)).cands[i];
      m in s.fib.faces && Find(s.fib, m.face) == Some(m) && m.face in s.limits &&
      m.routingCost as real == Cheapest(Rank(s.fib.faces)) &&
      (forall x :: x in s.fib.faces ==> m.routingCost <= x.routingCost) &&
      (!m.face.isApp ==> CanSend(env, s, inFace, m.face))
  {
    var t := Front(s);
    var p := Candidates(env, s, inFace, t);
    var m := p.cands[i];
    assert m in t;
    var k :| 0 <= k < |s.fib.faces| && s.fib.faces[k] == m;
    FindAt(s.fib, k);
    RankMembers(s.fib.faces);
    forall x | x in s.fib.faces
      ensures m.routingCost <= x.routingCost
    {
      var y :| 0 <= y < |Rank(s.fib.faces)| && Rank(s.fib.faces)[y] == x;
    }
    if !m.face.isApp && FwBestCC.FirstApp(t).Some? {
      var j := FwBestCC.FirstApp(t).value;
      assert forall x :: x in t[..j] ==> x in t;
      assert i < |p.cands| - 1;
      assert m == Admitted(env, s, inFace, t[..j])[i];
    }
  }

  /** The face chosen for the Interest: always a face of the entry of
      least cost, and one that passed the admission test unless it is an
      application face. */
  function Choice(env: Env, s: State, inFace: Face, rand: nat, corrected: bool): (r: Outcome<Option<Face>>)
    requires Sound(s) && Attached(s)
    ensures r == Ok(None) <==> Candidates(env, s, inFace, Front(s)).total == NO_TOTAL
    ensures r.Ok? && r.value.Some? ==>
      var f := r.value.value;
      HasFace(s.fib, f) && f in s.limits && Find(s.fib, f).Some? &&
      Find(s.fib, f).value.routingCost as real == Cheapest(Rank(s.fib.faces)) &&
      (forall m :: m in s.fib.faces ==> Find(s.fib, f).value.routingCost <= m.routingCost) &&
      (!f.isApp ==> CanSend(env, s, inFace, f))
  {
    var p := Candidates(env, s, inFace, Front(s));
    match Pick(p, rand, corrected)
    case Fatal(m) => Fatal(m)
    case Ok(None) => Ok(None)
    case Ok(Some(i)) =>
      CandidateFacts(env, s, inFace, i);
      Ok(Some(p.cands[i].face))
  }

  /** With nonnegative metrics, nothing is chosen exactly when no cheapest
      face is an application face and none passes the admission test. */
  lemma NoChoiceIffNoneAdmitted(env: Env, s: State, inFace: Face, rand: nat, corrected: bool)
    requires Sound(s) && Attached(s) && NonNegative(Front(s))
    ensures Choice(env, s, inFace, rand, corrected) == Ok(None) <==>
      forall m :: m in Front(s) ==> !m.face.isApp && !CanSend(env, s, inFace, m.face)
  {
    var t := Front(s);
    var p := Candidates(env, s, inFace, t);
    if FwBestCC.FirstApp(t).None? {
      ScanTallies(env, s, inFace, t, Pool([], NO_TOTAL));
      if |p.cands| > 0 {
        SharingNonNegative(p.cands);
        assert p.cands[0] in p.cands;
      }
    } else {
      assert t[FwBestCC.FirstApp(t).value] in t;
    }
  }

  /** With unit metrics and no application face among the cheapest, the
      corrected choice takes admitted candidate `rand mod n`. */
  lemma UnitChoiceIsEven(env: Env, s: State, inFace: Face, rand: nat)
    requires Sound(s) && Attached(s) && Unit(Front(s)) && FwBestCC.FirstApp(Front(s)).None?
    ensures var c := Candidates(env, s, inFace, Front(s)).cands;
      |c| > 0 ==> Choice(env, s, inFace, rand, true) == Ok(Some(c[CRem(rand, |c|)].face))
  {
    var t := Front(s);
    var p := Candidates(env, s, inFace, t);
    ScanTallies(env, s, inFace, t, Pool([], NO_TOTAL));
    if |p.cands| > 0 {
      SharingUnit(p.cands);
      CorrectedPicksEvenly(p.cands, rand);
      assert p == Pool(p.cands, |p.cands| as real);
    }
  }

  /** Propagation of the Interest on the chosen face. Taking a token needs
      headroom in the face's limiter (an assertion of the limiter). The
      send is made before the token is taken, so that the admission test of
      the send sees the limiter that passed the check; the call reports
      success whenever a face was chosen. */
  function DoPropagate(env: Env, s: State, inFace: Face, pkt: Interest, rand: nat, now: real): (r: Outcome<Step>)
    requires Sound(s) && Attached(s)
    ensures var c := Choice(env, s, inFace, rand, true);
      r.Fatal? <==> c.Fatal? || (c.value.Some? && !Limits.IsBelowLimit(s.limits[c.value.value]))
    ensures Choice(env, s, inFace, rand, true) == Ok(None) ==> r == Ok(Step(s, [], false))
    ensures r.Ok? && Choice(env, s, inFace, rand, true).value.Some? ==>
      var f := Choice(env, s, inFace, rand, true).value.value;
      r.value.ok && r.value.st.fib == s.fib &&
      r.value.st.limits == s.limits[f := Limits.BorrowLimit(s.limits[f])] &&
      (CanSend(env, s, inFace, f) ==>
        r.value.out == [InterestOut(f, SendTag(pkt, Find(s.fib, f).value.routingCost))] &&
        r.value.st.pit == AddOutgoing(s.pit, f, now)) &&
      (!CanSend(env, s, inFace, f) ==> r.value.out == [] && r.value.st.pit == s.pit)
  {
    match Choice(env, s, inFace, rand, true)
    case Fatal(m) => Fatal(m)
    case Ok(None) => Ok(Step(s, [], false))
    case Ok(Some(f)) =>
      if !Limits.IsBelowLimit(s.limits[f]) then Fatal("token taken without headroom")
      else
        match TrySend(env, s, inFace, f, pkt, now)
        case Fatal(m) => Fatal(m)
        case Ok(t) =>
          Ok(Step(t.st.(limits := t.st.limits[f := Limits.BorrowLimit(t.st.limits[f])]), t.out, true))
  }

  /** A chosen face other than an application face always receives the
      Interest, and the state stays sound with every limiter attached. */
  lemma DoPropagateSendsOnChosenFace(env: Env, s: State, inFace: Face, pkt: Interest, rand: nat, now: real)
    requires Sound(s) && Attached(s) && DoPropagate(env, s, inFace, pkt, rand, now).Ok?
    ensures var t := DoPropagate(env, s, inFace, pkt, rand, now).value;
      Sound(t.st) && Attached(t.st) && t.st.limits.Keys == s.limits.Keys &&
      t.st.pit.incoming == s.pit.incoming && t.st.pit.nonces == s.pit.nonces
    ensures var c := Choice(env, s, inFace, rand, true).value;
      c.Some? && !c.value.isApp ==>
        var t := DoPropagate(env, s, inFace, pkt, rand, now).value;
        t.ok && |t.out| == 1 && t.out[0].InterestOut? && t.out[0].face == c.value && IsOutgoing(t.st.pit, c.value)
  {
    var c := Choice(env, s, inFace, rand, true).value;
    if c.Some? {
      TrySendRecordsFace(env, s, inFace, c.value, pkt, now);
    }
  }

  /** The propagation as the program orders it: the token is taken first and
      the send, whose admission test asks the limiter again, comes after;
      the choice uses the program's comparison. */
  function DoPropagateAsWritten(env: Env, s: State, inFace: Face, pkt: Interest, rand: nat, now: real): (r: Outcome<Step>)
    requires Sound(s) && Attached(s)
    ensures var c := Choice(env, s, inFace, rand, false);
      r.Fatal? <==> c.Fatal? || (c.value.Some? && !Limits.IsBelowLimit(s.limits[c.value.value]))
    ensures r.Ok? && Choice(env, s, inFace, rand, false).value.Some? ==>
      var f := Choice(env, s, inFace, rand, false).value.value;
      r.value.ok && f in r.value.st.limits && r.value.st.limits[f] == Limits.BorrowLimit(s.limits[f])
  {
    match Choice(env, s, inFace, rand, false)
    case Fatal(m) => Fatal(m)
    case Ok(None) => Ok(Step(s, [], false))
    case Ok(Some(f)) =>
      if !Limits.IsBelowLimit(s.limits[f]) then Fatal("token taken without headroom")
      else
        var s1 := TakeToken(s, f);
        match TrySend(env, s1, inFace, f, pkt, now)
        case Fatal(m) => Fatal(m)
        case Ok(t) => Ok(Step(t.st, t.out, true))
  }

  /** The program's order loses the Interest on a chosen node face whose
      limiter holds its last token: the token is taken, the send's own
      admission test finds no headroom, nothing is sent, and the call still
      reports success. */
  lemma AsWrittenLosesLastToken(env: Env, s: State, inFace: Face, pkt: Interest, rand: nat, now: real)
    requires Sound(s) && Attached(s)
    requires Choice(env, s, inFace, rand, false).Ok? && Choice(env, s, inFace, rand, false).value.Some?
    requires var f := Choice(env, s, inFace, rand, false).value.value;
      !f.isApp && FwBestCC.LastToken(s.limits[f])
    ensures var r := DoPropagateAsWritten(env, s, inFace, pkt, rand, now);
      r.Ok? && r.value.ok && r.value.out == [] && r.value.st.pit == s.pit
  {
    var f := Choice(env, s, inFace, rand, false).value.value;
    var s1 := s.(limits := s.limits[f := Limits.BorrowLimit(s.limits[f])]);
    assert !CanSend(env, s1, inFace, f);
  }

  /** Taking the token first keeps the state sound with every limiter
      attached; a chosen face's limiter gives one token, and the Interest,
      when it leaves at all, leaves on the chosen face, which becomes
      outgoing. */
  lemma DoPropagateAsWrittenKeepsShape(env: Env, s: State, inFace: Face, pkt: Interest, rand: nat, now: real)
    requires Sound(s) && Attached(s) && DoPropagateAsWritten(env, s, inFace, pkt, rand, now).Ok?
    ensures var t := DoPropagateAsWritten(env, s, inFace, pkt, rand, now).value;
      Sound(t.st) && Attached(t.st) && t.st.limits.Keys == s.limits.Keys &&
      t.st.pit.incoming == s.pit.incoming && t.st.pit.nonces == s.pit.nonces && t.st.fib == s.fib
    ensures var c := Choice(env, s, inFace, rand, false).value;
      c.Some? ==>
        var f := c.value;
        var t := DoPropagateAsWritten(env, s, inFace, pkt, rand, now).value;
        t.st.limits == s.limits[f := Limits.BorrowLimit(s.limits[f])] &&
        ((t.out == [InterestOut(f, SendTag(pkt, Find(s.fib, f).value.routingCost))] && t.st.pit == AddOutgoing(s.pit, f, now)) ||
         (t.out == [] && t.st.pit == s.pit))
  {
    var c := Choice(env, s, inFace, rand, false).value;
    if c.Some? {
      var f := c.value;
      var s1 := TakeToken(s, f);
      TrySendRecordsFace(env, s1, inFace, f, pkt, now);
    }
  }

  /** The propagation the strategy runs: the program's order and coin, or
      the corrected ones when the configuration asks for them. A chosen
      face always gives one token and the call reports success; at most one
      Interest leaves, on the chosen face. In the corrected variant a
      chosen node face always receives it. */
  function Forward(env: Env, s: State, inFace: Face, pkt: Interest, rand: nat, now: real): (r: Outcome<Step>)
    requires Sound(s) && Attached(s)
    ensures var c := Choice(env, s, inFace, rand, env.corrected);
      r.Fatal? <==> c.Fatal? || (c.value.Some? && !Limits.IsBelowLimit(s.limits[c.value.value]))
    ensures Choice(env, s, inFace, rand, env.corrected) == Ok(None) ==> r == Ok(Step(s, [], false))
    ensures r.Ok? ==>
      Sound(r.value.st) && Attached(r.value.st) && r.value.st.limits.Keys == s.limits.Keys &&
      r.value.st.pit.incoming == s.pit.incoming && r.value.st.pit.nonces == s.pit.nonces && r.value.st.fib == s.fib
    ensures r.Ok? && Choice(env, s, inFace, rand, env.corrected).value.Some? ==>
      var f := Choice(env, s, inFace, rand, env.corrected).value.value;
      r.value.ok && r.value.st.limits == s.limits[f := Limits.BorrowLimit(s.limits[f])] &&
      ((r.value.out == [InterestOut(f, SendTag(pkt, Find(s.fib, f).value.routingCost))] && r.value.st.pit == AddOutgoing(s.pit, f, now)) ||
       (r.value.out == [] && r.value.st.pit == s.pit))
    ensures r.Ok? && env.corrected && Choice(env, s, inFace, rand, true).value.Some? ==>
      !Choice(env, s, inFace, rand, true).value.value.isApp ==> |r.value.out| == 1
  {
    if env.corrected then
      var r := DoPropagate(env, s, inFace, pkt, rand, now);
      if r.Ok? then
        DoPropagateSendsOnChosenFace(env, s, inFace, pkt, rand, now);
        r
      else r
    else
      var r := DoPropagateAsWritten(env, s, inFace, pkt, rand, now);
      if r.Ok? then
        DoPropagateAsWrittenKeepsShape(env, s, inFace, pkt, rand, now);
        r
      else r
  }

  /** Propagation moves no limiter's NACK count, and reports failure only
      when no face was chosen, leaving the state as it was. */
  lemma ForwardKeepsNacks(env: Env, s: State, inFace: Face, pkt: Interest, rand: nat, now: real)
    requires Sound(s) && Attached(s) && Forward(env, s, inFace, pkt, rand, now).Ok?
    ensures var t := Forward(env, s, inFace, pkt, rand, now).value;
      forall g :: g in s.limits ==> g in t.st.limits && t.st.limits[g].nack == s.limits[g].nack
    ensures var t := Forward(env, s, inFace, pkt, rand, now).value;
      !t.ok ==> t.st == s && t.out == []
  {
    var c := Choice(env, s, inFace, rand, env.corrected).value;
    if c.Some? {
      var f := c.value;
      var t := Forward(env, s, inFace, pkt, rand, now).value;
      assert t.st.limits == s.limits[f := Limits.BorrowLimit(s.limits[f])];
      assert Limits.BorrowLimit(s.limits[f]).nack == s.limits[f].nack;
    }
  }

  /** A second propagation, with exhaustion when no face is chosen. */
  function Retry(env: Env, s: State, inFace: Face, pkt: Interest, rand: nat, now: real): (r: Outcome<Step>)
    requires Sound(s) && Attached(s)
    ensures r.Ok? && r.value.ok ==> r == Forward(env, s, inFace, pkt, rand, now)
    ensures r.Ok? && !r.value.ok && AllOutgoingInVain(s.pit) ==> r.value.st.pit.erased
    ensures r.Ok? ==> Sound(r.value.st) && r.value.st.limits.Keys == s.limits.Keys
    ensures r.Ok? ==> forall g :: g in s.limits ==> r.value.st.limits[g].nack == s.limits[g].nack
  {
    match Forward(env, s, inFace, pkt, rand, now)
    case Fatal(m) => Fatal(m)
    case Ok(t) =>
      ForwardKeepsNacks(env, s, inFace, pkt, rand, now);
      if t.ok then Ok(t)
      else
        match Exhaust(env, s, inFace)
        case Fatal(m) => Fatal(m)
        case Ok(e) =>
          ExhaustSendsOnlyNacks(env, s, inFace);
          Ok(Step(e.st, t.out + e.out, false))
  }

  /** The NACK handler of the `Nacks` layer over this strategy's
      propagation: the NACK is noted; after a refusal that leaves every
      outgoing face in vain the Interest is propagated again as a fresh
      normal Interest, built from the header alone and so without the
      NACK's BCube tag, and the entry is exhausted when no face is chosen. */
  function ValidNack(env: Env, s: State, inFace: Face, pkt: Interest, rand: nat, now: real): (r: Outcome<Step>)
    requires Sound(s) && Attached(s)
    ensures var q := NoteNack(s.pit, inFace, pkt.nack);
      (!IsRefusal(pkt.nack) || !AllOutgoingInVain(q)) ==> r == Ok(Step(s.(pit := q), [], false))
    ensures var q := NoteNack(s.pit, inFace, pkt.nack);
      IsRefusal(pkt.nack) && AllOutgoingInVain(q) ==>
        r == Retry(env, s.(pit := q), inFace, pkt.(nack := NORMAL_INTEREST, tag := None), rand, now) &&
        (r.Ok? && !r.value.ok ==> r.value.st.pit.erased)
    ensures r.Ok? ==> Sound(r.value.st) && r.value.st.limits.Keys == s.limits.Keys
    ensures r.Ok? ==> forall g :: g in s.limits ==> r.value.st.limits[g].nack == s.limits[g].nack
  {
    var q := NoteNack(s.pit, inFace, pkt.nack);
    FwBestCC.NotedStaysAttached(s, inFace, pkt.nack);
    if !IsRefusal(pkt.nack) || !AllOutgoingInVain(q) then Ok(Step(s.(pit := q), [], false))
    else Retry(env, s.(pit := q), inFace, pkt.(nack := NORMAL_INTEREST, tag := None), rand, now)
  }

  /** An Interest a second propagation sends carries the packet's tag, or
      the default one for an untagged packet, with only the two hops
      changed. */
  lemma RetrySendsPacketTag(env: Env, s: State, inFace: Face, pkt: Interest, rand: nat, now: real)
    requires Sound(s) && Attached(s) && Retry(env, s, inFace, pkt, rand, now).Ok?
    ensures var out := Retry(env, s, inFace, pkt, rand, now).value.out;
      forall k :: 0 <= k < |out| && out[k].InterestOut? ==>
        out[k].tag.(nexthop := TagOf(pkt.tag).nexthop, prevhop := TagOf(pkt.tag).prevhop) == TagOf(pkt.tag)
  {
    var t := Forward(env, s, inFace, pkt, rand, now).value;
    var r := Retry(env, s, inFace, pkt, rand, now).value;
    if t.ok {
      assert r == t;
      ForwardSendsPacketTag(env, s, inFace, pkt, rand, now);
    } else {
      ForwardKeepsNacks(env, s, inFace, pkt, rand, now);
      var e := Exhaust(env, s, inFace).value;
      ExhaustSendsOnlyNacks(env, s, inFace);
      assert r.out == t.out + e.out == e.out;
      assert NacksOnly(r.out);
    }
  }

  /** The Interest a propagation sends carries the packet's tag with only
      the two hops changed. */
  lemma ForwardSendsPacketTag(env: Env, s: State, inFace: Face, pkt: Interest, rand: nat, now: real)
    requires Sound(s) && Attached(s) && Forward(env, s, inFace, pkt, rand, now).Ok?
    ensures var out := Forward(env, s, inFace, pkt, rand, now).value.out;
      forall k :: 0 <= k < |out| && out[k].InterestOut? ==>
        out[k].tag.(nexthop := TagOf(pkt.tag).nexthop, prevhop := TagOf(pkt.tag).prevhop) == TagOf(pkt.tag)
  {
    var out := Forward(env, s, inFace, pkt, rand, now).value.out;
    var c := Choice(env, s, inFace, rand, env.corrected).value;
    if c.Some? && out != [] {
      assert out == [InterestOut(c.value, SendTag(pkt, Find(s.fib, c.value).value.routingCost))];
    }
  }

  /** Whatever tag the NACK carried, an Interest re-sent after it carries a
      fresh tag: the default one, with only the two hops set from the out
      face's cost. */
  lemma ResentTagIsFresh(env: Env, s: State, inFace: Face, pkt: Interest, rand: nat, now: real)
    requires Sound(s) && Attached(s)
    requires ValidNack(env, s, inFace, pkt, rand, now).Ok?
    ensures var out := ValidNack(env, s, inFace, pkt, rand, now).value.out;
      forall k :: 0 <= k < |out| && out[k].InterestOut? ==>
        out[k].tag.(nexthop := UINT32_MAX, prevhop := UINT32_MAX) == BCubeTag.DefaultTag()
  {
    var q := NoteNack(s.pit, inFace, pkt.nack);
    FwBestCC.NotedStaysAttached(s, inFace, pkt.nack);
    if IsRefusal(pkt.nack) && AllOutgoingInVain(q) {
      RetrySendsPacketTag(env, s.(pit := q), inFace, pkt.(nack := NORMAL_INTEREST, tag := None), rand, now);
    }
  }

  /** The NACK handler of the plain strategy: the `Nacks` handling (a NACK
      without PIT entry is dropped), then one NACK counted on the arrival
      face's limiter, when it has one. */
  function OnNack(env: Env, n: Node, inFace: Face, pkt: Interest, rand: nat, now: real): (r: Outcome<Visit>)
    requires Healthy(n) && FwNode.Wired(n)
    ensures n.pit.None? ==> r == Ok(Visit(n.(limits := FwBestCC.NackLimits(n.limits, inFace)), []))
    ensures r.Ok? ==> Healthy(r.value.node) && r.value.node.limits.Keys == n.limits.Keys
    ensures r.Ok? && inFace in n.limits ==>
      Limits.Nack(r.value.node.limits[inFace]) == Limits.Nack(n.limits[inFace]) + 1.0
    ensures r.Ok? ==> forall g :: g in n.limits && g != inFace ==> r.value.node.limits[g].nack == n.limits[g].nack
    ensures n.pit.Some? ==>
      var q := NoteNack(n.pit.value, inFace, pkt.nack);
      (!IsRefusal(pkt.nack) || !AllOutgoingInVain(q)) ==>
        r == Ok(Visit(Node(Some(q), n.fib, FwBestCC.NackLimits(n.limits, inFace)), []))
  {
    match n.pit
    case None => Ok(Visit(n.(limits := FwBestCC.NackLimits(n.limits, inFace)), []))
    case Some(p) =>
      match ValidNack(env, Enter(n), inFace, pkt, rand, now)
      case Fatal(m) => Fatal(m)
      case Ok(t) => Ok(Visit(Leave(t.st).(limits := FwBestCC.NackLimits(t.st.limits, inFace)), t.out))
  }
}

=== FILE: pit.dfy ===
/**
 A pending-Interest-table entry as the forwarding strategy sees it: the
 nonces already seen, the incoming records (the face an Interest came from
 and the BCube port to send the answer back on), the outgoing records (the
 face an Interest went out on, how many times it was retransmitted there,
 whether that face answered with a NACK, and when it was sent), the number
 of retransmissions allowed per face, and whether the entry was erased.

 The PIT entry class itself is not part of this model; its operations are
 modelled with the behaviour the strategy relies on: incoming and outgoing
 records are keyed by face, adding an incoming record for a face that
 already has one keeps the existing record, and adding an outgoing record
 for a face that already has one counts a retransmission.
 */
module Pit {
  import opened Common

  /** A 32-bit port number as stored in the BCube tag. */
  type Port = p: nat | p < TWO32

  datatype InRecord = InRecord(face: Face, localport: Port)

  datatype OutRecord = OutRecord(face: Face, retxCount: nat, inVain: bool, sendTime: real)

  datatype PitEntry = PitEntry(
    nonces: set<nat>,
    incoming: seq<InRecord>,
    outgoing: seq<OutRecord>,
    maxRetx: nat,
    erased: bool)

  /** At most one incoming and one outgoing record per face. */
  predicate Keyed(p: PitEntry)
  {
    (forall i, j :: 0 <= i < j < |p.incoming| ==> p.incoming[i].face != p.incoming[j].face) &&
    (forall i, j :: 0 <= i < j < |p.outgoing| ==> p.outgoing[i].face != p.outgoing[j].face)
  }

  /** A freshly created entry: nothing seen, nothing pending, no
      retransmission allowed yet. */
  function NewPitEntry(): (p: PitEntry)
    ensures Keyed(p) && p.nonces == {} && p.incoming == [] && p.outgoing == []
    ensures p.maxRetx == 0 && !p.erased
  {
    PitEntry({}, [], [], 0, false)
  }

  predicate IsIncoming(p: PitEntry, f: Face)
  {
    exists i :: 0 <= i < |p.incoming| && p.incoming[i].face == f
  }

  predicate IsOutgoing(p: PitEntry, f: Face)
  {
    exists i :: 0 <= i < |p.outgoing| && p.outgoing[i].face == f
  }

  /** Position of the outgoing record of `f`, if any. */
  function OutIndex(s: seq<OutRecord>, f: Face): (r: Option<nat>)
    ensures r.Some? ==> r.value < |s| && s[r.value].face == f
    ensures r.Some? ==> forall j :: 0 <= j < r.value ==> s[j].face != f
    ensures r.None? <==> forall j :: 0 <= j < |s| ==> s[j].face != f
  {
    if |s| == 0 then None
    else if s[0].face == f then Some(0)
    else match OutIndex(s[1..], f)
      case None => None
      case Some(i) => Some(i + 1)
  }

  /** The outgoing record of `f`, if any. */
  function OutRecordOf(p: PitEntry, f: Face): (r: Option<OutRecord>)
    ensures r.Some? <==> IsOutgoing(p, f)
    ensures r.Some? ==> r.value.face == f && r.value in p.outgoing
  {
    match OutIndex(p.outgoing, f)
    case None => None
    case Some(i) => Some(p.outgoing[i])
  }

  function AddSeenNonce(p: PitEntry, nonce: nat): (r: PitEntry)
    ensures r.nonces == p.nonces + {nonce} && r.(nonces := p.nonces) == p
  {
    p.(nonces := p.nonces + {nonce})
  }

  /** Record that an Interest arrived on `f` and that the answer goes back
      through `port`; a face that is already incoming keeps its record. */
  function AddIncoming(p: PitEntry, f: Face, port: Port): (r: PitEntry)
    requires Keyed(p)
    ensures Keyed(r) && IsIncoming(r, f)
    ensures IsIncoming(p, f) ==> r == p
    ensures !IsIncoming(p, f) ==> r.incoming == p.incoming + [InRecord(f, port)]
    ensures r.(incoming := p.incoming) == p
    ensures forall g :: IsIncoming(r, g) <==> IsIncoming(p, g) || g == f
  {
    if IsIncoming(p, f) then p
    else
      var r := p.(incoming := p.incoming + [InRecord(f, port)]);
      assert r.incoming[|p.incoming|].face == f;
      assert forall i :: 0 <= i < |p.incoming| ==> r.incoming[i] == p.incoming[i];
      r
  }

  /** The incoming records other than those of face `f`, in order. */
  function Without(s: seq<InRecord>, f: Face): (r: seq<InRecord>)
    ensures |r| <= |s|
    ensures forall x :: x in r <==> x in s && x.face != f
    decreases |s|
  {
    if |s| == 0 then []
    else if s[0].face == f then Without(s[1..], f)
    else
      assert forall x :: x in s <==> x == s[0] || x in s[1..];
      [s[0]] + Without(s[1..], f)
  }

  lemma {:induction false} WithoutKeepsUnique(s: seq<InRecord>, f: Face)
    requires forall i, j :: 0 <= i < j < |s| ==> s[i].face != s[j].face
    ensures forall i, j :: 0 <= i < j < |Without(s, f)| ==> Without(s, f)[i].face != Without(s, f)[j].face
    decreases |s|
  {
    if |s| > 0 {
      WithoutKeepsUnique(s[1..], f);
      var t := Without(s[1..], f);
      if s[0].face != f {
        forall k | 0 <= k < |t|
          ensures t[k].face != s[0].face
        {
          assert t[k] in s[1..];
          var m :| 0 <= m < |s[1..]| && s[1..][m] == t[k];
          assert s[m + 1] == t[k];
        }
        var r := [s[0]] + t;
        assert Without(s, f) == r;
        forall i, j | 0 <= i < j < |r|
          ensures r[i].face != r[j].face
        {
          if i > 0 {
            assert r[i] == t[i - 1] && r[j] == t[j - 1];
          } else {
            assert r[j] == t[j - 1];
          }
        }
      }
    }
  }

  /** Forget the incoming record of `f`; the other records stay. */
  function RemoveIncoming(p: PitEntry, f: Face): (r: PitEntry)
    requires Keyed(p)
    ensures Keyed(r) && !IsIncoming(r, f)
    ensures forall g :: g != f ==> (IsIncoming(r, g) <==> IsIncoming(p, g))
    ensures forall x :: x in r.incoming <==> x in p.incoming && x.face != f
    ensures r.(incoming := p.incoming) == p
  {
    WithoutKeepsUnique(p.incoming, f);
    var r := p.(incoming := Without(p.incoming, f));
    assert forall g :: IsIncoming(p, g) <==> exists x :: x in p.incoming && x.face == g;
    assert forall g :: IsIncoming(r, g) <==> exists x :: x in r.incoming && x.face == g;
    r
  }

  /** Record that the Interest went out on `f` at time `now`. A first send
      starts a record with no retransmission; a repeated send counts one
      more retransmission, restamps the record and clears its NACK mark. */
  function AddOutgoing(p: PitEntry, f: Face, now: real): (r: PitEntry)
    requires Keyed(p)
    ensures Keyed(r) && IsOutgoing(r, f)
    ensures OutRecordOf(r, f).value.sendTime == now && !OutRecordOf(r, f).value.inVain
    ensures !IsOutgoing(p, f) ==> OutRecordOf(r, f).value.retxCount == 0
    ensures IsOutgoing(p, f) ==> OutRecordOf(r, f).value.retxCount == OutRecordOf(p, f).value.retxCount + 1
    ensures forall g :: g != f ==> OutRecordOf(r, g) == OutRecordOf(p, g)
    ensures |r.outgoing| == |p.outgoing| + (if IsOutgoing(p, f) then 0 else 1)
    ensures r.(outgoing := p.outgoing) == p
  {
    match OutIndex(p.outgoing, f)
    case None =>
      var s := p.outgoing + [OutRecord(f, 0, false, now)];
      assert s[|p.outgoing|].face == f;
      OutFrame(p.outgoing, s, f);
      p.(outgoing := s)
    case Some(i) =>
      var o := p.outgoing[i];
      var s := p.outgoing[i := o.(retxCount := o.retxCount + 1, sendTime := now, inVain := false)];
      OutFrame(p.outgoing, s, f);
      p.(outgoing := s)
  }

  /** Mark the outgoing record of `f` as answered by a NACK; an entry with
      no such record is unchanged. */
  function SetWaitingInVain(p: PitEntry, f: Face): (r: PitEntry)
    requires Keyed(p)
    ensures Keyed(r) && |r.outgoing| == |p.outgoing|
    ensures IsOutgoing(p, f) ==> OutRecordOf(r, f) == Some(OutRecordOf(p, f).value.(inVain := true))
    ensures !IsOutgoing(p, f) ==> r == p
    ensures forall g :: g != f ==> OutRecordOf(r, g) == OutRecordOf(p, g)
    ensures forall i :: 0 <= i < |p.outgoing| ==>
      r.outgoing[i].face == p.outgoing[i].face &&
      (r.outgoing[i].inVain <==> p.outgoing[i].inVain || p.outgoing[i].face == f)
    ensures r.(outgoing := p.outgoing) == p
  {
    match OutIndex(p.outgoing, f)
    case None => p
    case Some(i) =>
      var s := p.outgoing[i := p.outgoing[i].(inVain := true)];
      OutFrame(p.outgoing, s, f);
      p.(outgoing := s)
  }

  /** Replacing or appending the record of `f` leaves every other face's
      record where the lookup finds it. */
  lemma OutFrame(s: seq<OutRecord>, t: seq<OutRecord>, f: Face)
    requires |s| <= |t| <= |s| + 1
    requires forall i :: 0 <= i < |s| && s[i].face != f ==> t[i] == s[i]
    requires forall i :: 0 <= i < |s| && s[i].face == f ==> t[i].face == f
    requires |t| == |s| + 1 ==> t[|s|].face == f
    ensures forall g :: g != f ==> OutIndex(t, g) == OutIndex(s, g)
  {
    forall g | g != f
      ensures OutIndex(t, g) == OutIndex(s, g)
    {
      OutIndexFrame(s, t, f, g);
    }
  }

  lemma {:induction false} OutIndexFrame(s: seq<OutRecord>, t: seq<OutRecord>, f: Face, g: Face)
    requires |s| <= |t| <= |s| + 1 && g != f
    requires forall i :: 0 <= i < |s| && s[i].face != f ==> t[i] == s[i]
    requires forall i :: 0 <= i < |s| && s[i].face == f ==> t[i].face == f
    requires |t| == |s| + 1 ==> t[|s|].face == f
    ensures OutIndex(t, g) == OutIndex(s, g)
    decreases |s|
  {
    if |s| == 0 {
      if |t| == 1 {
        assert OutIndex(t[1..], g) == None;
      }
    } else {
      OutIndexFrame(s[1..], t[1..], f, g);
    }
  }

  /** Every outgoing face answered with a NACK (vacuously so when none). */
  predicate AllOutgoingInVain(p: PitEntry)
  {
    forall i :: 0 <= i < |p.outgoing| ==> p.outgoing[i].inVain
  }

  function ClearIncoming(p: PitEntry): (r: PitEntry)
    ensures r.incoming == [] && r.(incoming := p.incoming) == p
  {
    p.(incoming := [])
  }

  function ClearOutgoing(p: PitEntry): (r: PitEntry)
    ensures r.outgoing == [] && AllOutgoingInVain(r) && r.(outgoing := p.outgoing) == p
  {
    p.(outgoing := [])
  }

  /** Allow one more retransmission on every face. */
  function IncreaseAllowedRetxCount(p: PitEntry): (r: PitEntry)
    ensures r.maxRetx == p.maxRetx + 1 && r.(maxRetx := p.maxRetx) == p
  {
    p.(maxRetx := p.maxRetx + 1)
  }

  /** Hand the entry to the table's pruning. */
  function MarkErased(p: PitEntry): (r: PitEntry)
    ensures r.erased && r.(erased := p.erased) == p
  {
    p.(erased := true)
  }
}
